=== FILE: README.md ===
# MQTT v3.1 packet codec (ruby-mqtt), modelled in Dafny

This project models the packet codec of the ruby-mqtt library. The codec turns packet objects
into their exact wire bytes (`to_s`) and turns bytes back into packet objects (`parse`). The
model follows the library file by file:

- `wrappers.dfy`: `Option`, `Result` and Ruby's `nil.to_i == 0`.
- `bytes.dfy` (module `Bytes`): the field primitives of `lib/mqtt/packet.rb`.
  - `encode_bytes`, `encode_short` and `encode_string` are functions.
  - The buffer that `shift_*` consume with `slice!` is a `Buffer` class. It holds a `seq<byte>`
    that its methods shorten.
  - Each method is specified by a pure reader (`ReadByte`, `ReadShort`, `ReadData`,
    `ReadString`). Each states that it removes the prefix it read and leaves the rest untouched.
- `remaining_length.dfy`: the Remaining Length field of the fixed header. It is base 128, least
  significant digit first, and bit 0x80 marks a digit that has a successor. This is the same
  algorithm as section 2.2.3 of OASIS MQTT Version 3.1.1.
- `registry.dfy`: `PACKET_TYPES`, with ids 1 to 14 mapped to packet classes and ids 0 and 15 to
  nil.
- `packet.dfy` (module `Packets`): the parts every packet class shares.
  - The base class becomes one `Packet` class. Its `body` field is a `Body` value holding the
    subclass's own instance variables, and its tag never changes.
  - It also holds the setters, `create_from_header`, the generic `parse_body` length check and
    the `Error` datatype. `Error` has one constructor per `raise`, and `IsProtocolError` tells
    `ProtocolException` apart from plain `raise` errors.
- One module per packet family, each with `encode_body` as a function and `parse_body` as a
  method on the packet and the buffer. Where the source loops, the model keeps the loop:
  - `connect.dfy`
  - `connack.dfy`: also holds `return_msg`.
  - `publish.dfy`
  - `subscribe.dfy`: also holds the `topics=` normaliser.
  - `suback.dfy`
  - `unsubscribe.dfy`
  - `message_id_packets.dfy`: PUBACK, PUBREC, PUBREL, PUBCOMP and UNSUBACK.
  - `empty_packets.dfy`: PINGREQ, PINGRESP and DISCONNECT.
- `codec.dfy` (module `Codec`): the whole packet.
  - `to_s` is the method `ToBytes`, with the source's digit loop.
  - `parse_header` is `ParseHeader`, with the source's length loop.
  - `parse` is `Parse`.
  - Each method is proved equal to a pure function (`Serialize`, `ReadHeader`, `ParsePacket`).
    The round trip `parse(to_s(p))` is then proved about those functions.

Every method that changes the buffer or the packet states its entire new state. It does this in
terms of a pure decoder, which returns the new field values and the unread bytes.

Ruby behaviour that the model spells out:

- Short reads give nil, modelled as `None`. `shift_byte` and `shift_short` return nil when too few
  bytes remain. `shift_string` then reads an empty string.
- Narrowing is written out. `pack('C')` keeps a value modulo 256, and `pack('n')` keeps it modulo
  65536.
- Bit tests are written as division and remainder on non-negative integers.
- A field left nil by a short read stays nil. Using it later raises Ruby's own
  `NoMethodError`/`TypeError`, which is modelled as an error value (`NilConnectFlags`,
  `NilKeepAlive`, `NilTopicQos`).

## Model

| member | source | states |
|---|---|---|
| Wrappers.ToI | lib/mqtt/packet/connack.rb:38 | `nil.to_i` is 0 and any integer is itself |
| Bytes.EncodeByte | lib/mqtt/packet.rb:225-227 | the byte written is the value modulo 256, and a value in 0..255 is written unchanged |
| Bytes.EncodeShort | lib/mqtt/packet.rb:230-232 | two bytes, big-endian, whose value is the argument modulo 65536 |
| Bytes.EncodeString | lib/mqtt/packet.rb:236-242 | a 2-byte length prefix followed by the bytes themselves; the prefix is the length whenever it fits in 16 bits |
| Bytes.ReadByte | lib/mqtt/packet.rb:251-253 | a byte is read exactly when one remains, and that byte followed by the rest is the input; an empty buffer gives nil |
| Bytes.ReadShort | lib/mqtt/packet.rb:245-248 | a value in 0..65535 is read exactly when two bytes remain, leaving the bytes after them; otherwise nil with the buffer emptied; `ReadShortEncodeShort` is its inverse |
| Bytes.ReadData | lib/mqtt/packet.rb:256-258 | the bytes taken followed by the bytes left are the input, and as many are taken as asked for, or all when fewer remain |
| Bytes.ReadString | lib/mqtt/packet.rb:261-266 | the string read and the bytes left together make up everything after the length prefix; some input is always consumed |
| Bytes.ReadByteEncodeByte | lib/mqtt/packet.rb:251-253 | reading a byte after writing it gives it back and leaves the rest untouched |
| Bytes.ReadShortEncodeShort | lib/mqtt/packet.rb:245-248 | `shift_short(encode_short(n) + rest)` is `n` with `rest` left, for n in 0..65535 |
| Bytes.ReadStringWhole | lib/mqtt/packet.rb:261-266 | when the bytes its 16-bit prefix counts are all there, `shift_string` takes exactly those and leaves the rest |
| Bytes.ReadStringEncodeString | lib/mqtt/packet.rb:261-266 | `shift_string(encode_string(s) + rest)` is `s` with `rest` left, for strings shorter than 65536 bytes |
| Bytes.Buffer.ShiftByte | lib/mqtt/packet.rb:251-253 | removes the first byte and returns it, or returns nil on an empty buffer |
| Bytes.Buffer.ShiftShort | lib/mqtt/packet.rb:245-248 | removes two bytes and returns their big-endian value; with fewer than two it returns nil and empties the buffer |
| Bytes.Buffer.ShiftData | lib/mqtt/packet.rb:256-258 | removes and returns up to n bytes; returned and remaining bytes together make up the old buffer |
| Bytes.Buffer.ShiftString | lib/mqtt/packet.rb:261-266 | removes a length prefix and that many bytes (fewer if the buffer ends), leaving the rest untouched |
| RemainingLength.EncodeLength | lib/mqtt/packet.rb:206-212 | at least one digit; bit 0x80 is set exactly on the digits that have a successor |
| RemainingLength.DecodeLength | lib/mqtt/packet.rb:81-92 | reads 1 to max digits and returns their base-128 value and the number read |
| RemainingLength.DigitsValueSnoc | lib/mqtt/packet.rb:89-90 | each further digit adds its low seven bits times the current multiplier |
| RemainingLength.DecodeLengthStopsAt | lib/mqtt/packet.rb:84-92 | the loop stops at the first digit without bit 0x80, or after the last permitted digit |
| RemainingLength.DecodeLengthIncomplete | lib/mqtt/packet.rb:85-87 | input that ends while every digit so far asks for more is incomplete |
| RemainingLength.EncodeLengthSize | lib/mqtt/packet.rb:206-212 | the encoding has at most k digits exactly when the length is below 128^k |
| RemainingLength.EncodeLengthAtMostFour | lib/mqtt/packet.rb:200-212 | every length up to 268435455 takes 1 to 4 digits |
| RemainingLength.EncodeLengthValue | lib/mqtt/packet.rb:206-212 | the digits written have the base-128 value of the length |
| RemainingLength.DigitsValue | lib/mqtt/packet.rb:89-90 | no contract of its own: `DigitsValueSnoc` says each digit adds its low 7 bits times the multiplier, and `EncodeLengthValue` that the digits written have the length as value |
| RemainingLength.DecodeEncodeLength | lib/mqtt/packet.rb:81-92 | the decoder reads back exactly the digits the encoder wrote and their value, whatever follows |
| RemainingLength.LengthRoundTrip | lib/mqtt/packet.rb:206-212 | for 0 <= L <= 268435455 the 4-digit header loop reads back L from the bytes `to_s` writes |
| RemainingLength.FourthContinuationStops | lib/mqtt/packet.rb:92 | a fourth digit with bit 0x80 set is not an error; the loop just stops |
| RemainingLength.DecodedLengthBounded | lib/mqtt/packet.rb:81-92 | no length read by the header loop exceeds 268435455 |
| RemainingLength.LengthBoundaries | lib/mqtt/packet.rb:206-212 | 127, 16383, 2097151 and 268435455 are the largest lengths written in 1, 2, 3 and 4 digits |
| Registry.Lookup | lib/mqtt/packet.rb:282-299 | exactly ids 0 and 15 have no packet class |
| Registry.TypeId | lib/mqtt/packet.rb:132-138 | every class has exactly one position in the table, between 1 and 14 |
| Registry.LookupTypeId | lib/mqtt/packet.rb:282-299 | looking a class's id up gives the class back, and the id of a looked-up class is the id |
| Packets.Defaults | lib/mqtt/packet.rb:27-32 | the initial body of each class has that class |
| Packets.NewPacket | lib/mqtt/packet.rb:113-117 | a QoS outside 0..2 is refused; otherwise the given flags, body length 0, the class defaults and QoS 1 for SUBSCRIBE/UNSUBSCRIBE |
| Packets.HeaderByte | lib/mqtt/packet.rb:189-194 | high nibble is the type id, bit 3 the duplicate flag, bits 2-1 the QoS modulo 4, bit 0 the retain flag |
| Packets.FromHeaderOutcome | lib/mqtt/packet.rb:104-118 | type ids 0 and 15 raise a protocol error, both QoS bits set is refused, and otherwise the new packet's `type_id` is the high nibble |
| Packets.FromHeader | lib/mqtt/packet.rb:104-118 | no contract of its own: `FromHeaderOutcome` gives its outcome for every byte and `FromHeaderByte` that it recreates the header `to_s` writes |
| Packets.FromHeaderByte | lib/mqtt/packet.rb:104-118 | `create_from_header` of the byte `to_s` writes restores class, duplicate, QoS and retain |
| Packets.Packet.TypeId | lib/mqtt/packet.rb:132-138 | `type_id` is between 1 and 14 and looking it up gives the packet's own class |
| Packets.Packet.constructor | lib/mqtt/packet.rb:121-123 | a new packet has the base defaults, the class defaults and SUBSCRIBE/UNSUBSCRIBE at QoS 1 |
| Packets.Packet.SetDuplicate | lib/mqtt/packet.rb:141-147 | an integer argument sets the flag to `arg != 0`, and a boolean is stored as given |
| Packets.FlagValue | lib/mqtt/packet.rb:141-156 | no contract of its own: `Packet.SetDuplicate` and `Packet.SetRetain` state the flag it gives, `arg != 0` for an integer and the boolean itself otherwise |
| Packets.Packet.SetRetain | lib/mqtt/packet.rb:150-156 | an integer argument sets the flag to `arg != 0`, and a boolean is stored as given |
| Packets.Packet.SetQos | lib/mqtt/packet.rb:159-164 | stores the value, then raises exactly when it is outside 0..2 |
| Packets.New | lib/mqtt/packet.rb:113-117 | a fresh packet whose state is `NewPacket`, or the same error |
| Packets.CreateFromHeader | lib/mqtt/packet.rb:104-118 | a fresh packet whose state is `FromHeader` of the byte, or the same error |
| Packets.CheckBodyLength | lib/mqtt/packet.rb:172-178 | succeeds exactly when the buffer holds the declared body length |
| EmptyPackets.DecodeAcceptsOnlyEmpty | lib/mqtt/packet/disconnect.rb:11-16 | only a declared length of 0 with no bytes is accepted; any other length of matching size is "Extra bytes"; every failure is a protocol error |
| EmptyPackets.Decode | lib/mqtt/packet/disconnect.rb:11-16 | a size other than the declared one is the length mismatch; success leaves the packet as it was, consumes nothing and needs a declared length of 0 |
| EmptyPackets.ParseBody | lib/mqtt/packet/pingreq.rb:12-17 | the method fails exactly when the decoder does, with the same error |
| MessageIdPackets.WithId | lib/mqtt/packet/pubcomp.rb:7 | a packet of the same class holding the given message identifier |
| MessageIdPackets.RoundTrip | lib/mqtt/packet/pubcomp.rb:15-26 | the body is exactly 2 bytes and reads back any message identifier in 0..65535 |
| MessageIdPackets.DecodeOutcome | lib/mqtt/packet/unsuback.rb:20-26 | more than 2 bytes is "Extra bytes"; exactly 2 give the big-endian identifier; fewer leave it nil |
| MessageIdPackets.Encode | lib/mqtt/packet/pubcomp.rb:15-17 | two bytes holding the identifier big-endian, modulo 65536, nil counting as 0 |
| MessageIdPackets.Decode | lib/mqtt/packet/pubcomp.rb:20-26 | a size other than the declared one is the length mismatch; success keeps the class, uses at most 2 bytes and leaves nothing |
| MessageIdPackets.ParseBody | lib/mqtt/packet/unsuback.rb:20-26 | the packet's new body and the buffer are what the decoder gives, or its error |
| ConnackPacket.Encode | lib/mqtt/packet/connack.rb:35-40 | exactly two bytes: 0, then the return code modulo 256 |
| ConnackPacket.RoundTrip | lib/mqtt/packet/connack.rb:43-50 | any return code in 0..255 reads back unchanged |
| ConnackPacket.EncodeTruncates | lib/mqtt/packet/connack.rb:38 | a code outside 0..255 reads back as the code modulo 256, so not as itself |
| ConnackPacket.DecodeOutcome | lib/mqtt/packet/connack.rb:43-50 | more than 2 bytes raise "Extra bytes"; the return code is the second byte; the first is ignored |
| ConnackPacket.Decode | lib/mqtt/packet/connack.rb:43-50 | a size other than the declared one is the length mismatch; more than 2 bytes of the declared size raise "Extra bytes"; success leaves nothing |
| ConnackPacket.ParseBody | lib/mqtt/packet/connack.rb:43-50 | the packet's new body and the buffer are what the decoder gives, or its error |
| ConnackPacket.DigitChar | lib/mqtt/packet/connack.rb:30 | the decimal digit character of a value in 0..9 |
| ConnackPacket.NatToString | lib/mqtt/packet/connack.rb:30 | Ruby's decimal rendering is made of digits and has no leading zero |
| ConnackPacket.NatToStringValue | lib/mqtt/packet/connack.rb:30 | reading the decimal rendering back gives the number |
| ConnackPacket.NatToStringInjective | lib/mqtt/packet/connack.rb:30 | different non-negative numbers render differently |
| ConnackPacket.IntToStringInjective | lib/mqtt/packet/connack.rb:30 | different integers render differently, signs included |
| ConnackPacket.IntToString | lib/mqtt/packet/connack.rb:30 | a non-empty rendering that starts with '-' exactly for a negative number; `IntToStringInjective` makes it one-to-one |
| ConnackPacket.ReturnMsgMeaning | lib/mqtt/packet/connack.rb:15-32 | "Connection Accepted" exactly for code 0; every other message starts "Connection refused: "; codes outside 0..5 give the generic message with the code |
| ConnackPacket.ReturnMsg | lib/mqtt/packet/connack.rb:15-32 | no contract of its own: `ReturnMsgMeaning`, `RefusalPrefix` and `ReturnMsgInjective` state what the messages say and that no two codes share one |
| ConnackPacket.RefusalPrefix | lib/mqtt/packet/connack.rb:15-32 | every message except the one for code 0, nil included, is longer than 20 characters and starts "Connection refused: " |
| ConnackPacket.FixedDiffersFromGeneric | lib/mqtt/packet/connack.rb:15-32 | no generic message equals one of the six fixed ones |
| ConnackPacket.ReturnMsgInjective | lib/mqtt/packet/connack.rb:15-32 | different return codes give different messages |
| ConnackPacket.AcceptedBody | lib/mqtt/packet/connack.rb:35-50 | the default CONNACK body is `00 00`; `00 05` reads as code 5, "not authorised" |
| ConnectPacket.ConnectFlags | lib/mqtt/packet/connect.rb:55-61 | bit 0 clear, bit 1 clean session, bit 2 will topic present, bits 3-4 will QoS modulo 4, bit 5 will retain, bit 6 password present, bit 7 username present |
| ConnectPacket.OptionalString | lib/mqtt/packet/connect.rb:71-72 | nothing is written exactly for a nil field |
| ConnectPacket.WillBytes | lib/mqtt/packet/connect.rb:66-70 | the will fields are written exactly when there is a will topic |
| ConnectPacket.FieldBytes | lib/mqtt/packet/connect.rb:64-72 | keep-alive and client identifier always come first, whatever optional fields follow |
| ConnectPacket.Encode | lib/mqtt/packet/connect.rb:42-74 | succeeds exactly when the client identifier is 1..23 bytes and keep-alive is a non-negative integer; a bad identifier is refused before keep-alive is looked at |
| ConnectPacket.ReadWill | lib/mqtt/packet/connect.rb:98-105 | with bit 2 set, topic and message are both read; otherwise nothing is read and the will fields keep their values |
| ConnectPacket.ReadOptional | lib/mqtt/packet/connect.rb:106-111 | with its flag set and bytes left, a string is read, and it and the rest are what follows its length prefix; otherwise the value and the bytes stay as they were |
| ConnectPacket.DecodeFields | lib/mqtt/packet/connect.rb:94-111 | clean session from bit 1; will QoS and retain from bits 3-5 only when bit 2 is set; username and password only when their bit is set |
| ConnectPacket.Decode | lib/mqtt/packet/connect.rb:77-112 | a buffer of the wrong size is refused first; any CONNECT it accepts has protocol name "MQIsdp" and version 3 (`DecodeAccepted` and the refusal lemmas below tie the result to the bytes for every body) |
| ConnectPacket.NameBytes | lib/mqtt/packet/connect.rb:82-86 | for a body of at least 9 bytes, the name read is "MQIsdp" exactly when the first 8 bytes are its length-prefixed encoding |
| ConnectPacket.DecodeAccepted | lib/mqtt/packet/connect.rb:77-112 | a body of the declared size is accepted exactly when it has at least 10 bytes, starts with the encoded "MQIsdp" and has version byte 3; the packet is then `DecodeFields` of byte 8 as flags and the bytes after it |
| ConnectPacket.ShiftWill | lib/mqtt/packet/connect.rb:98-105 | the will topic, will message and buffer left are those `ReadWill` gives |
| ConnectPacket.ShiftOptional | lib/mqtt/packet/connect.rb:106-111 | a user name or password is shifted exactly when its flag is set and bytes remain, as `ReadOptional` says |
| ConnectPacket.ShiftFields | lib/mqtt/packet/connect.rb:94-111 | the fields read and the buffer left are those of `DecodeFields` |
| ConnectPacket.ParseBody | lib/mqtt/packet/connect.rb:77-112 | the packet's new body and the buffer are what the decoder gives, or its error |
| ConnectPacket.Received | lib/mqtt/packet/connect.rb:22-34 | a CONNECT with a will topic is read back exactly as it was sent |
| ConnectPacket.ReadOptionalString | lib/mqtt/packet/connect.rb:106-111 | an optional string written when present is read back when its flag is set |
| ConnectPacket.ReadWillEncoded | lib/mqtt/packet/connect.rb:98-105 | the will fields written are read back, with nothing consumed when there is no will |
| ConnectPacket.ReadsEncoded | lib/mqtt/packet/connect.rb:64-72 | keep-alive, client identifier, will, username and password are each read back in the order written |
| ConnectPacket.DecodeFieldsEncoded | lib/mqtt/packet/connect.rb:94-111 | the fields after the flags byte read back as `Received` says |
| ConnectPacket.DecodeEncode | lib/mqtt/packet/connect.rb:42-112 | the whole body reads back, whatever follows it |
| ConnectPacket.RoundTrip | lib/mqtt/packet/connect.rb:42-112 | an initial CONNECT parses the encoded body into `Received(b)`; every field is restored |
| ConnectPacket.OtherProtocolRefused | lib/mqtt/packet/connect.rb:82-86 | any body of the declared size whose name string is not "MQIsdp" is refused with the unsupported-protocol-name error carrying that name |
| ConnectPacket.OtherVersionRefused | lib/mqtt/packet/connect.rb:88-92 | any body of the declared size named "MQIsdp" whose next byte is not 3 is refused with the unsupported-version error carrying that byte |
| ConnectPacket.MissingFlags | lib/mqtt/packet/connect.rb:94-95 | for any CONNECT packet, a body that ends right after "MQIsdp" and version 3 fails on the missing flags byte |
| ConnectPacket.KeepAliveWraps | lib/mqtt/packet/connect.rb:64 | keep-alive 65536 is written as 0, with no error |
| ConnectPacket.WillBitsWithoutWill | lib/mqtt/packet/connect.rb:57-58 | will QoS bits are written even when there is no will topic |
| ConnectPacket.TestClientExample | lib/mqtt/packet/connect.rb:42-74 | client "test" with keep-alive 10 encodes to the 18-byte body `00 06 'MQIsdp' 03 02 00 0A 00 04 'test'` |
| PublishPacket.Encode | lib/mqtt/packet/publish.rb:22-31 | refused exactly for a nil or empty topic; the length has 2 more bytes exactly when QoS is not 0; the payload comes last, unchanged |
| PublishPacket.Decode | lib/mqtt/packet/publish.rb:34-39 | accepted exactly at the declared size, otherwise the length mismatch; when the body holds its whole topic (and the identifier's two bytes unless QoS is 0), the topic is the bytes its prefix counts, the identifier the next two bytes big-endian (at QoS 0 the packet's own is kept), and the payload every byte after them |
| PublishPacket.DecodeTotal | lib/mqtt/packet/publish.rb:34-39 | a body of the declared length is always accepted, and it always has a topic |
| PublishPacket.RoundTrip | lib/mqtt/packet/publish.rb:22-39 | topic and payload read back; the message identifier reads back when QoS is not 0 and otherwise keeps the packet's own |
| PublishPacket.ParseBody | lib/mqtt/packet/publish.rb:34-39 | the packet's new body and the buffer are what the decoder gives, or its error |
| PublishPacket.Example | lib/mqtt/packet/publish.rb:22-31 | the same PUBLISH encodes with its identifier at QoS 1 and without it at QoS 0 |
| SubackPacket.WithGrantedQos | lib/mqtt/packet/suback.rb:18-26 | an array is stored as given, an integer as a one-element array, and anything else raises |
| SubackPacket.SetGrantedQos | lib/mqtt/packet/suback.rb:18-26 | the packet's levels are those `WithGrantedQos` gives, and an error leaves them unchanged |
| SubackPacket.LevelBytes | lib/mqtt/packet/suback.rb:33-35 | one byte per level, in order, each the level modulo 256 |
| SubackPacket.Encode | lib/mqtt/packet/suback.rb:29-36 | refused exactly for an empty list; otherwise 2 + n bytes |
| SubackPacket.EncodeBody | lib/mqtt/packet/suback.rb:29-36 | the bytes appended by the loop are those of `Encode` |
| SubackPacket.ParseBody | lib/mqtt/packet/suback.rb:39-45 | the packet's new body and the buffer are what the decoder gives, or its error |
| SubackPacket.RoundTrip | lib/mqtt/packet/suback.rb:29-45 | an initial SUBACK reads back the message identifier and every level in 0..255, in order |
| SubackPacket.DecodeAppends | lib/mqtt/packet/suback.rb:41-44 | the bytes after the identifier are appended to the levels already held |
| SubackPacket.Decode | lib/mqtt/packet/suback.rb:39-45 | accepted exactly at the declared size, otherwise the length mismatch; on success every byte after the identifier is appended, in order, to the levels held |
| SubackPacket.DecodeTotal | lib/mqtt/packet/suback.rb:39-45 | a body is accepted exactly when it has the declared length |
| UnsubscribePacket.WithTopics | lib/mqtt/packet/unsubscribe.rb:17-23 | an array is stored as given, and any other value as a one-element array |
| UnsubscribePacket.SetTopics | lib/mqtt/packet/unsubscribe.rb:17-23 | the packet's topics are those `WithTopics` gives |
| UnsubscribePacket.Encode | lib/mqtt/packet/unsubscribe.rb:26-33 | refused exactly for an empty list; otherwise it starts with the 2-byte message identifier |
| UnsubscribePacket.EncodeBody | lib/mqtt/packet/unsubscribe.rb:26-33 | the bytes appended by the loop are those of `Encode` |
| UnsubscribePacket.DecodeStrings | lib/mqtt/packet/unsubscribe.rb:39-41 | never more strings than bytes |
| UnsubscribePacket.ParseBody | lib/mqtt/packet/unsubscribe.rb:36-42 | the packet's new body and the buffer are what the decoder gives, or its error |
| UnsubscribePacket.DecodeEncodeStrings | lib/mqtt/packet/unsubscribe.rb:39-41 | the strings written are read back in order |
| UnsubscribePacket.RoundTrip | lib/mqtt/packet/unsubscribe.rb:26-42 | an initial UNSUBSCRIBE reads back the message identifier and every topic, in order |
| UnsubscribePacket.DecodeAppends | lib/mqtt/packet/unsubscribe.rb:38-41 | the topics read are appended to those already held |
| UnsubscribePacket.Decode | lib/mqtt/packet/unsubscribe.rb:36-42 | accepted exactly at the declared size, otherwise the length mismatch; on success the topics held stay in front and nothing is left |
| SubscribePacket.NameLeReflexive | lib/mqtt/packet/subscribe.rb:42 | the order `Hash#sort` uses on names is reflexive |
| SubscribePacket.NameLeTotal | lib/mqtt/packet/subscribe.rb:42 | any two names are ordered one way or the other |
| SubscribePacket.NameLeAntisymmetric | lib/mqtt/packet/subscribe.rb:42 | two names ordered both ways are equal |
| SubscribePacket.NameLeTransitive | lib/mqtt/packet/subscribe.rb:42 | the order on names is transitive |
| SubscribePacket.EntryLeTotal | lib/mqtt/packet/subscribe.rb:42 | any two hash pairs are ordered one way or the other |
| SubscribePacket.EntryLeTransitive | lib/mqtt/packet/subscribe.rb:42 | the order on pairs is transitive |
| SubscribePacket.EntryLeAntisymmetric | lib/mqtt/packet/subscribe.rb:42 | two pairs ordered both ways are equal |
| SubscribePacket.InsertSorted | lib/mqtt/packet/subscribe.rb:42 | inserting into a sorted list keeps it sorted |
| SubscribePacket.InsertCount | lib/mqtt/packet/subscribe.rb:42 | inserting adds exactly the new pair and loses none |
| SubscribePacket.SortEntries | lib/mqtt/packet/subscribe.rb:42 | the result is sorted and a permutation of the hash's pairs |
| SubscribePacket.SortedHeadsEqual | lib/mqtt/packet/subscribe.rb:42 | two sorted permutations of each other begin with the same pair |
| SubscribePacket.TailMultiset | lib/mqtt/packet/subscribe.rb:42 | removing the head removes one occurrence from the multiset |
| SubscribePacket.SortedUnique | lib/mqtt/packet/subscribe.rb:42 | there is only one sorted order of a hash's pairs |
| SubscribePacket.Flatten | lib/mqtt/packet/subscribe.rb:32 | no array is left in a flattened array; `FlattenFlat` and `FlattenAppend` state that the leaves are kept, in order |
| SubscribePacket.FlattenFlat | lib/mqtt/packet/subscribe.rb:32 | an array with no nested array flattens to itself |
| SubscribePacket.FlattenAppend | lib/mqtt/packet/subscribe.rb:32 | flattening a concatenation is the concatenation of the flattened parts, so leaves keep their order |
| SubscribePacket.EntryTopics | lib/mqtt/packet/subscribe.rb:42 | each hash pair becomes a (topic, QoS) pair, in order |
| SubscribePacket.SetTopics | lib/mqtt/packet/subscribe.rb:29-57 | the packet's topics are those the normaliser gives; a refused item raises "Invalid topics input" |
| SubscribePacket.HashSorted | lib/mqtt/packet/subscribe.rb:40-42 | a hash gives its pairs sorted by name, each exactly once |
| SubscribePacket.NormaliseHash | lib/mqtt/packet/subscribe.rb:40-42 | a hash anywhere in the work list contributes its pairs sorted by name, ahead of what the items after it give |
| SubscribePacket.EntryTopicsMultiset | lib/mqtt/packet/subscribe.rb:42 | reordering the hash pairs only reorders the topics |
| SubscribePacket.EntryTopicsCount | lib/mqtt/packet/subscribe.rb:42 | each pair occurs in the topics as often as in the hash |
| SubscribePacket.NormaliseName | lib/mqtt/packet/subscribe.rb:43-50 | a string not followed by an integer is subscribed at QoS 0 |
| SubscribePacket.Input | lib/mqtt/packet/subscribe.rb:31-35 | the work list holds no array, and a value that is not an array is the whole list |
| SubscribePacket.Normalise | lib/mqtt/packet/subscribe.rb:37-56 | no contract of its own: `NormaliseName`, `NormaliseNamedQos`, `NormaliseRefuses` and `NormaliseHash` (with `HashSorted`) state each kind of item, and `SetTopics` that the loop computes it |
| SubscribePacket.NormaliseNamedQos | lib/mqtt/packet/subscribe.rb:43-47 | a string followed by an integer is subscribed at that QoS, and the integer is consumed |
| SubscribePacket.NormaliseRefuses | lib/mqtt/packet/subscribe.rb:51-54 | any item that is neither a hash nor a string is refused |
| SubscribePacket.SingleNameExample | lib/mqtt/packet/subscribe.rb:24 | `'a/b'` gives `[['a/b', 0]]` |
| SubscribePacket.NameListExample | lib/mqtt/packet/subscribe.rb:25 | `['a/b', 'c/d']` gives both names at QoS 0 |
| SubscribePacket.NestedPairsExample | lib/mqtt/packet/subscribe.rb:26 | `[['a/b',0], ['c/d',1]]` gives the pairs as written |
| SubscribePacket.HashExample | lib/mqtt/packet/subscribe.rb:27 | `{'c/d' => 1, 'a/b' => 0}` gives the pairs sorted by name |
| SubscribePacket.StrayIntegerExample | lib/mqtt/packet/subscribe.rb:51-54 | an integer with no string before it is refused, after the pairs already gathered |
| SubscribePacket.Encode | lib/mqtt/packet/subscribe.rb:59-70 | refused for an empty list or a nil QoS; otherwise 2 bytes plus at least 3 per topic |
| SubscribePacket.ConcatLength | lib/mqtt/packet/subscribe.rb:65-68 | each topic takes at least 3 bytes |
| SubscribePacket.EncodeBody | lib/mqtt/packet/subscribe.rb:59-70 | the bytes appended by the loop are those of `Encode` |
| SubscribePacket.ParseBody | lib/mqtt/packet/subscribe.rb:73-82 | the packet's new body and the buffer are what the decoder gives, or its error |
| SubscribePacket.DecodeEncodeTopics | lib/mqtt/packet/subscribe.rb:77-81 | the (topic, QoS) pairs written are read back in order |
| SubscribePacket.TopicBytes | lib/mqtt/packet/subscribe.rb:65-68 | no contract of its own: `ConcatLength` bounds its size and `DecodeEncodeTopics` reads the pairs back |
| SubscribePacket.DecodeTopics | lib/mqtt/packet/subscribe.rb:77-81 | never more pairs than bytes; `DecodeEncodeTopics` makes it the inverse of the encoding |
| SubscribePacket.Decode | lib/mqtt/packet/subscribe.rb:73-82 | accepted exactly at the declared size, otherwise the length mismatch; on success the list is replaced by at most one pair per byte and nothing is left; the message id is the first two bytes (none when fewer) and the pairs are those `DecodeTopics` reads from the bytes after them |
| SubscribePacket.RoundTrip | lib/mqtt/packet/subscribe.rb:59-82 | the message identifier and every pair are read back, whatever the packet held before |
| SubscribePacket.TruncatedPair | lib/mqtt/packet/subscribe.rb:77-81 | a pair cut off before its QoS byte is kept with a nil QoS |
| Codec.BodyBytes | lib/mqtt/packet.rb:181-183 | no `encode_body` error is a protocol error; the inherited body is empty; fixed-size bodies are 2 bytes |
| Codec.Serialize | lib/mqtt/packet.rb:187-216 | succeeds exactly when `encode_body` does and the body fits 268435455 bytes; then 2 to 5 header bytes starting with the type byte, then the body unchanged |
| Codec.TypeByte | lib/mqtt/packet.rb:189-194 | the high nibble is the class's type id, bit 3 the duplicate flag, bit 0 the retain flag, and bits 1-2 the QoS when it is 0..3 |
| Codec.ReadHeader | lib/mqtt/packet.rb:70-101 | 2 to 5 header bytes are removed and the rest is untouched; the length is at most 268435455; all failures are protocol errors or a refused QoS |
| Codec.ClassDecode | lib/mqtt/packet.rb:172-178 | a buffer whose size is not the declared length is refused first; the class never changes |
| Codec.ReadBody | lib/mqtt/packet.rb:172-178 | only the body fields change; the flags and the declared length stay |
| Codec.EncodeBody | lib/mqtt/packet.rb:180-183 | the loop methods produce the bytes `BodyBytes` says |
| Codec.ToBytes | lib/mqtt/packet.rb:187-216 | the bytes `Serialize` gives, or its error |
| Codec.LengthDigits | lib/mqtt/packet.rb:205-212 | the digit loop pushes exactly the Remaining Length digits `EncodeLength` gives |
| Codec.ParseHeader | lib/mqtt/packet.rb:70-101 | a fresh packet as `ReadHeader` makes it, or its error, with exactly the header removed from the buffer |
| Codec.ReadLength | lib/mqtt/packet.rb:80-92 | the digit loop gives the length and digit count `DecodeLength` gives, or nothing when the bytes run out first |
| Codec.ParseBody | lib/mqtt/packet.rb:172-178 | the packet's new state is `ReadBody` of the old one, or its error |
| Codec.Parse | lib/mqtt/packet.rb:62-66 | a fresh packet equal to `ParsePacket` of the buffer, or its error |
| Codec.HeaderRoundTrip | lib/mqtt/packet.rb:70-101 | the header `to_s` writes reads back the class, the flags and the body length, and leaves what follows untouched |
| Codec.Delivered | lib/mqtt/packet.rb:62-66 | the packet that arrives keeps the class, duplicate and retain flags, and has the body length that was sent |
| Codec.BodyRoundTrip | lib/mqtt/packet.rb:172-183 | every class's `parse_body` restores what its `encode_body` wrote |
| Codec.ConnectBodyRoundTrip | lib/mqtt/packet/connect.rb:42-112 | a CONNECT body reads back as `Received` says |
| Codec.ConnackBodyRoundTrip | lib/mqtt/packet/connack.rb:35-50 | a CONNACK body reads back its return code |
| Codec.PublishBodyRoundTrip | lib/mqtt/packet/publish.rb:22-39 | a PUBLISH body reads back its topic, payload and, unless QoS is 0, its identifier |
| Codec.SubscribeBodyRoundTrip | lib/mqtt/packet/subscribe.rb:59-82 | a SUBSCRIBE body reads back its identifier and pairs |
| Codec.SubackBodyRoundTrip | lib/mqtt/packet/suback.rb:29-45 | a SUBACK body reads back its identifier and levels |
| Codec.UnsubscribeBodyRoundTrip | lib/mqtt/packet/unsubscribe.rb:26-42 | an UNSUBSCRIBE body reads back its identifier and topics |
| Codec.MessageIdBodyRoundTrip | lib/mqtt/packet/pubcomp.rb:15-26 | a message-identifier body reads back its identifier |
| Codec.EmptyBodyRoundTrip | lib/mqtt/packet/pingresp.rb:12-17 | an empty body reads back as the same packet |
| Codec.PacketRoundTrip | lib/mqtt/packet.rb:62-66 | `parse(to_s(p))` succeeds and gives `p` back, up to the differences `Delivered` names |
| Codec.ParsePacket | lib/mqtt/packet.rb:62-66 | fewer than 2 bytes are refused; a parsed packet's declared length is exactly what follows a header of 2 to 5 bytes, and at most 268435455 |
| Codec.TrailingBytesRefused | lib/mqtt/packet.rb:172-178 | any byte after a whole packet makes `parse` fail with a length mismatch naming the size of all that follows the header |
| Codec.TruncatedBodyRefused | lib/mqtt/packet.rb:172-178 | a packet cut off inside its body makes `parse` fail with a length mismatch |
| Codec.HeaderErrors | lib/mqtt/packet.rb:72-92 | fewer than 2 bytes, type id 0 or 15, QoS 3, or a length field cut short are each refused |
| Codec.FourDigitHeader | lib/mqtt/packet.rb:84-98 | `30 FF FF FF FF` is a PUBLISH of length 268435455 whose header ends after the fourth digit |
| Codec.EmptySerialized | lib/mqtt/packet.rb:181-216 | a packet with the inherited empty body is its type byte and a zero length |
| Codec.EmptyPacketBytes | lib/mqtt/packet.rb:187-216 | default DISCONNECT, PINGREQ and PINGRESP serialise to `E0 00`, `C0 00` and `D0 00` |
| Codec.DisconnectParsed | lib/mqtt/packet/disconnect.rb:11-16 | `E0 00` parses to a DISCONNECT |
| Codec.DisconnectBodyRefused | lib/mqtt/packet/disconnect.rb:11-16 | `E0 01 00` raises "Extra bytes" |
| Codec.ConnackBytes | lib/mqtt/packet/connack.rb:43-50 | `20 02 00 00` parses to a CONNACK with return code 0 and all flags clear |

The round trip (`Codec.PacketRoundTrip`) holds for packets where `Codec.Transmittable` holds:

- a QoS the setter accepts;
- values that fit their wire widths, i.e. identifiers and string lengths below 65536, and QoS
  and return codes below 256;
- the non-empty topic and lists that `encode_body` insists on;
- for CONNECT, the default protocol name and version.

`Codec.Delivered` says what such a packet becomes after the round trip:

- SUBSCRIBE and UNSUBSCRIBE come back at QoS 1.
- A CONNECT without a will topic comes back with its will QoS, retain flag and message at their
  defaults, because they are not sent.
- A QoS 0 PUBLISH comes back with message identifier 0, because it is not on the wire.

## Left out

- `MQTT::Packet.read` and `read_byte` (lib/mqtt/packet.rb:35-59, 272-278) read from a socket. That is blocking I/O, and their length loop repeats the one in `parse_header`, which is modelled.
- UTF-8 transcoding (`encode('UTF-8')`, `force_encoding`) is a Ruby library call. Strings, topic names and payloads are byte sequences.
- `update_attributes` and its `send` dispatch are left out. Packets are built from typed fields: `Packet.constructor` and `New` for the arguments `create_from_header` passes, then the setters (`SetDuplicate`, `SetRetain`, `SetQos`, `SubackPacket.SetGrantedQos`, `SubscribePacket.SetTopics`, `UnsubscribePacket.SetTopics`).
- `body_length=` is not modelled as a setter. `parse_header` stores the length directly, and a new packet starts at 0.
- `inspect` methods, the `clean_start` alias and the `@connect_flags` instance variable are left out. The flags byte is computed by `ConnectFlags` and is never read back from the object.
- The PUBACK, PUBREC and PUBREL classes are not part of this model. Their registry slots (4 to 6) are kept. Their bodies are assumed to follow `pubcomp.rb`, one big-endian message identifier and nothing else, as `MessageIdPackets` states.
- `PublishPacket.ParseBody`: the payload is a copy of the remaining bytes. In Ruby it is the buffer object itself, so later changes to the caller's buffer would show in the payload; that aliasing is not modelled.
- `SubackPacket.SetGrantedQos` and `UnsubscribePacket.SetTopics` store a copy of the list they are given. Ruby keeps the caller's Array object itself (lib/mqtt/packet/suback.rb:19-20, lib/mqtt/packet/unsubscribe.rb:18-19). Two effects of that aliasing are not modelled: later changes the caller makes to its array would show in the packet and in `to_s`, and a later `parse_body` appending with `<<` (suback.rb:43, unsubscribe.rb:40) would grow the caller's array.
- A `parse_body` that raises part way has already assigned some fields. The model's methods do not promise anything about those fields on error, because `parse` discards the packet.
- `Bytes.Buffer.ShiftString`: when the length prefix is missing, the model reads an empty string. Ruby 2.6 and later do the same (an endless range). Older Ruby raises `ArgumentError` instead.
- `Bytes.EncodeString` keeps only the low 16 bits of a length above 65535, as `pack('n')` does. The round-trip lemmas therefore require every string to be shorter than 65536 bytes.
- `ConnectPacket.Encode`: keep-alive values above 65535 wrap modulo 65536 instead of being refused (`ConnectPacket.KeepAliveWraps`). The round trip therefore requires keep-alive in 0..65535.
- `ConnectPacket.Encode` checks only the client identifier and keep-alive, as the source does. A will QoS above 3 is written modulo 4, so the round trip requires 0..3.
- `Codec.PacketRoundTrip` compares with `Delivered`, not with the packet sent. Fields that are not on the wire cannot come back.
- `Packets.Error` replaces Ruby's exception classes. It keeps only the kind of error and the values the message quotes.

=== FILE: bytes.dfy ===
/**
 * Field primitives of MQTT v3.1 (lib/mqtt/packet.rb, the protected encode_* and shift_*
 * helpers): one byte, a 16-bit big-endian integer and a length-prefixed string, encoded into
 * bytes or consumed from the front of a mutable buffer.
 *
 * Ruby's bitwise operators on non-negative integers are written as the equal arithmetic:
 * `x & 0x7F` is `x % 128`, `x >> 4` is `x / 16`, and so on.
 */
module Bytes {
  import opened Wrappers

  type byte = x: int | 0 <= x < 256

  /** `[v].pack('C')`: one byte holding the low eight bits of `v` (two's complement for negatives). */
  function EncodeByte(v: int): (b: byte)
    ensures (v - b) % 256 == 0
    ensures 0 <= v < 256 ==> b == v
  {
    v % 256
  }

  /** `[v.to_i].pack('n')`: the low 16 bits of `v`, most significant byte first. */
  function EncodeShort(v: int): (r: seq<byte>)
    ensures |r| == 2
    ensures r[0] as int * 256 + r[1] == v % 65536
  {
    [(v / 256) % 256, v % 256]
  }

  /** `encode_string`: the byte length as a 16-bit prefix, then the bytes themselves. */
  function EncodeString(s: seq<byte>): (r: seq<byte>)
    ensures |r| == |s| + 2 && r[2..] == s
    ensures |s| < 65536 ==> r[0] as int * 256 + r[1] == |s|
  {
    EncodeShort(|s|) + s
  }

  /** The bytes `f` gives each element, concatenated in order (the `each` loops of the encoders). */
  function Concat<T>(xs: seq<T>, f: T -> seq<byte>): seq<byte>
  {
    if |xs| == 0 then [] else f(xs[0]) + Concat(xs[1..], f)
  }

  lemma {:induction false} ConcatSnoc<T>(xs: seq<T>, x: T, f: T -> seq<byte>)
    ensures Concat(xs + [x], f) == Concat(xs, f) + f(x)
  {
    if |xs| == 0 {
      assert xs + [x] == [x];
    } else {
      assert (xs + [x])[1..] == xs[1..] + [x];
      ConcatSnoc(xs[1..], x, f);
    }
  }

  // Readers: what each shift_* method returns and what it leaves in the buffer.
  // `String#slice!` removes as many bytes as there are, up to the requested count, and
  // `unpack` yields nil when fewer bytes arrive than the format needs.

  /** `shift_byte`: nil on an empty buffer. */
  function ReadByte(s: seq<byte>): (r: (Option<byte>, seq<byte>))
    ensures r.0.Some? <==> |s| > 0
    ensures r.0.Some? ==> [r.0.value] + r.1 == s
    ensures r.0.None? ==> r.1 == []
  {
    if |s| == 0 then (None, s) else (Some(s[0]), s[1..])
  }

  /** `shift_short`: takes up to two bytes; nil unless both were there. */
  function ReadShort(s: seq<byte>): (r: (Option<int>, seq<byte>))
    ensures r.0.Some? <==> |s| >= 2
    ensures r.0.Some? ==> 0 <= r.0.value < 65536 && r.1 == s[2..]
    ensures r.0.None? ==> r.1 == []
  {
    if |s| < 2 then (None, []) else (Some(s[0] as int * 256 + s[1]), s[2..])
  }

  /** `shift_data`: the first `n` bytes, or all of them if fewer remain. */
  function ReadData(s: seq<byte>, n: nat): (r: (seq<byte>, seq<byte>))
    ensures r.0 + r.1 == s
    ensures |r.0| == if n <= |s| then n else |s|
  {
    if n <= |s| then (s[..n], s[n..]) else (s, [])
  }

  /**
   * `shift_string`: a 16-bit length, then that many bytes. When the length itself is nil
   * (fewer than two bytes were left) the buffer is already empty and the string is empty.
   */
  function ReadString(s: seq<byte>): (r: (seq<byte>, seq<byte>))
    ensures r.0 + r.1 == s[if |s| < 2 then |s| else 2..]
    ensures |r.1| <= |s| && (|s| > 0 ==> |r.1| < |s|)
  {
    var (len, rest) := ReadShort(s);
    match len
    case None => ([], rest)
    case Some(n) => ReadData(rest, n)
  }

  /** When the whole string is there, `shift_string` takes exactly the bytes its prefix counts. */
  lemma ReadStringWhole(s: seq<byte>)
    ensures |s| >= 2 ==> var n := s[0] as int * 256 + s[1] as int;
            2 + n <= |s| ==> ReadString(s) == (s[2..2 + n], s[2 + n..])
  {
    if |s| >= 2 {
      var n := s[0] as int * 256 + s[1] as int;
      assert ReadShort(s) == (Some(n), s[2..]);
      if 2 + n <= |s| {
        assert s[2..][..n] == s[2..2 + n] && s[2..][n..] == s[2 + n..];
      }
    }
  }

  /** Regrouping a concatenation of three sequences. */
  lemma AppendAssociative<T>(a: seq<T>, b: seq<T>, c: seq<T>)
    ensures (a + b) + c == a + (b + c)
  {
  }

  lemma ReadByteEncodeByte(v: int, rest: seq<byte>)
    requires 0 <= v < 256
    ensures ReadByte([EncodeByte(v)] + rest) == (Some(v), rest)
  {
    assert ([EncodeByte(v)] + rest)[1..] == rest;
  }

  lemma ReadShortEncodeShort(v: int, rest: seq<byte>)
    requires 0 <= v < 65536
    ensures ReadShort(EncodeShort(v) + rest) == (Some(v), rest)
  {
    assert (EncodeShort(v) + rest)[2..] == rest;
  }

  lemma ReadStringEncodeString(s: seq<byte>, rest: seq<byte>)
    requires |s| < 65536
    ensures ReadString(EncodeString(s) + rest) == (s, rest)
  {
    var e := EncodeString(s) + rest;
    ReadShortEncodeShort(|s|, s + rest);
    assert e == EncodeShort(|s|) + (s + rest);
    assert (s + rest)[..|s|] == s && (s + rest)[|s|..] == rest;
  }

  /**
   * The owned byte buffer that parsing consumes from the front (a Ruby String mutated by
   * `slice!`). Every shift removes exactly the consumed prefix and leaves the rest untouched.
   */
  class Buffer {
    var bytes: seq<byte>

    constructor (s: seq<byte>)
      ensures bytes == s
    {
      bytes := s;
    }

    method ShiftByte() returns (b: Option<byte>)
      modifies this
      ensures (b, bytes) == ReadByte(old(bytes))
      ensures b.Some? <==> |old(bytes)| > 0
      ensures b.Some? ==> b.value == old(bytes)[0] && bytes == old(bytes)[1..]
      ensures b.None? ==> bytes == []
    {
      if |bytes| == 0 {
        b := None;
      } else {
        b := Some(bytes[0]);
        bytes := bytes[1..];
      }
    }

    method ShiftShort() returns (n: Option<int>)
      modifies this
      ensures (n, bytes) == ReadShort(old(bytes))
      ensures n.Some? <==> |old(bytes)| >= 2
      ensures n.Some? ==> 0 <= n.value < 65536 && bytes == old(bytes)[2..]
      ensures n.Some? ==> EncodeShort(n.value) == old(bytes)[..2]
      ensures n.None? ==> bytes == []
    {
      var taken := if |bytes| < 2 then bytes else bytes[..2];
      bytes := bytes[|taken|..];
      if |taken| < 2 {
        assert bytes == [];
        n := None;
      } else {
        n := Some(taken[0] as int * 256 + taken[1]);
      }
    }

    method ShiftData(count: nat) returns (d: seq<byte>)
      modifies this
      ensures (d, bytes) == ReadData(old(bytes), count)
      ensures d + bytes == old(bytes)
      ensures |d| == if count <= |old(bytes)| then count else |old(bytes)|
    {
      if count <= |bytes| {
        d := bytes[..count];
        bytes := bytes[count..];
      } else {
        d := bytes;
        bytes := [];
      }
    }

    method ShiftString() returns (s: seq<byte>)
      modifies this
      ensures (s, bytes) == ReadString(old(bytes))
      ensures s + bytes == old(bytes)[if |old(bytes)| < 2 then |old(bytes)| else 2..]
    {
      var len := ShiftShort();
      if len.None? {
        s := [];
      } else {
        s := ShiftData(len.value);
      }
    }
  }
}

=== FILE: codec.dfy ===
/**
 * Whole packets (lib/mqtt/packet.rb): `to_s` writes the fixed header (type and flags byte,
 * Remaining Length) followed by the class's body, and `parse` reads the fixed header with
 * `parse_header`, makes a packet of the right class and hands the rest of the buffer to that
 * class's `parse_body`.
 *
 * The functions state what each step computes on values; the methods below them do it the
 * source's way, on a `Packet` object and a shrinking `Buffer`, and are proved to agree.
 */
module Codec {
  import opened Wrappers
  import opened Bytes
  import opened Packets
  import Registry
  import opened RemainingLength
  import EmptyPackets
  import MessageIdPackets
  import ConnackPacket
  import ConnectPacket
  import PublishPacket
  import SubscribePacket
  import SubackPacket
  import UnsubscribePacket

  /**
   * `encode_body` of the packet's class. Only the caller's values can make it fail, so its
   * errors are never protocol errors; PINGREQ, PINGRESP and DISCONNECT keep the inherited
   * empty body.
   */
  function BodyBytes(p: PacketValue): (r: Result<seq<byte>, Error>)
    ensures r.Err? ==> !r.error.IsProtocolError()
    ensures EmptyPackets.IsEmptyKind(p.body) ==> r == Ok([])
    ensures MessageIdPackets.IsMessageIdKind(p.body) || p.body.Connack? ==> r.Ok? && |r.value| == 2
  {
    match p.body
    case Connect(_, _, _, _, _, _, _, _, _, _, _) => ConnectPacket.Encode(p.body)
    case Connack(_) => Ok(ConnackPacket.Encode(p.body))
    case Publish(_, _, _) => PublishPacket.Encode(p.body, p.qos)
    case Subscribe(_, _) => SubscribePacket.Encode(p.body)
    case Suback(_, _) => SubackPacket.Encode(p.body)
    case Unsubscribe(_, _) => UnsubscribePacket.Encode(p.body)
    case Puback(_) => Ok(MessageIdPackets.Encode(p.body))
    case Pubrec(_) => Ok(MessageIdPackets.Encode(p.body))
    case Pubrel(_) => Ok(MessageIdPackets.Encode(p.body))
    case Pubcomp(_) => Ok(MessageIdPackets.Encode(p.body))
    case Unsuback(_) => Ok(MessageIdPackets.Encode(p.body))
    case Pingreq => Ok([])
    case Pingresp => Ok([])
    case Disconnect => Ok([])
  }

  /** The first byte `to_s` writes for a packet. */
  function TypeByte(p: PacketValue): (r: byte)
    ensures r / 16 == Registry.TypeId(KindOf(p.body))
    ensures ((r / 8) % 2 == 1) == p.duplicate && (r % 2 == 1) == p.retain
    ensures 0 <= p.qos <= 3 ==> (r / 2) % 4 == p.qos
  {
    HeaderByte(Registry.TypeId(KindOf(p.body)), p.duplicate, p.qos, p.retain)
  }

  /**
   * `to_s`: the type and flags byte, the body's length in Remaining Length digits, and the
   * body; a failing `encode_body` fails the whole, and a body longer than 268435455 bytes is
   * refused.
   */
  function Serialize(p: PacketValue): (r: Result<seq<byte>, Error>)
    ensures BodyBytes(p).Err? ==> r == Err(BodyBytes(p).error)
    ensures BodyBytes(p).Ok? && |BodyBytes(p).value| > MaxLength ==> r == Err(BodyTooLarge)
    ensures r.Ok? <==> BodyBytes(p).Ok? && |BodyBytes(p).value| <= MaxLength
    ensures r.Ok? ==> var body := BodyBytes(p).value;
                      2 <= |r.value| - |body| <= 1 + MaxDigits && r.value[0] == TypeByte(p)
                      && r.value[|r.value| - |body|..] == body
  {
    match BodyBytes(p)
    case Err(e) => Err(e)
    case Ok(body) =>
      if |body| > MaxLength then Err(BodyTooLarge)
      else
        EncodeLengthAtMostFour(|body|);
        var header := [TypeByte(p)] + EncodeLength(|body|);
        assert (header + body)[|header|..] == body;
        Ok(header + body)
  }

  /**
   * `parse_header`: fewer than two bytes are refused; the first byte makes the packet
   * (`create_from_header`, whose errors come first); then up to four length digits are read,
   * and running out of bytes before the last digit is an incomplete header. On success, the
   * packet with its body length, and the bytes after the header.
   */
  function ReadHeader(s: seq<byte>): (r: Result<(PacketValue, seq<byte>), Error>)
    ensures r.Ok? ==> 2 <= |s| - |r.value.1| <= 1 + MaxDigits && r.value.1 == s[|s| - |r.value.1|..]
    ensures r.Ok? ==> 0 <= r.value.0.bodyLength <= MaxLength
    ensures r.Err? ==> r.error.IsProtocolError() || r.error.InvalidQos?
  {
    if |s| < 2 then Err(ShortPacket)
    else
      match FromHeader(s[0])
      case Err(e) => Err(e)
      case Ok(p) =>
        match DecodeLength(s[1..], MaxDigits)
        case None => Err(LengthHeaderIncomplete)
        case Some(d) =>
          DecodedLengthBounded(s[1..]);
          Ok((p.(bodyLength := d.0), s[1 + d.1..]))
  }

  /** The `parse_body` of the packet's class, as its own module states it. */
  function ClassDecode(p: PacketValue, s: seq<byte>): (r: Result<(Body, seq<byte>), Error>)
    ensures |s| != p.bodyLength ==> r == Err(BodyLengthMismatch(|s|, p.bodyLength))
    ensures r.Ok? ==> KindOf(r.value.0) == KindOf(p.body)
    ensures r.Err? ==> r.error.IsProtocolError() || r.error == NilConnectFlags
  {
    match p.body
    case Connect(_, _, _, _, _, _, _, _, _, _, _) => ConnectPacket.Decode(p.body, p.bodyLength, s)
    case Connack(_) => ConnackPacket.Decode(p.bodyLength, s)
    case Publish(_, _, _) => PublishPacket.Decode(p.body, p.qos, p.bodyLength, s)
    case Subscribe(_, _) => SubscribePacket.Decode(p.bodyLength, s)
    case Suback(_, _) => SubackPacket.Decode(p.body, p.bodyLength, s)
    case Unsubscribe(_, _) => UnsubscribePacket.Decode(p.body, p.bodyLength, s)
    case Puback(_) => MessageIdPackets.Decode(p.body, p.bodyLength, s)
    case Pubrec(_) => MessageIdPackets.Decode(p.body, p.bodyLength, s)
    case Pubrel(_) => MessageIdPackets.Decode(p.body, p.bodyLength, s)
    case Pubcomp(_) => MessageIdPackets.Decode(p.body, p.bodyLength, s)
    case Unsuback(_) => MessageIdPackets.Decode(p.body, p.bodyLength, s)
    case Pingreq => EmptyPackets.Decode(p.body, p.bodyLength, s)
    case Pingresp => EmptyPackets.Decode(p.body, p.bodyLength, s)
    case Disconnect => EmptyPackets.Decode(p.body, p.bodyLength, s)
  }

  /**
   * `parse_body` of the packet's class on the bytes after the header. Every class first
   * checks that exactly the declared number of bytes is there; the packet keeps its class,
   * flags and declared length, and only its body fields change.
   */
  function ReadBody(p: PacketValue, s: seq<byte>): (r: Result<PacketValue, Error>)
    ensures |s| != p.bodyLength ==> r == Err(BodyLengthMismatch(|s|, p.bodyLength))
    ensures r.Ok? ==> KindOf(r.value.body) == KindOf(p.body)
    ensures r.Ok? ==> r.value == p.(body := r.value.body)
    ensures r.Err? ==> r.error.IsProtocolError() || r.error == NilConnectFlags
  {
    match ClassDecode(p, s)
    case Err(e) => Err(e)
    case Ok(v) => Ok(p.(body := v.0))
  }

  /** `parse`: the header, then the body of the packet it made. */
  function ParsePacket(s: seq<byte>): (r: Result<PacketValue, Error>)
    ensures |s| < 2 ==> r == Err(ShortPacket)
    ensures r.Ok? ==> 2 <= |s| - r.value.bodyLength <= 1 + MaxDigits && r.value.bodyLength <= MaxLength
  {
    match ReadHeader(s)
    case Err(e) => Err(e)
    case Ok(h) => ReadBody(h.0, h.1)
  }

  /** `encode_body`, dispatched on the packet's class; the list-walking ones run their loops. */
  method EncodeBody(p: Packet) returns (r: Result<seq<byte>, Error>)
    ensures r == BodyBytes(p.Value())
  {
    match p.body
    case Subscribe(_, _) => r := SubscribePacket.EncodeBody(p);
    case Suback(_, _) => r := SubackPacket.EncodeBody(p);
    case Unsubscribe(_, _) => r := UnsubscribePacket.EncodeBody(p);
    case _ => r := BodyBytes(p.Value());
  }

  /** `to_s`, building the length digits with the source's loop. */
  method ToBytes(p: Packet) returns (r: Result<seq<byte>, Error>)
    ensures r == Serialize(p.Value())
  {
    var header: seq<byte> := [HeaderByte(p.TypeId(), p.duplicate, p.qos, p.retain)];
    var body := EncodeBody(p);
    if body.Err? {
      return Err(body.error);
    }
    var bodyLength := |body.value|;
    if bodyLength > MaxLength {
      return Err(BodyTooLarge);
    }
    var digits := LengthDigits(bodyLength);
    r := Ok(header + digits + body.value);
  }

  /** The digit loop of `to_s`: seven bits at a time, the continuation bit on all but the last. */
  method LengthDigits(bodyLength: nat) returns (digits: seq<byte>)
    ensures digits == EncodeLength(bodyLength)
  {
    var n: nat := bodyLength;
    digits := [];
    var more := true;
    while more
      invariant more ==> digits + EncodeLength(n) == EncodeLength(bodyLength)
      invariant !more ==> digits == EncodeLength(bodyLength)
      decreases n, more
    {
      var digit := n % 128;
      ghost var before := n;
      n := n / 128;
      if n > 0 {
        digit := digit + 128;
        assert EncodeLength(before) == [digit] + EncodeLength(n);
        AppendAssociative(digits, [digit], EncodeLength(n));
      }
      digits := digits + [digit];
      more := n > 0;
    }
  }

  /**
   * `parse_header`: makes the packet from the first byte, reads the length digits one at a
   * time as the source's loop does, and removes exactly the header from the buffer.
   */
  method ParseHeader(buf: Buffer) returns (r: Result<Packet, Error>)
    modifies buf
    ensures var h := ReadHeader(old(buf.bytes));
            (r.Ok? <==> h.Ok?) && (r.Err? ==> r.error == h.error)
            && (r.Ok? ==> fresh(r.value) && r.value.Value() == h.value.0 && buf.bytes == h.value.1)
  {
    var s := buf.bytes;
    if |s| < 2 {
      return Err(ShortPacket);
    }
    var created := CreateFromHeader(s[0]);
    if created.Err? {
      ReadHeaderTypeRefused(s);
      return Err(created.error);
    }
    var packet := created.value;
    var length := ReadLength(s);
    if length.None? {
      ReadHeaderIncomplete(s);
      return Err(LengthHeaderIncomplete);
    }
    ReadHeaderOk(s, packet.Value(), length.value);
    packet.bodyLength := length.value.0;
    buf.bytes := s[1 + length.value.1..];
    r := Ok(packet);
  }

  /**
   * The length loop of `parse_header`: reads the digits after the type byte one at a time,
   * giving the body length and the number of digits, or nothing when the bytes run out first.
   */
  method ReadLength(s: seq<byte>) returns (r: Option<(nat, nat)>)
    requires |s| >= 2
    ensures r == DecodeLength(s[1..], MaxDigits)
  {
    var bodyLength: nat := 0;
    var multiplier: nat := 1;
    var pos := 1;
    var more := true;
    while more
      invariant 1 <= pos <= MaxDigits + 1 && pos <= |s|
      invariant more ==> pos <= MaxDigits
      invariant multiplier == Pow128(pos - 1)
      invariant bodyLength == DigitsValue(s[1..][..pos - 1])
      invariant more ==> forall i :: 0 <= i < pos - 1 ==> s[1..][i] >= 128
      invariant !more ==> DecodeLength(s[1..], MaxDigits) == Some((bodyLength, pos - 1))
      decreases MaxDigits + 1 - pos, more
    {
      if |s| <= pos {
        DecodeLengthIncomplete(s[1..], MaxDigits);
        return None;
      }
      var digit := s[pos];
      DigitsValueSnoc(s[1..], pos - 1);
      bodyLength := bodyLength + (digit as int % 128) * multiplier;
      multiplier := multiplier * 128;
      pos := pos + 1;
      more := digit >= 128 && pos <= MaxDigits;
      if !more {
        DecodeLengthStopsAt(s[1..], MaxDigits, pos - 1);
      }
    }
    r := Some((bodyLength, pos - 1));
  }

  /** `ReadBody` in terms of the class's own `parse_body`. */
  lemma ReadBodyByClass(p: PacketValue, s: seq<byte>)
    ensures var d := ClassDecode(p, s);
            ReadBody(p, s) == if d.Ok? then Ok(p.(body := d.value.0)) else Err(d.error)
  {
  }

  /** `parse_body`, dispatched on the packet's class. */
  method ParseBody(p: Packet, buf: Buffer) returns (r: Result<(), Error>)
    modifies p, buf
    ensures var d := ReadBody(old(p.Value()), old(buf.bytes));
            (r.Ok? <==> d.Ok?) && (r.Err? ==> r.error == d.error) && (r.Ok? ==> p.Value() == d.value)
  {
    ghost var before, bytes := p.Value(), buf.bytes;
    ReadBodyByClass(before, bytes);
    match p.body
    case Connect(_, _, _, _, _, _, _, _, _, _, _) => r := ConnectPacket.ParseBody(p, buf);
    case Connack(_) => r := ConnackPacket.ParseBody(p, buf);
    case Publish(_, _, _) => r := PublishPacket.ParseBody(p, buf);
    case Subscribe(_, _) => r := SubscribePacket.ParseBody(p, buf);
    case Suback(_, _) => r := SubackPacket.ParseBody(p, buf);
    case Unsubscribe(_, _) => r := UnsubscribePacket.ParseBody(p, buf);
    case Puback(_) => r := MessageIdPackets.ParseBody(p, buf);
    case Pubrec(_) => r := MessageIdPackets.ParseBody(p, buf);
    case Pubrel(_) => r := MessageIdPackets.ParseBody(p, buf);
    case Pubcomp(_) => r := MessageIdPackets.ParseBody(p, buf);
    case Unsuback(_) => r := MessageIdPackets.ParseBody(p, buf);
    case Pingreq => r := EmptyPackets.ParseBody(p, buf);
    case Pingresp => r := EmptyPackets.ParseBody(p, buf);
    case Disconnect => r := EmptyPackets.ParseBody(p, buf);
  }

  /** `parse`: a new packet read from the buffer. */
  method Parse(buf: Buffer) returns (r: Result<Packet, Error>)
    modifies buf
    ensures var d := ParsePacket(old(buf.bytes));
            (r.Ok? <==> d.Ok?) && (r.Err? ==> r.error == d.error)
            && (r.Ok? ==> fresh(r.value) && r.value.Value() == d.value)
  {
    var header := ParseHeader(buf);
    if header.Err? {
      return Err(header.error);
    }
    var packet := header.value;
    var body := ParseBody(packet, buf);
    if body.Err? {
      return Err(body.error);
    }
    r := Ok(packet);
  }

  /**
   * The fixed header `to_s` writes reads back: the same class and flags (SUBSCRIBE and
   * UNSUBSCRIBE at their forced QoS 1), the body length, and every byte after the header
   * untouched.
   */
  lemma HeaderRoundTrip(k: Registry.Kind, duplicate: bool, qos: int, retain: bool, n: nat, rest: seq<byte>)
    requires 0 <= qos <= 2 && n <= MaxLength
    ensures var s := [HeaderByte(Registry.TypeId(k), duplicate, qos, retain)] + EncodeLength(n) + rest;
            ReadHeader(s)
            == Ok((PacketValue(duplicate, if ForcesQosOne(k) then 1 else qos, retain, n, Defaults(k)), rest))
  {
    var length := EncodeLength(n);
    var b := HeaderByte(Registry.TypeId(k), duplicate, qos, retain);
    var s := [b] + length + rest;
    LengthRoundTrip(n, rest);
    assert s[1..] == length + rest;
    assert s[1 + |length|..] == rest;
    FromHeaderByte(k, duplicate, qos, retain);
    ReadHeaderOk(s, FromHeader(b).value, (n, |length|));
  }

  /** `parse_header` when the type byte and the length digits are both accepted. */
  lemma ReadHeaderOk(s: seq<byte>, p: PacketValue, d: (nat, nat))
    requires |s| >= 2 && FromHeader(s[0]) == Ok(p) && DecodeLength(s[1..], MaxDigits) == Some(d)
    ensures 1 + d.1 <= |s| && ReadHeader(s) == Ok((p.(bodyLength := d.0), s[1 + d.1..]))
  {
  }

  /** `parse_header` when `create_from_header` refuses the type byte. */
  lemma ReadHeaderTypeRefused(s: seq<byte>)
    requires |s| >= 2 && FromHeader(s[0]).Err?
    ensures ReadHeader(s) == Err(FromHeader(s[0]).error)
  {
  }

  /** `parse_header` when the input ends inside the length digits. */
  lemma ReadHeaderIncomplete(s: seq<byte>)
    requires |s| >= 2 && FromHeader(s[0]).Ok? && DecodeLength(s[1..], MaxDigits).None?
    ensures ReadHeader(s) == Err(LengthHeaderIncomplete)
  {
  }

  /** The bytes `to_s` writes: the type byte, the length digits, then the body. */
  lemma SerializedParts(p: PacketValue)
    requires Serialize(p).Ok?
    ensures Serialize(p) == Ok([TypeByte(p)] + EncodeLength(|BodyBytes(p).value|) + BodyBytes(p).value)
  {
  }

  /** A message identifier that fits the two bytes it is written in. */
  predicate ShortId(id: Option<int>)
  {
    id.Some? && 0 <= id.value < 65536
  }

  /**
   * The packets that survive `to_s` followed by `parse`: a QoS the setter accepts, field values
   * that fit their wire widths, the non-empty lists and topic `encode_body` insists on, and a
   * body no longer than the Remaining Length field can say.
   */
  predicate Transmittable(p: PacketValue)
  {
    && 0 <= p.qos <= 2
    && (match p.body
        case Connect(_, _, _, _, _, _, _, _, _, _, _) => ConnectPacket.Encodable(p.body)
        case Connack(code) => code.Some? && 0 <= code.value < 256
        case Publish(topic, id, _) =>
          topic.Some? && 0 < |topic.value| < 65536 && (p.qos != 0 ==> ShortId(id))
        case Subscribe(id, topics) =>
          ShortId(id) && |topics| > 0
          && (forall i :: 0 <= i < |topics| ==> |topics[i].name| < 65536)
          && (forall i :: 0 <= i < |topics| ==> topics[i].qos.Some? && 0 <= topics[i].qos.value < 256)
        case Suback(id, levels) =>
          ShortId(id) && |levels| > 0 && forall i :: 0 <= i < |levels| ==> 0 <= levels[i] < 256
        case Unsubscribe(id, names) =>
          ShortId(id) && |names| > 0 && forall i :: 0 <= i < |names| ==> |names[i]| < 65536
        case Puback(id) => ShortId(id)
        case Pubrec(id) => ShortId(id)
        case Pubrel(id) => ShortId(id)
        case Pubcomp(id) => ShortId(id)
        case Unsuback(id) => ShortId(id)
        case Pingreq => true
        case Pingresp => true
        case Disconnect => true)
    && (BodyBytes(p).Ok? ==> |BodyBytes(p).value| <= MaxLength)
  }

  /**
   * What the receiving side holds: the same packet, with SUBSCRIBE and UNSUBSCRIBE at QoS 1,
   * the declared body length, a CONNECT's unsent will fields at their defaults, and a QoS 0
   * PUBLISH's message identifier at its default (it is not on the wire).
   */
  function Delivered(p: PacketValue, bodyLength: int): (r: PacketValue)
    ensures KindOf(r.body) == KindOf(p.body)
    ensures r.duplicate == p.duplicate && r.retain == p.retain && r.bodyLength == bodyLength
  {
    var k := KindOf(p.body);
    var body := match p.body
      case Connect(_, _, _, _, _, _, _, _, _, _, _) => ConnectPacket.Received(p.body)
      case Publish(topic, id, payload) =>
        if p.qos == 0 then Publish(topic, Defaults(Registry.Publish).messageId, payload) else p.body
      case _ => p.body;
    PacketValue(p.duplicate, if ForcesQosOne(k) then 1 else p.qos, p.retain, bodyLength, body)
  }

  /** The packet `parse_header` makes from the header `to_s` wrote for `p`. */
  function HeaderOf(p: PacketValue, bodyLength: int): PacketValue
  {
    var k := KindOf(p.body);
    PacketValue(p.duplicate, if ForcesQosOne(k) then 1 else p.qos, p.retain, bodyLength, Defaults(k))
  }

  /** Each class's `parse_body` restores what its `encode_body` wrote. */
  lemma BodyRoundTrip(p: PacketValue)
    requires Transmittable(p)
    ensures BodyBytes(p).Ok?
    ensures var body := BodyBytes(p).value;
            ReadBody(HeaderOf(p, |body|), body) == Ok(Delivered(p, |body|))
  {
    match p.body
    case Connect(_, _, _, _, _, _, _, _, _, _, _) => ConnectBodyRoundTrip(p);
    case Connack(_) => ConnackBodyRoundTrip(p);
    case Publish(_, _, _) => PublishBodyRoundTrip(p);
    case Subscribe(_, _) => SubscribeBodyRoundTrip(p);
    case Suback(_, _) => SubackBodyRoundTrip(p);
    case Unsubscribe(_, _) => UnsubscribeBodyRoundTrip(p);
    case Puback(_) => MessageIdBodyRoundTrip(p);
    case Pubrec(_) => MessageIdBodyRoundTrip(p);
    case Pubrel(_) => MessageIdBodyRoundTrip(p);
    case Pubcomp(_) => MessageIdBodyRoundTrip(p);
    case Unsuback(_) => MessageIdBodyRoundTrip(p);
    case Pingreq => EmptyBodyRoundTrip(p);
    case Pingresp => EmptyBodyRoundTrip(p);
    case Disconnect => EmptyBodyRoundTrip(p);
  }

  /** A CONNECT body reads back as `Received` says: will fields only when a will was sent. */
  lemma ConnectBodyRoundTrip(p: PacketValue)
    requires Transmittable(p) && p.body.Connect?
    ensures BodyBytes(p).Ok?
    ensures var body := BodyBytes(p).value;
            ReadBody(HeaderOf(p, |body|), body) == Ok(Delivered(p, |body|))
  {
    ConnectPacket.RoundTrip(p.body);
  }

  /** A CONNACK body reads back its return code. */
  lemma ConnackBodyRoundTrip(p: PacketValue)
    requires Transmittable(p) && p.body.Connack?
    ensures BodyBytes(p).Ok?
    ensures var body := BodyBytes(p).value;
            ReadBody(HeaderOf(p, |body|), body) == Ok(Delivered(p, |body|))
  {
    ConnackPacket.RoundTrip(p.body.returnCode.value);
  }

  /** A PUBLISH body reads back its topic and payload, and its message identifier unless QoS is 0. */
  lemma PublishBodyRoundTrip(p: PacketValue)
    requires Transmittable(p) && p.body.Publish?
    ensures BodyBytes(p).Ok?
    ensures var body := BodyBytes(p).value;
            ReadBody(HeaderOf(p, |body|), body) == Ok(Delivered(p, |body|))
  {
    PublishPacket.RoundTrip(p.body, Defaults(Registry.Publish), p.qos);
  }

  /** A SUBSCRIBE body reads back its message identifier and every (topic, QoS) pair in order. */
  lemma SubscribeBodyRoundTrip(p: PacketValue)
    requires Transmittable(p) && p.body.Subscribe?
    ensures BodyBytes(p).Ok?
    ensures var body := BodyBytes(p).value;
            ReadBody(HeaderOf(p, |body|), body) == Ok(Delivered(p, |body|))
  {
    SubscribePacket.RoundTrip(p.body.messageId.value, p.body.topics);
  }

  /** A SUBACK body reads back into an initial packet its message identifier and levels. */
  lemma SubackBodyRoundTrip(p: PacketValue)
    requires Transmittable(p) && p.body.Suback?
    ensures BodyBytes(p).Ok?
    ensures var body := BodyBytes(p).value;
            ReadBody(HeaderOf(p, |body|), body) == Ok(Delivered(p, |body|))
  {
    SubackPacket.RoundTrip(p.body.messageId.value, p.body.grantedQos, Some(0));
  }

  /** An UNSUBSCRIBE body reads back into an initial packet its message identifier and topics. */
  lemma UnsubscribeBodyRoundTrip(p: PacketValue)
    requires Transmittable(p) && p.body.Unsubscribe?
    ensures BodyBytes(p).Ok?
    ensures var body := BodyBytes(p).value;
            ReadBody(HeaderOf(p, |body|), body) == Ok(Delivered(p, |body|))
  {
    UnsubscribePacket.RoundTrip(p.body.messageId.value, p.body.topicNames, Some(0));
  }

  /** A PUBACK, PUBREC, PUBREL, PUBCOMP or UNSUBACK body reads back its message identifier. */
  lemma MessageIdBodyRoundTrip(p: PacketValue)
    requires Transmittable(p) && MessageIdPackets.IsMessageIdKind(p.body)
    ensures BodyBytes(p).Ok?
    ensures var body := BodyBytes(p).value;
            ReadBody(HeaderOf(p, |body|), body) == Ok(Delivered(p, |body|))
  {
    MessageIdPackets.RoundTrip(Defaults(KindOf(p.body)), p.body.messageId.value);
  }

  /** A PINGREQ, PINGRESP or DISCONNECT has an empty body, which reads back as the same packet. */
  lemma EmptyBodyRoundTrip(p: PacketValue)
    requires Transmittable(p) && EmptyPackets.IsEmptyKind(p.body)
    ensures BodyBytes(p).Ok?
    ensures var body := BodyBytes(p).value;
            ReadBody(HeaderOf(p, |body|), body) == Ok(Delivered(p, |body|))
  {
    EmptyPackets.DecodeAcceptsOnlyEmpty(p.body, 0, []);
  }

  /**
   * The whole round trip: `parse` of what `to_s` wrote gives back the packet, up to the
   * differences `Delivered` names.
   */
  lemma PacketRoundTrip(p: PacketValue)
    requires Transmittable(p)
    ensures Serialize(p).Ok?
    ensures ParsePacket(Serialize(p).value) == Ok(Delivered(p, |BodyBytes(p).value|))
  {
    BodyRoundTrip(p);
    var body := BodyBytes(p).value;
    HeaderRoundTrip(KindOf(p.body), p.duplicate, p.qos, p.retain, |body|, body);
  }

  /** After the header `to_s` writes for `p`, `parse` is the class's `parse_body` on what follows. */
  lemma ParseAfterHeader(p: PacketValue, n: nat, rest: seq<byte>)
    requires 0 <= p.qos <= 2 && n <= MaxLength
    ensures ParsePacket([TypeByte(p)] + EncodeLength(n) + rest) == ReadBody(HeaderOf(p, n), rest)
  {
    HeaderRoundTrip(KindOf(p.body), p.duplicate, p.qos, p.retain, n, rest);
  }

  /** A body of another size than the header written for `p` declares is refused. */
  lemma ParseAfterHeaderWrongLength(p: PacketValue, n: nat, rest: seq<byte>, s: seq<byte>)
    requires 0 <= p.qos <= 2 && n <= MaxLength && |rest| != n
    requires s == [TypeByte(p)] + EncodeLength(n) + rest
    ensures ParsePacket(s) == Err(BodyLengthMismatch(|rest|, n))
  {
    ParseAfterHeader(p, n, rest);
    var h := HeaderOf(p, n);
    assert h.bodyLength == n;
  }

  /**
   * `parse` reads exactly one packet: bytes after the body make the body's length disagree
   * with its header, and the packet is refused.
   */
  lemma TrailingBytesRefused(p: PacketValue, extra: seq<byte>)
    requires 0 <= p.qos <= 2 && Serialize(p).Ok? && |extra| > 0
    ensures var body := BodyBytes(p).value;
            ParsePacket(Serialize(p).value + extra) == Err(BodyLengthMismatch(|body + extra|, |body|))
  {
    var body := BodyBytes(p).value;
    var header := [TypeByte(p)] + EncodeLength(|body|);
    SerializedParts(p);
    AppendAssociative(header, body, extra);
    ParseAfterHeaderWrongLength(p, |body|, body + extra, Serialize(p).value + extra);
  }

  /** A packet cut off inside its body is refused the same way. */
  lemma TruncatedBodyRefused(p: PacketValue, keep: nat)
    requires 0 <= p.qos <= 2 && Serialize(p).Ok? && keep < |BodyBytes(p).value|
    ensures var n := |BodyBytes(p).value|;
            var s := Serialize(p).value;
            ParsePacket(s[..|s| - n + keep]) == Err(BodyLengthMismatch(keep, n))
  {
    var body := BodyBytes(p).value;
    var header := [TypeByte(p)] + EncodeLength(|body|);
    var s := Serialize(p).value;
    assert s[..|s| - |body| + keep] == header + body[..keep] by {
      SerializedParts(p);
    }
    ParseAfterHeaderWrongLength(p, |body|, body[..keep], s[..|s| - |body| + keep]);
  }

  /** How `parse_header` refuses short and malformed starts, type byte first. */
  lemma HeaderErrors()
    ensures ReadHeader([]) == Err(ShortPacket) && ReadHeader([0x30]) == Err(ShortPacket)
    ensures ReadHeader([0x00, 0x00]) == Err(InvalidTypeId(0))
    ensures ReadHeader([0xF0, 0x80]) == Err(InvalidTypeId(15))
    ensures ReadHeader([0x36, 0x00]) == Err(InvalidQos(3))
    ensures ReadHeader([0x30, 0x80]) == Err(LengthHeaderIncomplete)
    ensures ReadHeader([0x30, 0xFF, 0xFF, 0xFF]) == Err(LengthHeaderIncomplete)
  {
    TypeByteErrors();
    LengthCutShort([0x30, 0x80]);
    LengthCutShort([0x30, 0xFF, 0xFF, 0xFF]);
  }

  /** `create_from_header` refusing the type byte stops `parse_header`. */
  lemma TypeByteErrors()
    ensures ReadHeader([0x00, 0x00]) == Err(InvalidTypeId(0))
    ensures ReadHeader([0xF0, 0x80]) == Err(InvalidTypeId(15))
    ensures ReadHeader([0x36, 0x00]) == Err(InvalidQos(3))
  {
    FromHeaderOutcome(0x00);
    ReadHeaderTypeRefused([0x00, 0x00]);
    FromHeaderOutcome(0xF0);
    ReadHeaderTypeRefused([0xF0, 0x80]);
    FromHeaderOutcome(0x36);
    ReadHeaderTypeRefused([0x36, 0x00]);
  }

  /** A PUBLISH header whose length digits all carry the continuation bit and run out. */
  lemma LengthCutShort(s: seq<byte>)
    requires 2 <= |s| <= MaxDigits && s[0] == 0x30
    requires forall i :: 1 <= i < |s| ==> s[i] >= 128
    ensures ReadHeader(s) == Err(LengthHeaderIncomplete)
  {
    PlainHeader(Registry.Publish, 0x30);
    forall i | 0 <= i < |s[1..]| ensures s[1..][i] >= 128 {
      assert s[1..][i] == s[i + 1];
    }
    DecodeLengthIncomplete(s[1..], MaxDigits);
    ReadHeaderIncomplete(s);
  }


  /** The type byte of a packet of class `k` with no flags set makes a default packet of that class. */
  lemma PlainHeader(k: Registry.Kind, b: byte)
    requires b == HeaderByte(Registry.TypeId(k), false, 0, false) && !ForcesQosOne(k)
    ensures FromHeader(b) == Ok(PacketValue(false, 0, false, 0, Defaults(k)))
  {
    FromHeaderByte(k, false, 0, false);
  }

  /**
   * `parse` on a packet whose type byte has no flags set and whose length fits one digit:
   * the class's `parse_body` on the bytes after those two.
   */
  lemma ParsePlainShort(s: seq<byte>, k: Registry.Kind)
    requires |s| >= 2 && s[0] == HeaderByte(Registry.TypeId(k), false, 0, false) && !ForcesQosOne(k)
    requires s[1] < 128
    ensures ParsePacket(s) == ReadBody(PacketValue(false, 0, false, s[1] as int, Defaults(k)), s[2..])
  {
    var header := PacketValue(false, 0, false, 0, Defaults(k));
    PlainHeader(k, s[0]);
    assert DecodeLength(s[1..], MaxDigits) == Some((s[1] as int, 1));
    ReadHeaderOk(s, header, (s[1] as int, 1));
  }



  /** A fourth length digit with its continuation bit set ends the field all the same. */
  lemma FourDigitHeader(rest: seq<byte>)
    ensures var s := [0x30, 0xFF, 0xFF, 0xFF, 0xFF] + rest;
            ReadHeader(s) == Ok((PacketValue(false, 0, false, MaxLength, Defaults(Registry.Publish)), rest))
  {
    var s := [0x30, 0xFF, 0xFF, 0xFF, 0xFF] + rest;
    var digits: seq<byte> := [0xFF, 0xFF, 0xFF, 0xFF];
    assert s[1..][..4] == digits;
    assert DigitsValue(digits) == MaxLength;
    FourthContinuationStops(s[1..]);
    PlainHeader(Registry.Publish, 0x30);
    ReadHeaderOk(s, PacketValue(false, 0, false, 0, Defaults(Registry.Publish)), (MaxLength, 4));
    assert s[5..] == rest;
  }

  /** A packet with no body is its type byte and a zero length. */
  lemma EmptySerialized(b: Body, typeByte: byte)
    requires EmptyPackets.IsEmptyKind(b) && typeByte == TypeByte(PacketValue(false, 0, false, 0, b))
    ensures Serialize(PacketValue(false, 0, false, 0, b)) == Ok([typeByte, 0x00])
  {
    assert EncodeLength(0) == [0x00];
    assert [typeByte] + [0x00] + [] == [typeByte, 0x00];
  }

  /** A default DISCONNECT, PINGREQ and PINGRESP on the wire: the type byte and a zero length. */
  lemma EmptyPacketBytes()
    ensures Serialize(PacketValue(false, 0, false, 0, Disconnect)) == Ok([0xE0, 0x00])
    ensures Serialize(PacketValue(false, 0, false, 0, Pingreq)) == Ok([0xC0, 0x00])
    ensures Serialize(PacketValue(false, 0, false, 0, Pingresp)) == Ok([0xD0, 0x00])
  {
    EmptySerialized(Disconnect, 0xE0);
    EmptySerialized(Pingreq, 0xC0);
    EmptySerialized(Pingresp, 0xD0);
  }

  /** `E0 00` parses to a DISCONNECT. */
  lemma DisconnectParsed()
    ensures ParsePacket([0xE0, 0x00]) == Ok(PacketValue(false, 0, false, 0, Disconnect))
  {
    var empty: seq<byte> := [0xE0, 0x00];
    ParsePlainShort(empty, Registry.Disconnect);
  }

  /** A DISCONNECT declaring and sending one body byte is refused. */
  lemma DisconnectBodyRefused()
    ensures ParsePacket([0xE0, 0x01, 0x00]) == Err(ExtraBytes("Disconnect"))
  {
    var one: seq<byte> := [0xE0, 0x01, 0x00];
    ParsePlainShort(one, Registry.Disconnect);
    assert one[2..] == [0x00];
  }

  /** `20 02 00 00` is a CONNACK accepting the connection, with all flags clear. */
  lemma ConnackBytes()
    ensures ParsePacket([0x20, 0x02, 0x00, 0x00]) == Ok(PacketValue(false, 0, false, 2, Connack(Some(0))))
  {
    var s: seq<byte> := [0x20, 0x02, 0x00, 0x00];
    ParsePlainShort(s, Registry.Connack);
    assert s[2..] == [0x00, 0x00];
    ConnackPacket.DecodeOutcome([0x00, 0x00]);
  }
}

=== FILE: connack.dfy ===
/**
 * CONNACK, the connect acknowledgment (lib/mqtt/packet/connack.rb): an unused byte and a
 * return code, with a readable message for each code.
 */
module ConnackPacket {
  import opened Wrappers
  import opened Bytes
  import opened Packets

  const PacketName: string := "Connect Acknowledgment"

  /** `encode_body`: an unused zero byte, then the return code (nil counts as 0) as one byte. */
  function Encode(b: Body): (r: seq<byte>)
    requires b.Connack?
    ensures |r| == 2 && r[0] == 0
    ensures (r[1] - ToI(b.returnCode)) % 256 == 0
  {
    [0, EncodeByte(ToI(b.returnCode))]
  }

  /**
   * `parse_body`: the generic length check, one byte discarded, the return code (nil when the
   * buffer is short), and no byte may remain.
   */
  function Decode(declared: int, s: seq<byte>): (r: Result<(Body, seq<byte>), Error>)
    ensures |s| != declared ==> r == Err(BodyLengthMismatch(|s|, declared))
    ensures r.Ok? ==> |s| <= 2 && r.value.1 == []
    ensures |s| == declared && |s| > 2 ==> r == Err(ExtraBytes(PacketName))
  {
    if |s| != declared then Err(BodyLengthMismatch(|s|, declared))
    else
      var (_, afterUnused) := ReadByte(s);
      var (code, rest) := ReadByte(afterUnused);
      if |rest| != 0 then Err(ExtraBytes(PacketName))
      else Ok((Connack(code), rest))
  }

  /** Every return code that fits in a byte survives the round trip. */
  lemma RoundTrip(code: int)
    requires 0 <= code < 256
    ensures Decode(2, Encode(Connack(Some(code)))) == Ok((Connack(Some(code)), []))
  {
  }

  /**
   * A code outside 0..255 is written modulo 256, so it comes back as a different code
   * (`pack('C')` keeps the low eight bits).
   */
  lemma EncodeTruncates(code: int)
    ensures Decode(2, Encode(Connack(Some(code)))) == Ok((Connack(Some(code % 256)), []))
    ensures code < 0 || code >= 256 ==> Decode(2, Encode(Connack(Some(code)))).value.0 != Connack(Some(code))
  {
    assert Encode(Connack(Some(code)))[1] == code % 256;
  }

  /**
   * What the decoder makes of a body of each length: the first byte never matters, a short
   * body leaves the code nil, and a third byte is refused.
   */
  lemma DecodeOutcome(s: seq<byte>)
    ensures |s| > 2 ==> Decode(|s|, s) == Err(ExtraBytes(PacketName))
    ensures |s| == 2 ==> Decode(|s|, s) == Ok((Connack(Some(s[1])), []))
    ensures |s| < 2 ==> Decode(|s|, s) == Ok((Connack(None), []))
    ensures forall x: byte :: |s| >= 1 ==> Decode(|s|, [x] + s[1..]) == Decode(|s|, s)
  {
    forall x: byte | |s| >= 1
      ensures Decode(|s|, [x] + s[1..]) == Decode(|s|, s)
    {
      assert ([x] + s[1..])[1..] == s[1..];
    }
  }

  method ParseBody(p: Packet, buf: Buffer) returns (r: Result<(), Error>)
    requires p.body.Connack?
    modifies p`body, buf
    ensures var d := Decode(p.bodyLength, old(buf.bytes));
            (r.Ok? <==> d.Ok?) && (r.Err? ==> r.error == d.error)
            && (r.Ok? ==> p.body == d.value.0 && buf.bytes == d.value.1)
  {
    r := CheckBodyLength(p, buf);
    if r.Err? {
      return;
    }
    var _ := buf.ShiftByte();
    var code := buf.ShiftByte();
    p.body := Connack(code);
    if |buf.bytes| != 0 {
      return Err(ExtraBytes(PacketName));
    }
  }

  /** One decimal digit character. */
  function DigitChar(d: int): (c: char)
    requires 0 <= d < 10
    ensures '0' <= c <= '9' && c as int - '0' as int == d
  {
    ('0' as int + d) as char
  }

  predicate IsDigits(s: string)
  {
    forall i :: 0 <= i < |s| ==> '0' <= s[i] <= '9'
  }

  /** Decimal digits of a natural number, most significant first, without leading zeros. */
  function NatToString(n: nat): (r: string)
    ensures |r| >= 1 && IsDigits(r)
    ensures |r| > 1 ==> r[0] != '0'
  {
    if n < 10 then [DigitChar(n)] else NatToString(n / 10) + [DigitChar(n % 10)]
  }

  /** The value of a string of decimal digits. */
  function DigitsToNat(s: string): nat
    requires IsDigits(s)
  {
    if |s| == 0 then 0 else 10 * DigitsToNat(s[..|s| - 1]) + (s[|s| - 1] as int - '0' as int)
  }

  /** `Integer#to_s`: a minus sign for negative numbers, then the digits. */
  function IntToString(n: int): (r: string)
    ensures |r| >= 1 && (r[0] == '-' <==> n < 0)
  {
    if n < 0 then "-" + NatToString(-n) else NatToString(n)
  }

  lemma {:induction false} NatToStringValue(n: nat)
    ensures DigitsToNat(NatToString(n)) == n
  {
    if n >= 10 {
      NatToStringValue(n / 10);
      var s := NatToString(n);
      assert s[..|s| - 1] == NatToString(n / 10);
    }
  }

  lemma NatToStringInjective(a: nat, b: nat)
    requires NatToString(a) == NatToString(b)
    ensures a == b
  {
    NatToStringValue(a);
    NatToStringValue(b);
  }

  /** Distinct integers print differently: the digits read back as the number, and the sign shows. */
  lemma IntToStringInjective(a: int, b: int)
    requires IntToString(a) == IntToString(b)
    ensures a == b
  {
    if a < 0 && b < 0 {
      var sa, sb := NatToString(-a), NatToString(-b);
      assert ("-" + sa)[1..] == sa;
      assert ("-" + sb)[1..] == sb;
      NatToStringInjective(-a, -b);
    } else if a >= 0 && b >= 0 {
      NatToStringInjective(a, b);
    }
    // with opposite signs the first characters differ: '-' against a digit
  }

  const GenericPrefix: string := "Connection refused: error code "

  /** `return_msg`: a fixed message for codes 0 to 5, the code itself for any other. */
  function ReturnMsg(code: Option<int>): (r: string)
  {
    match code
    case Some(0) => "Connection Accepted"
    case Some(1) => "Connection refused: unacceptable protocol version"
    case Some(2) => "Connection refused: client identifier rejected"
    case Some(3) => "Connection refused: broker unavailable"
    case Some(4) => "Connection refused: bad user name or password"
    case Some(5) => "Connection refused: not authorised"
    case Some(n) => GenericPrefix + IntToString(n)
    // nil interpolates as the empty string
    case None => GenericPrefix
  }

  /**
   * Only code 0 reads as accepted; every other code, and nil, reads as a refusal; codes outside
   * 0..5 are named in the message.
   */
  lemma ReturnMsgMeaning(code: Option<int>)
    ensures ReturnMsg(code) == "Connection Accepted" <==> code == Some(0)
    ensures code != Some(0) ==> ReturnMsg(code)[..20] == "Connection refused: "
    ensures code.Some? && (code.value < 0 || code.value > 5)
            ==> ReturnMsg(code) == GenericPrefix + IntToString(code.value)
  {
    if code != Some(0) {
      RefusalPrefix(code);
      assert |"Connection Accepted"| == 19;
    }
  }

  /** Every message but the one for code 0 starts with the refusal prefix. */
  lemma RefusalPrefix(code: Option<int>)
    requires code != Some(0)
    ensures |ReturnMsg(code)| > 20 && ReturnMsg(code)[..20] == "Connection refused: "
  {
    match code
    case Some(1) =>
    case Some(2) =>
    case Some(3) =>
    case Some(4) =>
    case Some(5) =>
    case Some(n) =>
      assert ReturnMsg(code)[..20] == GenericPrefix[..20];
    case None =>
  }

  /** A fixed message (codes 0 to 5) never equals a generic one: they differ by character 20. */
  lemma FixedDiffersFromGeneric(a: int, b: int)
    requires (a < 0 || a > 5) && 0 <= b <= 5
    ensures ReturnMsg(Some(a)) != ReturnMsg(Some(b))
  {
    var ma, mb := ReturnMsg(Some(a)), ReturnMsg(Some(b));
    assert ma[20] == 'e';
    assert |mb| <= 20 || mb[20] != 'e';
  }

  /** No two return codes share a message, so the message identifies the code. */
  lemma {:induction false} ReturnMsgInjective(a: int, b: int)
    requires ReturnMsg(Some(a)) == ReturnMsg(Some(b))
    ensures a == b
  {
    var ma, mb := ReturnMsg(Some(a)), ReturnMsg(Some(b));
    var generalA, generalB := a < 0 || a > 5, b < 0 || b > 5;
    if generalA && generalB {
      assert IntToString(a) == ma[|GenericPrefix|..];
      assert IntToString(b) == mb[|GenericPrefix|..];
      IntToStringInjective(a, b);
    } else if generalA {
      FixedDiffersFromGeneric(a, b);
      assert false;
    } else if generalB {
      FixedDiffersFromGeneric(b, a);
      assert false;
    } else {
      FixedMessageLengths();
    }
  }

  /** The six fixed messages all have different lengths. */
  lemma FixedMessageLengths()
    ensures |ReturnMsg(Some(0))| == 19 && |ReturnMsg(Some(1))| == 49 && |ReturnMsg(Some(2))| == 46
    ensures |ReturnMsg(Some(3))| == 38 && |ReturnMsg(Some(4))| == 45 && |ReturnMsg(Some(5))| == 34
  {
  }

  /**
   * Three concrete facts: a CONNACK accepting the connection has the body `00 00`; the body
   * `00 05` decodes to return code 5; and code 5's message is the "not authorised" refusal.
   */
  lemma AcceptedBody()
    ensures Encode(Connack(Some(0))) == [0x00, 0x00]
    ensures Decode(2, [0x00, 0x05]) == Ok((Connack(Some(5)), []))
    ensures ReturnMsg(Some(5)) == "Connection refused: not authorised"
  {
  }
}

=== FILE: connect.dfy ===
/**
 * CONNECT (lib/mqtt/packet/connect.rb): the protocol name and version, a flags byte, the
 * keep-alive interval and the client identifier, then the optional will topic and message,
 * user name and password, each present as its flag says.
 */
module ConnectPacket {
  import opened Wrappers
  import opened Bytes
  import opened Packets

  /** `(flags & weight) != 0` for a single-bit `weight`: the bit is set. */
  predicate FlagSet(flags: int, weight: nat)
    requires weight > 0
  {
    (flags / weight) % 2 == 1
  }

  /** The largest client identifier, in bytes, `encode_body` accepts. */
  const MaxClientIdLength: nat := 23

  /** Integer division pinned down by its quotient and remainder. */
  lemma DivMod(x: int, d: int, q: int, r: int)
    requires d > 0 && 0 <= r < d && x == q * d + r
    ensures x / d == q && x % d == r
  {
    var t := q - x / d;
    assert t * d == x % d - r;
    if t != 0 {
      // |t * d| >= d, while the difference of two remainders is less than d.
      assert false;
    }
  }

  /**
   * The layout of the flags byte: bit 1 clean session, bit 2 will, bits 3-4 will QoS, bit 5
   * will retain, bit 6 password, bit 7 user name.
   */
  lemma FlagBits(c: int, w: int, q: int, r: int, p: int, u: int)
    requires 0 <= c < 2 && 0 <= w < 2 && 0 <= q < 4 && 0 <= r < 2 && 0 <= p < 2 && 0 <= u < 2
    ensures var f := 2 * c + 4 * w + 8 * q + 32 * r + 64 * p + 128 * u;
            0 <= f < 256 && f % 2 == 0
            && (f / 2) % 2 == c && (f / 4) % 2 == w && (f / 8) % 4 == q
            && (f / 32) % 2 == r && (f / 64) % 2 == p && (f / 128) % 2 == u
  {
    var f := 2 * c + 4 * w + 8 * q + 32 * r + 64 * p + 128 * u;
    var h1 := c + 2 * w + 4 * q + 16 * r + 32 * p + 64 * u;
    var h2 := w + 2 * q + 8 * r + 16 * p + 32 * u;
    var h3 := q + 4 * r + 8 * p + 16 * u;
    var h5 := r + 2 * p + 4 * u;
    var h6 := p + 2 * u;
    DivMod(f, 2, h1, 0);
    DivMod(h1, 2, h2, c);
    DivMod(f, 4, h2, 2 * c);
    DivMod(h2, 2, h3, w);
    DivMod(f, 8, h3, 2 * c + 4 * w);
    DivMod(h3, 4, h5, q);
    DivMod(f, 32, h5, 2 * c + 4 * w + 8 * q);
    DivMod(h5, 2, h6, r);
    DivMod(f, 64, h6, 2 * c + 4 * w + 8 * q + 32 * r);
    DivMod(h6, 2, u, p);
    DivMod(f, 128, u, 2 * c + 4 * w + 8 * q + 32 * r + 64 * p);
    DivMod(u, 2, 0, u);
  }

  /**
   * The connect flags byte `encode_body` computes: clean session (0x02), will present (0x04),
   * will QoS in bits 3-4 (only its low two bits), will retain (0x20), password present (0x40)
   * and user name present (0x80). Bit 0 stays clear.
   */
  function ConnectFlags(b: Body): (f: byte)
    requires b.Connect?
    ensures f % 2 == 0
    ensures FlagSet(f, 0x02) == b.cleanSession
    ensures FlagSet(f, 0x04) == b.willTopic.Some?
    ensures (f / 8) % 4 == b.willQos % 4
    ensures FlagSet(f, 0x20) == b.willRetain
    ensures FlagSet(f, 0x40) == b.password.Some?
    ensures FlagSet(f, 0x80) == b.username.Some?
  {
    var c := if b.cleanSession then 1 else 0;
    var w := if b.willTopic.Some? then 1 else 0;
    var r := if b.willRetain then 1 else 0;
    var p := if b.password.Some? then 1 else 0;
    var u := if b.username.Some? then 1 else 0;
    FlagBits(c, w, b.willQos % 4, r, p, u);
    2 * c + 4 * w + 8 * (b.willQos % 4) + 32 * r + 64 * p + 128 * u
  }

  /** An optional string field: nothing when nil, the length-prefixed string otherwise. */
  function OptionalString(s: Option<seq<byte>>): (r: seq<byte>)
    ensures s.None? <==> |r| == 0
  {
    match s
    case None => []
    case Some(v) => EncodeString(v)
  }

  /** The will topic and will message, written only when there is a will topic. */
  function WillBytes(b: Body): (r: seq<byte>)
    requires b.Connect?
    ensures b.willTopic.None? <==> |r| == 0
  {
    match b.willTopic
    case None => []
    case Some(topic) => EncodeString(topic) + EncodeString(b.willPayload)
  }

  /** What `encode_body` writes after the flags byte: keep-alive, client identifier, will, credentials. */
  function FieldBytes(b: Body): (r: seq<byte>)
    requires b.Connect? && b.keepAlive.Some? && b.clientId.Some?
    ensures |r| >= 2 + 2 + |b.clientId.value|
  {
    EncodeShort(b.keepAlive.value) + EncodeString(b.clientId.value) + WillBytes(b)
    + OptionalString(b.username) + OptionalString(b.password)
  }

  /**
   * `encode_body`: the client identifier must be 1 to 23 bytes and the keep-alive must be
   * present and not negative (checked in that order); then the fields in wire order.
   */
  function Encode(b: Body): (r: Result<seq<byte>, Error>)
    requires b.Connect?
    ensures r.Ok? <==> (b.clientId.Some? && 1 <= |b.clientId.value| <= MaxClientIdLength
                        && b.keepAlive.Some? && b.keepAlive.value >= 0)
    ensures r.Err? && (b.clientId.None? || |b.clientId.value| < 1 || |b.clientId.value| > MaxClientIdLength)
            ==> r.error == InvalidClientId
    ensures r.Ok? ==> |r.value| >= 2 + |b.protocolName| + 4 + 2 + |b.clientId.value|
  {
    match b.clientId
    case None => Err(InvalidClientId)
    case Some(clientId) =>
      if |clientId| < 1 || |clientId| > MaxClientIdLength then Err(InvalidClientId)
      else
        match b.keepAlive
        case None => Err(NilKeepAlive)
        case Some(keepAlive) =>
          if keepAlive < 0 then Err(InvalidKeepAlive)
          else
            Ok(EncodeString(b.protocolName) + [EncodeByte(b.protocolVersion)] + [ConnectFlags(b)] + FieldBytes(b))
  }

  /** A user name or password: read when its flag is set and bytes remain, else kept as it was. */
  function ReadOptional(flag: bool, s: seq<byte>, current: Option<seq<byte>>): (r: (Option<seq<byte>>, seq<byte>))
    ensures flag && |s| > 0 ==> r.0.Some? && r.0.value + r.1 == s[if |s| < 2 then |s| else 2..]
    ensures !(flag && |s| > 0) ==> r == (current, s)
  {
    if flag && |s| > 0 then
      var (v, rest) := ReadString(s);
      (Some(v), rest)
    else (current, s)
  }

  /** The will topic and will message: both read when the will flag is set, else kept as they were. */
  function ReadWill(will: bool, s: seq<byte>, b: Body): (r: (Option<seq<byte>>, seq<byte>, seq<byte>))
    requires b.Connect?
    ensures will ==> r.0.Some?
    ensures !will ==> r == (b.willTopic, b.willPayload, s)
    ensures |r.2| <= |s|
  {
    if will then
      var topic := ReadString(s);
      var payload := ReadString(topic.1);
      (Some(topic.0), payload.0, payload.1)
    else (b.willTopic, b.willPayload, s)
  }

  /**
   * The fields after the flags byte, as `parse_body` reads them: the keep-alive and client
   * identifier; the will topic and message, QoS and retain flag when the will flag is set; then
   * the user name and the password when their flags are set and bytes remain. Fields not read
   * keep the values they had in `b`; the bytes not read are returned.
   */
  function DecodeFields(b: Body, name: seq<byte>, version: int, flags: byte, s: seq<byte>): (r: (Body, seq<byte>))
    requires b.Connect?
    ensures r.0.Connect? && r.0.protocolName == name && r.0.protocolVersion == version
    ensures r.0.clientId.Some? && r.0.cleanSession == FlagSet(flags, 0x02)
    ensures FlagSet(flags, 0x04) ==> r.0.willTopic.Some? && r.0.willQos == (flags / 8) % 4
                                     && r.0.willRetain == FlagSet(flags, 0x20)
    ensures !FlagSet(flags, 0x04) ==> r.0.willTopic == b.willTopic && r.0.willQos == b.willQos
                                      && r.0.willRetain == b.willRetain && r.0.willPayload == b.willPayload
    ensures !FlagSet(flags, 0x80) ==> r.0.username == b.username
    ensures !FlagSet(flags, 0x40) ==> r.0.password == b.password
    ensures |r.1| <= |s|
  {
    var keepAlive := ReadShort(s);
    var clientId := ReadString(keepAlive.1);
    var will := FlagSet(flags, 0x04);
    var willFields := ReadWill(will, clientId.1, b);
    var username := ReadOptional(FlagSet(flags, 0x80), willFields.2, b.username);
    var password := ReadOptional(FlagSet(flags, 0x40), username.1, b.password);
    (Connect(name, version, Some(clientId.0), FlagSet(flags, 0x02), keepAlive.0, willFields.0,
             if will then (flags / 8) % 4 else b.willQos,
             if will then FlagSet(flags, 0x20) else b.willRetain,
             willFields.1, username.0, password.0), password.1)
  }

  /**
   * `parse_body`: the generic length check; the protocol name and version (a missing version
   * reads as 0), refused unless they are "MQIsdp" and 3; the flags (whose absence makes the
   * source fail on nil); then the remaining fields. Bytes left over are ignored (returned as
   * the remainder).
   */
  function Decode(b: Body, declared: int, s: seq<byte>): (r: Result<(Body, seq<byte>), Error>)
    requires b.Connect?
    ensures |s| != declared ==> r == Err(BodyLengthMismatch(|s|, declared))
    ensures r.Ok? ==> r.value.0.Connect? && r.value.0.protocolName == ProtocolName
                      && r.value.0.protocolVersion == ProtocolVersion
  {
    if |s| != declared then Err(BodyLengthMismatch(|s|, declared))
    else
      var (name, afterName) := ReadString(s);
      var (v, afterVersion) := ReadByte(afterName);
      var version := ToI(v);
      if name != ProtocolName then Err(UnsupportedProtocolName(name))
      else if version != ProtocolVersion then Err(UnsupportedProtocolVersion(version))
      else
        var (f, afterFlags) := ReadByte(afterVersion);
        if f.None? then Err(NilConnectFlags)
        else Ok(DecodeFields(b, name, version, f.value, afterFlags))
  }

  /** Shifts the will topic and will message off the buffer when the will flag is set. */
  method ShiftWill(will: bool, b: Body, buf: Buffer) returns (topic: Option<seq<byte>>, payload: seq<byte>)
    requires b.Connect?
    modifies buf
    ensures (topic, payload, buf.bytes) == ReadWill(will, old(buf.bytes), b)
  {
    topic, payload := b.willTopic, b.willPayload;
    if will {
      var t := buf.ShiftString();
      topic := Some(t);
      payload := buf.ShiftString();
    }
  }

  /** Shifts one optional string (user name or password) when its flag is set and bytes remain. */
  method ShiftOptional(flag: bool, buf: Buffer, current: Option<seq<byte>>) returns (v: Option<seq<byte>>)
    modifies buf
    ensures (v, buf.bytes) == ReadOptional(flag, old(buf.bytes), current)
  {
    v := current;
    if flag && |buf.bytes| > 0 {
      var u := buf.ShiftString();
      v := Some(u);
    }
  }

  /** The second half of `parse_body`: shifts the fields after the flags byte off the buffer. */
  method ShiftFields(b: Body, name: seq<byte>, version: int, flags: byte, buf: Buffer) returns (r: Body)
    requires b.Connect?
    modifies buf
    ensures (r, buf.bytes) == DecodeFields(b, name, version, flags, old(buf.bytes))
  {
    var keepAlive := buf.ShiftShort();
    var clientId := buf.ShiftString();
    var will := FlagSet(flags, 0x04);
    var willQos, willRetain := b.willQos, b.willRetain;
    if will {
      willQos := (flags / 8) % 4;
      willRetain := FlagSet(flags, 0x20);
    }
    var willTopic, willPayload := ShiftWill(will, b, buf);
    var username := ShiftOptional(FlagSet(flags, 0x80), buf, b.username);
    var password := ShiftOptional(FlagSet(flags, 0x40), buf, b.password);
    r := Connect(name, version, Some(clientId), FlagSet(flags, 0x02), keepAlive, willTopic,
                 willQos, willRetain, willPayload, username, password);
  }

  method ParseBody(p: Packet, buf: Buffer) returns (r: Result<(), Error>)
    requires p.body.Connect?
    modifies p`body, buf
    ensures var d := Decode(old(p.body), p.bodyLength, old(buf.bytes));
            (r.Ok? <==> d.Ok?) && (r.Err? ==> r.error == d.error)
            && (r.Ok? ==> p.body == d.value.0 && buf.bytes == d.value.1)
  {
    r := CheckBodyLength(p, buf);
    if r.Err? {
      return;
    }
    var name := buf.ShiftString();
    var v := buf.ShiftByte();
    var version := ToI(v);
    if name != ProtocolName {
      return Err(UnsupportedProtocolName(name));
    }
    if version != ProtocolVersion {
      return Err(UnsupportedProtocolVersion(version));
    }
    var f := buf.ShiftByte();
    if f.None? {
      return Err(NilConnectFlags);
    }
    p.body := ShiftFields(p.body, name, version, f.value, buf);
  }

  /** A CONNECT `encode_body` writes and a peer of this library reads back unchanged. */
  predicate Encodable(b: Body)
  {
    && b.Connect?
    && b.protocolName == ProtocolName && b.protocolVersion == ProtocolVersion
    && b.clientId.Some? && 1 <= |b.clientId.value| <= MaxClientIdLength
    && b.keepAlive.Some? && 0 <= b.keepAlive.value < 65536
    && (b.willTopic.Some? ==> |b.willTopic.value| < 65536 && |b.willPayload| < 65536 && 0 <= b.willQos < 4)
    && (b.username.Some? ==> |b.username.value| < 65536)
    && (b.password.Some? ==> |b.password.value| < 65536)
  }

  /**
   * What an initial CONNECT decodes `b` into: everything, except that without a will topic the
   * will QoS, retain flag and message are not sent and stay at their defaults.
   */
  function Received(b: Body): (r: Body)
    requires b.Connect?
    ensures r.Connect?
    ensures b.willTopic.Some? ==> r == b
  {
    if b.willTopic.Some? then b
    else Connect(b.protocolName, b.protocolVersion, b.clientId, b.cleanSession, b.keepAlive,
                 None, 0, false, [], b.username, b.password)
  }

  lemma ReadOptionalString(flag: bool, v: Option<seq<byte>>, rest: seq<byte>, current: Option<seq<byte>>)
    requires flag <==> v.Some?
    requires v.Some? ==> |v.value| < 65536
    requires v.None? ==> current == None
    ensures ReadOptional(flag, OptionalString(v) + rest, current) == (v, rest)
  {
    if v.Some? {
      ReadStringEncodeString(v.value, rest);
    } else {
      assert OptionalString(v) + rest == rest;
    }
  }

  /** The will topic and message `encode_body` wrote read back into an initial CONNECT. */
  lemma ReadWillEncoded(b: Body, rest: seq<byte>)
    requires Encodable(b)
    ensures ReadWill(b.willTopic.Some?, WillBytes(b) + rest, Defaults(Registry.Connect))
         == (b.willTopic, Received(b).willPayload, rest)
  {
    if b.willTopic.Some? {
      var topic := b.willTopic.value;
      assert WillBytes(b) + rest == EncodeString(topic) + (EncodeString(b.willPayload) + rest);
      ReadStringEncodeString(topic, EncodeString(b.willPayload) + rest);
      ReadStringEncodeString(b.willPayload, rest);
    } else {
      assert WillBytes(b) + rest == rest;
    }
  }

  /** Each read of the fields after the flags byte, one by one, on what `encode_body` wrote. */
  lemma ReadsEncoded(b: Body, s: seq<byte>, rest: seq<byte>)
      returns (afterKeepAlive: seq<byte>, afterClientId: seq<byte>, afterWill: seq<byte>, afterUser: seq<byte>)
    requires Encodable(b)
    requires s == FieldBytes(b) + rest
    ensures ReadShort(s) == (b.keepAlive, afterKeepAlive)
    ensures ReadString(afterKeepAlive) == (b.clientId.value, afterClientId)
    ensures ReadWill(b.willTopic.Some?, afterClientId, Defaults(Registry.Connect))
         == (b.willTopic, Received(b).willPayload, afterWill)
    ensures ReadOptional(b.username.Some?, afterWill, None) == (b.username, afterUser)
    ensures ReadOptional(b.password.Some?, afterUser, None) == (b.password, rest)
  {
    afterUser := OptionalString(b.password) + rest;
    afterWill := OptionalString(b.username) + afterUser;
    afterClientId := WillBytes(b) + afterWill;
    afterKeepAlive := EncodeString(b.clientId.value) + afterClientId;
    assert s == EncodeShort(b.keepAlive.value) + afterKeepAlive by {
      var x1, x2, x3 := EncodeShort(b.keepAlive.value), EncodeString(b.clientId.value), WillBytes(b);
      var x4, x5 := OptionalString(b.username), OptionalString(b.password);
      AppendAssociative(x1 + x2 + x3 + x4, x5, rest);
      AppendAssociative(x1 + x2 + x3, x4, afterUser);
      AppendAssociative(x1 + x2, x3, afterWill);
      AppendAssociative(x1, x2, afterClientId);
    }
    assert ReadShort(s) == (b.keepAlive, afterKeepAlive) by {
      ReadShortEncodeShort(b.keepAlive.value, afterKeepAlive);
    }
    assert ReadString(afterKeepAlive) == (b.clientId.value, afterClientId) by {
      ReadStringEncodeString(b.clientId.value, afterClientId);
    }
    ReadWillEncoded(b, afterWill);
    ReadOptionalString(b.username.Some?, b.username, afterUser, None);
    ReadOptionalString(b.password.Some?, b.password, rest, None);
  }

  /** The fields after the flags byte read back as written, followed by any further bytes. */
  lemma DecodeFieldsEncoded(b: Body, s: seq<byte>, rest: seq<byte>)
    requires Encodable(b)
    requires s == FieldBytes(b) + rest
    ensures DecodeFields(Defaults(Registry.Connect), b.protocolName, b.protocolVersion, ConnectFlags(b), s)
         == (Received(b), rest)
  {
    var flags := ConnectFlags(b);
    var _, _, _, _ := ReadsEncoded(b, s, rest);
    if b.willTopic.Some? {
      DivMod(b.willQos, 4, 0, b.willQos);
      assert (flags / 8) % 4 == b.willQos;
    }
  }

  /**
   * Round trip, with any bytes after the body: an initial CONNECT decodes what `encode_body`
   * wrote, and ignores what follows it.
   */
  lemma DecodeEncode(b: Body, rest: seq<byte>)
    requires Encodable(b)
    ensures Encode(b).Ok?
    ensures var e := Encode(b).value + rest;
            Decode(Defaults(Registry.Connect), |e|, e) == Ok((Received(b), rest))
  {
    var name, version, flags := EncodeString(b.protocolName), [EncodeByte(b.protocolVersion)], [ConnectFlags(b)];
    var afterFlags := FieldBytes(b) + rest;
    var afterVersion := flags + afterFlags;
    var afterName := version + afterVersion;
    var e := Encode(b).value + rest;
    assert e == name + afterName by {
      AppendAssociative(name + version + flags, FieldBytes(b), rest);
      AppendAssociative(name + version, flags, afterFlags);
      AppendAssociative(name, version, afterVersion);
    }
    ReadStringEncodeString(b.protocolName, afterName);
    ReadByteEncodeByte(b.protocolVersion, afterVersion);
    ReadByteEncodeByte(ConnectFlags(b), afterFlags);
    DecodeFieldsEncoded(b, afterFlags, rest);
  }

  /** The plain round trip: decoding exactly what `encode_body` wrote. */
  lemma RoundTrip(b: Body)
    requires Encodable(b)
    ensures Encode(b).Ok?
    ensures Decode(Defaults(Registry.Connect), |Encode(b).value|, Encode(b).value) == Ok((Received(b), []))
  {
    DecodeEncode(b, []);
    assert Encode(b).value + [] == Encode(b).value;
  }

  /** Any body of the declared size whose first string is not "MQIsdp" is refused with that name. */
  lemma OtherProtocolRefused(b: Body, s: seq<byte>)
    requires b.Connect?
    ensures ReadString(s).0 != ProtocolName
            ==> Decode(b, |s|, s) == Err(UnsupportedProtocolName(ReadString(s).0))
  {
  }

  /**
   * Any body of the declared size naming "MQIsdp" with a version byte other than 3 is refused
   * with that version; a missing version byte reads as 0 and is refused too.
   */
  lemma OtherVersionRefused(b: Body, s: seq<byte>)
    requires b.Connect?
    ensures var (name, afterName) := ReadString(s);
            var version := ToI(ReadByte(afterName).0);
            name == ProtocolName && version != ProtocolVersion
            ==> Decode(b, |s|, s) == Err(UnsupportedProtocolVersion(version))
  {
  }

  /** A body that stops right after the name and version is refused for its missing flags. */
  lemma MissingFlags(b: Body)
    requires b.Connect?
    ensures Decode(b, 9, EncodeString(ProtocolName) + [3]) == Err(NilConnectFlags)
  {
    ReadStringEncodeString(ProtocolName, [3]);
  }

  /**
   * With at least 9 bytes, the first string read is "MQIsdp" exactly when the body starts with
   * the encoded name (with 8 bytes, a longer declared length cut short can also read as it).
   */
  lemma NameBytes(s: seq<byte>)
    requires |s| >= 9
    ensures ReadString(s).0 == ProtocolName <==> s[..8] == EncodeString(ProtocolName)
  {
    var n := s[0] as int * 256 + s[1] as int;
    if ReadString(s).0 == ProtocolName {
      // a prefix counting more bytes than remain would give a name of |s| - 2 > 6 bytes
      ReadStringWhole(s);
      assert n == 6;
      assert s[0] == 0 && s[1] == 6;
      assert s[..8] == [s[0], s[1]] + s[2..8];
    }
    if s[..8] == EncodeString(ProtocolName) {
      assert s == EncodeString(ProtocolName) + s[8..];
      ReadStringEncodeString(ProtocolName, s[8..]);
    }
  }

  /**
   * A body of the declared size is accepted exactly when it starts with the encoded name
   * "MQIsdp", the version byte 3 and a flags byte; the fields are then read from the flags
   * byte and the bytes after it.
   */
  lemma {:induction false} DecodeAccepted(b: Body, s: seq<byte>)
    requires b.Connect?
    ensures Decode(b, |s|, s).Ok?
            <==> |s| >= 10 && s[..8] == EncodeString(ProtocolName) && s[8] == ProtocolVersion as byte
    ensures Decode(b, |s|, s).Ok?
            ==> Decode(b, |s|, s).value == DecodeFields(b, ProtocolName, ProtocolVersion, s[9], s[10..])
  {
    var (name, afterName) := ReadString(s);
    if |s| >= 9 {
      NameBytes(s);
      if name == ProtocolName {
        assert s == EncodeString(ProtocolName) + s[8..];
        ReadStringEncodeString(ProtocolName, s[8..]);
        assert afterName == s[8..];
      }
    } else if name == ProtocolName {
      // at most 8 bytes: nothing is left for the version, which reads as 0
      assert |afterName| == 0;
    }
  }

  /**
   * The keep-alive is written in 16 bits with no upper check, so 65536 seconds goes out as 0
   * and comes back as 0.
   */
  lemma KeepAliveWraps(b: Body)
    requires b.Connect? && Encodable(b.(keepAlive := Some(0)))
    requires b.keepAlive == Some(65536)
    ensures Encode(b).Ok? && Encode(b) == Encode(b.(keepAlive := Some(0)))
  {
    assert EncodeShort(65536) == EncodeShort(0);
  }

  /**
   * The will QoS and retain flag are written into the flags even without a will topic, where
   * the receiver ignores them.
   */
  lemma WillBitsWithoutWill(b: Body)
    requires b.Connect? && b.willTopic.None? && b.willQos == 1
    ensures (ConnectFlags(b) / 8) % 4 == 1 && !FlagSet(ConnectFlags(b), 0x04)
  {
  }

  /**
   * The CONNECT body for client "test" with keep-alive 10 and otherwise the defaults: name,
   * version 3, flags 0x02 (clean session), keep-alive, and the identifier; 18 bytes in all.
   */
  lemma TestClientExample()
    ensures var b := Defaults(Registry.Connect);
            var c := Connect(b.protocolName, b.protocolVersion, Some([0x74, 0x65, 0x73, 0x74]),
                             b.cleanSession, Some(10), b.willTopic, b.willQos, b.willRetain,
                             b.willPayload, b.username, b.password);
            Encode(c) == Ok([0x00, 0x06, 0x4D, 0x51, 0x49, 0x73, 0x64, 0x70, 0x03, 0x02, 0x00, 0x0A,
                             0x00, 0x04, 0x74, 0x65, 0x73, 0x74])
  {
    var b := Defaults(Registry.Connect);
    var id: seq<byte> := [0x74, 0x65, 0x73, 0x74];
    var c := Connect(b.protocolName, b.protocolVersion, Some(id), b.cleanSession, Some(10), b.willTopic,
                     b.willQos, b.willRetain, b.willPayload, b.username, b.password);
    var header: seq<byte> := [0x00, 0x06, 0x4D, 0x51, 0x49, 0x73, 0x64, 0x70, 0x03, 0x02];
    var fields: seq<byte> := [0x00, 0x0A, 0x00, 0x04, 0x74, 0x65, 0x73, 0x74];
    assert ConnectFlags(c) == 2;
    assert EncodeString(ProtocolName) + [EncodeByte(3)] + [ConnectFlags(c)] == header;
    assert FieldBytes(c) == EncodeShort(10) + EncodeString(id) + [] + [] + [];
    assert EncodeShort(10) + EncodeString(id) + [] + [] + [] == fields;
    assert header + fields == [0x00, 0x06, 0x4D, 0x51, 0x49, 0x73, 0x64, 0x70, 0x03, 0x02, 0x00, 0x0A,
                               0x00, 0x04, 0x74, 0x65, 0x73, 0x74];
  }
}

=== FILE: empty_packets.dfy ===
/**
 * PINGREQ, PINGRESP and DISCONNECT (lib/mqtt/packet/pingreq.rb, pingresp.rb, disconnect.rb):
 * no fields of their own, the inherited empty body, and a body decoder that accepts only an
 * empty buffer.
 */
module EmptyPackets {
  import opened Wrappers
  import opened Bytes
  import opened Packets

  predicate IsEmptyKind(b: Body)
  {
    b.Pingreq? || b.Pingresp? || b.Disconnect?
  }

  /** The packet name in the "Extra bytes at end of ... packet" message. */
  function Name(b: Body): string
    requires IsEmptyKind(b)
  {
    match b
    case Pingreq => "Ping Request"
    case Pingresp => "Ping Response"
    case Disconnect => "Disconnect"
  }

  /** `parse_body`: the generic length check, then the buffer must be empty. */
  function Decode(b: Body, declared: int, s: seq<byte>): (r: Result<(Body, seq<byte>), Error>)
    requires IsEmptyKind(b)
    ensures |s| != declared ==> r == Err(BodyLengthMismatch(|s|, declared))
    ensures r.Ok? ==> r.value == (b, []) && declared == 0
  {
    if |s| != declared then Err(BodyLengthMismatch(|s|, declared))
    else if |s| != 0 then Err(ExtraBytes(Name(b)))
    else Ok((b, s))
  }

  /**
   * Only an empty buffer with a declared length of 0 is accepted; any non-zero declared length
   * is refused, as a mismatch or as extra bytes.
   */
  lemma DecodeAcceptsOnlyEmpty(b: Body, declared: int, s: seq<byte>)
    requires IsEmptyKind(b)
    ensures Decode(b, declared, s).Ok? <==> declared == 0 && s == []
    ensures Decode(b, declared, s).Ok? ==> Decode(b, declared, s).value == (b, [])
    ensures |s| == declared && declared > 0 ==> Decode(b, declared, s) == Err(ExtraBytes(Name(b)))
    ensures Decode(b, declared, s).Err? ==> Decode(b, declared, s).error.IsProtocolError()
  {
  }

  method ParseBody(p: Packet, buf: Buffer) returns (r: Result<(), Error>)
    requires IsEmptyKind(p.body)
    ensures var d := Decode(p.body, p.bodyLength, buf.bytes);
            (r.Ok? <==> d.Ok?) && (r.Err? ==> r.error == d.error)
  {
    r := CheckBodyLength(p, buf);
    if r.Err? {
      return;
    }
    if |buf.bytes| != 0 {
      return Err(ExtraBytes(Name(p.body)));
    }
  }
}

=== FILE: message_id_packets.dfy ===
/**
 * Packets whose body is just the 16-bit message identifier: PUBCOMP
 * (lib/mqtt/packet/pubcomp.rb) and UNSUBACK (lib/mqtt/packet/unsuback.rb), whose code is
 * identical. PUBACK, PUBREC and PUBREL are not part of this model's source; they are ASSUMED
 * to follow the same rules, by analogy with PUBCOMP, and nothing below is stated about them
 * separately.
 */
module MessageIdPackets {
  import opened Wrappers
  import opened Bytes
  import opened Packets

  predicate IsMessageIdKind(b: Body)
  {
    b.Puback? || b.Pubrec? || b.Pubrel? || b.Pubcomp? || b.Unsuback?
  }

  /** The packet name in the "Extra bytes at end of ... packet" message. */
  function Name(b: Body): string
    requires IsMessageIdKind(b)
  {
    match b
    case Pubcomp(_) => "Publish Complete"
    case Unsuback(_) => "Unsubscribe Acknowledgment"
    // the three below are named by analogy: their source files are not part of this model
    case Puback(_) => "Publish Acknowledgment"
    case Pubrec(_) => "Publish Received"
    case Pubrel(_) => "Publish Release"
  }

  /** The same packet with its message identifier replaced (`message_id=`). */
  function WithId(b: Body, id: Option<int>): (r: Body)
    requires IsMessageIdKind(b)
    ensures IsMessageIdKind(r) && KindOf(r) == KindOf(b) && r.messageId == id
  {
    match b
    case Puback(_) => Puback(id)
    case Pubrec(_) => Pubrec(id)
    case Pubrel(_) => Pubrel(id)
    case Pubcomp(_) => Pubcomp(id)
    case Unsuback(_) => Unsuback(id)
  }

  /** `encode_body`: the message identifier, two bytes big-endian (nil counts as 0). */
  function Encode(b: Body): (r: seq<byte>)
    requires IsMessageIdKind(b)
    ensures |r| == 2 && r[0] as int * 256 + r[1] == ToI(b.messageId) % 65536
  {
    EncodeShort(ToI(b.messageId))
  }

  /**
   * `parse_body`: the generic length check, the message identifier (nil when fewer than two
   * bytes are there: the source does not check), then no byte may remain.
   */
  function Decode(b: Body, declared: int, s: seq<byte>): (r: Result<(Body, seq<byte>), Error>)
    requires IsMessageIdKind(b)
    ensures |s| != declared ==> r == Err(BodyLengthMismatch(|s|, declared))
    ensures r.Ok? ==> |s| <= 2 && r.value.1 == [] && KindOf(r.value.0) == KindOf(b)
  {
    if |s| != declared then Err(BodyLengthMismatch(|s|, declared))
    else
      var (id, rest) := ReadShort(s);
      if |rest| != 0 then Err(ExtraBytes(Name(b)))
      else Ok((WithId(b, id), rest))
  }

  /** The body is exactly the identifier's two bytes, and decoding them restores it. */
  lemma RoundTrip(b: Body, m: int)
    requires IsMessageIdKind(b) && 0 <= m < 65536
    ensures |Encode(WithId(b, Some(m)))| == 2
    ensures Decode(b, 2, Encode(WithId(b, Some(m)))) == Ok((WithId(b, Some(m)), []))
  {
    ReadShortEncodeShort(m, []);
    assert Encode(WithId(b, Some(m))) + [] == Encode(WithId(b, Some(m)));
  }

  /** More than two bytes is refused; fewer than two leaves the identifier nil. */
  lemma DecodeOutcome(b: Body, s: seq<byte>)
    requires IsMessageIdKind(b)
    ensures |s| > 2 ==> Decode(b, |s|, s) == Err(ExtraBytes(Name(b)))
    ensures |s| < 2 ==> Decode(b, |s|, s) == Ok((WithId(b, None), []))
    ensures |s| == 2 ==> Decode(b, |s|, s) == Ok((WithId(b, Some(s[0] as int * 256 + s[1])), []))
  {
  }

  method ParseBody(p: Packet, buf: Buffer) returns (r: Result<(), Error>)
    requires IsMessageIdKind(p.body)
    modifies p`body, buf
    ensures var d := Decode(old(p.body), p.bodyLength, old(buf.bytes));
            (r.Ok? <==> d.Ok?) && (r.Err? ==> r.error == d.error)
            && (r.Ok? ==> p.body == d.value.0 && buf.bytes == d.value.1)
  {
    r := CheckBodyLength(p, buf);
    if r.Err? {
      return;
    }
    var id := buf.ShiftShort();
    p.body := WithId(p.body, id);
    if |buf.bytes| != 0 {
      return Err(ExtraBytes(Name(p.body)));
    }
  }
}

=== FILE: packet.dfy ===
/**
 * The generic packet of lib/mqtt/packet.rb: the three flag fields every packet carries, the
 * declared body length, the errors the codec raises, the fixed header's first byte, and
 * `create_from_header`.
 *
 * Ruby's class hierarchy (one subclass per packet type) is modelled as one `Packet` class whose
 * `body` field holds the subclass and its own instance variables as a `Body` value; the tag of
 * `body` never changes after construction, just as an object never changes class.
 */
module Packets {
  import opened Wrappers
  import opened Bytes
  import Registry

  /** One constructor per `raise` in the core. */
  datatype Error =
    // MQTT::ProtocolException: the bytes on the wire are malformed
    | ShortPacket                                       // "less than 2 bytes long"
    | LengthHeaderIncomplete                            // "The packet length header is incomplete"
    | InvalidTypeId(typeId: int)                        // "Invalid packet type identifier"
    | BodyLengthMismatch(actual: int, declared: int)    // "input buffer ... is not the same as the body length header"
    | UnsupportedProtocolName(name: seq<byte>)
    | UnsupportedProtocolVersion(version: int)
    | ExtraBytes(packetName: string)                    // "Extra bytes at end of ... packet"
    // RuntimeError from a plain `raise`: the caller supplied an invalid value
    | InvalidQos(qos: int)
    | InvalidClientId
    | InvalidKeepAlive
    | BodyTooLarge
    | InvalidTopicName
    | NoTopics
    | NoGrantedQos
    | InvalidTopicsInput
    | InvalidGrantedQos
    // Ruby's own NoMethodError / TypeError when a field left nil by a short read is used
    | NilConnectFlags                                   // `nil & 0x02` in Connect#parse_body
    | NilKeepAlive                                      // `nil < 0` in Connect#encode_body
    | NilTopicQos                                       // `[nil].pack('C*')` in Subscribe#encode_body
  {
    predicate IsProtocolError()
    {
      ShortPacket? || LengthHeaderIncomplete? || InvalidTypeId? || BodyLengthMismatch?
      || UnsupportedProtocolName? || UnsupportedProtocolVersion? || ExtraBytes?
    }
  }

  /** "MQIsdp", the MQTT v3.1 protocol name, as bytes. */
  const ProtocolName: seq<byte> := [0x4D, 0x51, 0x49, 0x73, 0x64, 0x70]
  const ProtocolVersion: int := 3

  /** One SUBSCRIBE entry: a topic filter and its requested QoS (nil after a short read). */
  datatype Topic = Topic(name: seq<byte>, qos: Option<int>)

  /** The instance variables of each packet class. */
  datatype Body =
    | Connect(protocolName: seq<byte>, protocolVersion: int, clientId: Option<seq<byte>>,
              cleanSession: bool, keepAlive: Option<int>, willTopic: Option<seq<byte>>,
              willQos: int, willRetain: bool, willPayload: seq<byte>,
              username: Option<seq<byte>>, password: Option<seq<byte>>)
    | Connack(returnCode: Option<int>)
    | Publish(topic: Option<seq<byte>>, messageId: Option<int>, payload: seq<byte>)
    | Puback(messageId: Option<int>)
    | Pubrec(messageId: Option<int>)
    | Pubrel(messageId: Option<int>)
    | Pubcomp(messageId: Option<int>)
    | Subscribe(messageId: Option<int>, topics: seq<Topic>)
    | Suback(messageId: Option<int>, grantedQos: seq<int>)
    | Unsubscribe(messageId: Option<int>, topicNames: seq<seq<byte>>)
    | Unsuback(messageId: Option<int>)
    | Pingreq
    | Pingresp
    | Disconnect

  /** The class of a body. */
  function KindOf(b: Body): Registry.Kind
  {
    match b
    case Connect(_, _, _, _, _, _, _, _, _, _, _) => Registry.Connect
    case Connack(_) => Registry.Connack
    case Publish(_, _, _) => Registry.Publish
    case Puback(_) => Registry.Puback
    case Pubrec(_) => Registry.Pubrec
    case Pubrel(_) => Registry.Pubrel
    case Pubcomp(_) => Registry.Pubcomp
    case Subscribe(_, _) => Registry.Subscribe
    case Suback(_, _) => Registry.Suback
    case Unsubscribe(_, _) => Registry.Unsubscribe
    case Unsuback(_) => Registry.Unsuback
    case Pingreq => Registry.Pingreq
    case Pingresp => Registry.Pingresp
    case Disconnect => Registry.Disconnect
  }

  /** Each class's DEFAULTS, as `new` sets them before any argument is applied. */
  function Defaults(k: Registry.Kind): (b: Body)
    ensures KindOf(b) == k
  {
    match k
    case Connect =>
      Connect(ProtocolName, ProtocolVersion, None, true, Some(15), None, 0, false, [], None, None)
    case Connack => Connack(Some(0))
    case Publish => Publish(None, Some(0), [])
    case Puback => Puback(Some(0))
    case Pubrec => Pubrec(Some(0))
    case Pubrel => Pubrel(Some(0))
    case Pubcomp => Pubcomp(Some(0))
    case Subscribe => Subscribe(Some(0), [])
    case Suback => Suback(Some(0), [])
    case Unsubscribe => Unsubscribe(Some(0), [])
    case Unsuback => Unsuback(Some(0))
    case Pingreq => Pingreq
    case Pingresp => Pingresp
    case Disconnect => Disconnect
  }

  /** SUBSCRIBE and UNSUBSCRIBE force QoS 1 in their constructors. */
  predicate ForcesQosOne(k: Registry.Kind)
  {
    k == Registry.Subscribe || k == Registry.Unsubscribe
  }

  /** A packet's state: the base-class fields and the class's own fields. */
  datatype PacketValue = PacketValue(duplicate: bool, qos: int, retain: bool, bodyLength: int, body: Body)

  /**
   * `packet_class.new(:duplicate => d, :qos => q, :retain => r)`: the qos setter rejects values
   * outside 0..2; otherwise the packet has the given flags, a body length of 0 (the default nil
   * turned into an integer by the setter) and the class defaults.
   */
  function NewPacket(k: Registry.Kind, duplicate: bool, qos: int, retain: bool): (r: Result<PacketValue, Error>)
    ensures r.Err? <==> qos < 0 || qos > 2
    ensures r.Err? ==> r.error == InvalidQos(qos)
    ensures r.Ok? ==> r.value.duplicate == duplicate && r.value.retain == retain
    ensures r.Ok? ==> r.value.qos == (if ForcesQosOne(k) then 1 else qos)
    ensures r.Ok? ==> r.value.bodyLength == 0 && r.value.body == Defaults(k)
  {
    if qos < 0 || qos > 2 then Err(InvalidQos(qos))
    else Ok(PacketValue(duplicate, if ForcesQosOne(k) then 1 else qos, retain, 0, Defaults(k)))
  }

  /** The first byte of the fixed header: `type_id<<4 | dup<<3 | (qos & 3)<<1 | retain`. */
  function HeaderByte(typeId: int, duplicate: bool, qos: int, retain: bool): (b: byte)
    ensures b / 16 == typeId % 16
    ensures ((b / 8) % 2 == 1) == duplicate
    ensures (b / 2) % 4 == qos % 4
    ensures (b % 2 == 1) == retain
  {
    var t, d, q, r := typeId % 16, (if duplicate then 1 else 0), qos % 4, (if retain then 1 else 0);
    var b := t * 16 + d * 8 + q * 2 + r;
    assert b / 2 == t * 8 + d * 4 + q && b / 8 == t * 2 + d;
    b
  }

  /**
   * `create_from_header`: the high nibble picks the class (nil slots raise a protocol error),
   * and bits 3, 2-1 and 0 become duplicate, qos and retain.
   */
  function FromHeader(b: byte): (r: Result<PacketValue, Error>)
  {
    var typeId := b / 16;
    match Registry.Lookup(typeId)
    case None => Err(InvalidTypeId(typeId))
    case Some(k) => NewPacket(k, (b / 8) % 2 == 1, (b / 2) % 4, b % 2 == 1)
  }

  /**
   * What `create_from_header` makes of any byte: identifiers 0 and 15 are refused, both QoS
   * bits set is refused, and otherwise the packet's `type_id` is the byte's high nibble.
   */
  lemma FromHeaderOutcome(b: byte)
    ensures (b / 16 == 0 || b / 16 == 15) ==> FromHeader(b) == Err(InvalidTypeId(b / 16))
    ensures 0 < b / 16 < 15 && (b / 2) % 4 == 3 ==> FromHeader(b) == Err(InvalidQos(3))
    ensures FromHeader(b).Ok? ==> Registry.TypeId(KindOf(FromHeader(b).value.body)) == b / 16
    ensures FromHeader(b).Ok? <==> 0 < b / 16 < 15 && (b / 2) % 4 != 3
  {
    var typeId := b / 16;
    if 0 < typeId < 15 {
      Registry.LookupTypeId(typeId);
    }
  }

  /**
   * The header byte `to_s` writes gives back, through `create_from_header`, the same class and
   * flags (with SUBSCRIBE and UNSUBSCRIBE at their forced QoS 1).
   */
  lemma FromHeaderByte(k: Registry.Kind, duplicate: bool, qos: int, retain: bool)
    requires 0 <= qos <= 2
    ensures FromHeader(HeaderByte(Registry.TypeId(k), duplicate, qos, retain))
         == Ok(PacketValue(duplicate, if ForcesQosOne(k) then 1 else qos, retain, 0, Defaults(k)))
  {
    var id := Registry.TypeId(k);
    var b := HeaderByte(id, duplicate, qos, retain);
    assert b / 16 == id;
    assert Registry.Lookup(id) == Some(k);
    assert (b / 2) % 4 == qos;
    assert NewPacket(k, (b / 8) % 2 == 1, (b / 2) % 4, b % 2 == 1) == NewPacket(k, duplicate, qos, retain);
  }

  /** Argument of the `duplicate=` and `retain=` setters: a boolean or an integer. */
  datatype FlagArg = BoolArg(b: bool) | IntArg(i: int)

  /** An integer argument means `arg != 0`; a boolean is stored as it is. */
  function FlagValue(arg: FlagArg): bool
  {
    match arg
    case BoolArg(b) => b
    case IntArg(i) => i != 0
  }

  class Packet {
    var duplicate: bool
    var qos: int
    var retain: bool
    var bodyLength: int
    var body: Body

    function Value(): PacketValue
      reads this
    {
      PacketValue(duplicate, qos, retain, bodyLength, body)
    }

    /** `type_id`: the registry position of this packet's class. */
    function TypeId(): (id: int)
      reads this
      ensures 1 <= id <= 14 && Registry.Lookup(id) == Some(KindOf(body))
    {
      Registry.TypeId(KindOf(body))
    }

    /** `new` with no arguments: the base defaults and the class defaults. */
    constructor (k: Registry.Kind)
      ensures Value() == PacketValue(false, if ForcesQosOne(k) then 1 else 0, false, 0, Defaults(k))
    {
      duplicate := false;
      qos := if ForcesQosOne(k) then 1 else 0;
      retain := false;
      bodyLength := 0;
      body := Defaults(k);
    }

    /** `duplicate=` */
    method SetDuplicate(arg: FlagArg)
      modifies this`duplicate
      ensures duplicate == FlagValue(arg)
      ensures arg.IntArg? ==> (duplicate <==> arg.i != 0)
    {
      match arg
      case IntArg(i) => duplicate := i != 0;
      case BoolArg(b) => duplicate := b;
    }

    /** `retain=` */
    method SetRetain(arg: FlagArg)
      modifies this`retain
      ensures retain == FlagValue(arg)
      ensures arg.IntArg? ==> (retain <==> arg.i != 0)
    {
      match arg
      case IntArg(i) => retain := i != 0;
      case BoolArg(b) => retain := b;
    }

    /**
     * `qos=`: the value is stored first and then checked, so a refused value stays in the
     * field when the error is raised.
     */
    method SetQos(arg: int) returns (r: Result<(), Error>)
      modifies this`qos
      ensures qos == arg
      ensures r.Ok? <==> 0 <= arg <= 2
      ensures r.Err? ==> r.error == InvalidQos(arg)
    {
      qos := arg;
      if qos < 0 || qos > 2 {
        return Err(InvalidQos(qos));
      }
      r := Ok(());
    }
  }

  /** `packet_class.new(:duplicate, :qos, :retain)`, as `create_from_header` calls it. */
  method New(k: Registry.Kind, duplicate: bool, qos: int, retain: bool) returns (r: Result<Packet, Error>)
    ensures r.Ok? <==> NewPacket(k, duplicate, qos, retain).Ok?
    ensures r.Ok? ==> fresh(r.value) && r.value.Value() == NewPacket(k, duplicate, qos, retain).value
    ensures r.Err? ==> r.error == NewPacket(k, duplicate, qos, retain).error
  {
    var p := new Packet(k);
    p.SetDuplicate(BoolArg(duplicate));
    var qosSet := p.SetQos(qos);
    if qosSet.Err? {
      return Err(qosSet.error);
    }
    p.SetRetain(BoolArg(retain));
    if ForcesQosOne(k) {
      p.qos := 1;
    }
    r := Ok(p);
  }

  /** `create_from_header` */
  method CreateFromHeader(b: byte) returns (r: Result<Packet, Error>)
    ensures r.Ok? <==> FromHeader(b).Ok?
    ensures r.Ok? ==> fresh(r.value) && r.value.Value() == FromHeader(b).value
    ensures r.Err? ==> r.error == FromHeader(b).error
  {
    var typeId := b / 16;
    var packetClass := Registry.Lookup(typeId);
    if packetClass.None? {
      return Err(InvalidTypeId(typeId));
    }
    r := New(packetClass.value, (b / 8) % 2 == 1, (b / 2) % 4, b % 2 == 1);
  }

  /**
   * The generic `parse_body`, which every class calls first: the buffer must hold exactly the
   * declared body length.
   */
  method CheckBodyLength(p: Packet, buf: Buffer) returns (r: Result<(), Error>)
    ensures r.Ok? <==> |buf.bytes| == p.bodyLength
    ensures r.Err? ==> r.error == BodyLengthMismatch(|buf.bytes|, p.bodyLength)
  {
    if |buf.bytes| != p.bodyLength {
      return Err(BodyLengthMismatch(|buf.bytes|, p.bodyLength));
    }
    r := Ok(());
  }
}

=== FILE: publish.dfy ===
/**
 * PUBLISH (lib/mqtt/packet/publish.rb): a topic name, a message identifier present only when
 * the packet's QoS is not 0, and the payload, which runs to the end of the body.
 */
module PublishPacket {
  import opened Wrappers
  import opened Bytes
  import opened Packets

  /**
   * `encode_body`: refuses a nil or empty topic; otherwise the length-prefixed topic, the
   * two-byte message identifier unless `qos` is 0 (nil counts as 0), and the payload verbatim.
   */
  function Encode(b: Body, qos: int): (r: Result<seq<byte>, Error>)
    requires b.Publish?
    ensures r.Err? <==> b.topic == None || b.topic == Some([])
    ensures r.Err? ==> r.error == InvalidTopicName
    ensures r.Ok? ==> |r.value| == 2 + |b.topic.value| + (if qos == 0 then 0 else 2) + |b.payload|
    ensures r.Ok? ==> r.value[|r.value| - |b.payload|..] == b.payload
  {
    match b.topic
    case None => Err(InvalidTopicName)
    case Some(topic) =>
      if |topic| == 0 then Err(InvalidTopicName)
      else Ok(EncodeString(topic) + (if qos == 0 then [] else EncodeShort(ToI(b.messageId))) + b.payload)
  }

  /**
   * `parse_body`: the generic length check, the topic, the message identifier when `qos` is not
   * 0 (otherwise the packet keeps the one it had), and everything left as the payload. The
   * buffer itself becomes the payload, so it is returned as the remaining bytes too.
   */
  function Decode(b: Body, qos: int, declared: int, s: seq<byte>): (r: Result<(Body, seq<byte>), Error>)
    requires b.Publish?
    ensures r.Ok? <==> |s| == declared
    ensures r.Err? ==> r.error == BodyLengthMismatch(|s|, declared)
    ensures r.Ok? ==> r.value.0.Publish? && r.value.1 == r.value.0.payload
    ensures r.Ok? && |s| >= 2 ==>
              var n := s[0] as int * 256 + s[1] as int;
              var k := 2 + n + (if qos == 0 then 0 else 2);
              k <= |s| ==> r.value.0.topic == Some(s[2..2 + n]) && r.value.0.payload == s[k..]
                           && r.value.0.messageId == (if qos == 0 then b.messageId
                                                      else Some(s[2 + n] as int * 256 + s[3 + n] as int))
  {
    if |s| != declared then Err(BodyLengthMismatch(|s|, declared))
    else
      ReadStringWhole(s);
      var (topic, afterTopic) := ReadString(s);
      var (id, payload) := if qos == 0 then (b.messageId, afterTopic) else ReadShort(afterTopic);
      Ok((Publish(Some(topic), id, payload), payload))
  }

  /** Apart from a length mismatch, the decoder accepts every body, even a truncated one. */
  lemma DecodeTotal(b: Body, qos: int, s: seq<byte>)
    requires b.Publish?
    ensures Decode(b, qos, |s|, s).Ok?
    ensures Decode(b, qos, |s|, s).value.0.topic.Some?
    ensures |Decode(b, qos, |s|, s).value.0.payload| <= |s|
  {
  }

  /**
   * Round trip: decoding what `encode_body` wrote gives back the topic and payload, and the
   * message identifier when QoS is not 0; with QoS 0 no identifier is on the wire and the
   * decoding packet keeps its own.
   */
  lemma RoundTrip(b: Body, into: Body, qos: int)
    requires b.Publish? && into.Publish?
    requires b.topic.Some? && 0 < |b.topic.value| < 65536
    requires qos != 0 ==> b.messageId.Some? && 0 <= b.messageId.value < 65536
    ensures Encode(b, qos).Ok?
    ensures Decode(into, qos, |Encode(b, qos).value|, Encode(b, qos).value)
         == Ok((Publish(b.topic, if qos == 0 then into.messageId else b.messageId, b.payload), b.payload))
  {
    var topic := b.topic.value;
    var idBytes := if qos == 0 then [] else EncodeShort(ToI(b.messageId));
    var e := Encode(b, qos).value;
    assert e == EncodeString(topic) + (idBytes + b.payload);
    ReadStringEncodeString(topic, idBytes + b.payload);
    if qos != 0 {
      ReadShortEncodeShort(b.messageId.value, b.payload);
    }
  }

  method ParseBody(p: Packet, buf: Buffer) returns (r: Result<(), Error>)
    requires p.body.Publish?
    modifies p`body, buf
    ensures var d := Decode(old(p.body), p.qos, p.bodyLength, old(buf.bytes));
            (r.Ok? <==> d.Ok?) && (r.Err? ==> r.error == d.error)
            && (r.Ok? ==> p.body == d.value.0 && buf.bytes == d.value.1)
  {
    r := CheckBodyLength(p, buf);
    if r.Err? {
      return;
    }
    var topic := buf.ShiftString();
    var id := p.body.messageId;
    if p.qos != 0 {
      id := buf.ShiftShort();
    }
    p.body := Publish(Some(topic), id, buf.bytes);
  }

  /** A QoS 1 message as it appears on the wire, after the fixed header. */
  lemma Example()
    ensures Encode(Publish(Some([0x61, 0x2F, 0x62]), Some(5), [0x68, 0x69]), 1)
         == Ok([0x00, 0x03, 0x61, 0x2F, 0x62, 0x00, 0x05, 0x68, 0x69])
    ensures Encode(Publish(Some([0x61, 0x2F, 0x62]), Some(5), [0x68, 0x69]), 0)
         == Ok([0x00, 0x03, 0x61, 0x2F, 0x62, 0x68, 0x69])
  {
    var topic: seq<byte> := [0x61, 0x2F, 0x62];
    var payload: seq<byte> := [0x68, 0x69];
    assert EncodeString(topic) == [0x00, 0x03] + topic;
    assert EncodeShort(5) == [0x00, 0x05];
    assert [0x00, 0x03] + topic + [0x00, 0x05] + payload == [0x00, 0x03, 0x61, 0x2F, 0x62, 0x00, 0x05, 0x68, 0x69];
    assert [0x00, 0x03] + topic + [] + payload == [0x00, 0x03, 0x61, 0x2F, 0x62, 0x68, 0x69];
  }
}

=== FILE: registry.dfy ===
/**
 * The packet type registry `MQTT::PACKET_TYPES` (lib/mqtt/packet.rb:282-299): positions 1 to
 * 14 hold the fourteen packet classes, positions 0 and 15 hold nil.
 */
module Registry {
  import opened Wrappers

  /** The packet classes, one per MQTT control packet type. */
  datatype Kind =
    | Connect | Connack | Publish | Puback | Pubrec | Pubrel | Pubcomp
    | Subscribe | Suback | Unsubscribe | Unsuback | Pingreq | Pingresp | Disconnect

  const PacketTypes: seq<Option<Kind>> := [
    None,
    Some(Connect), Some(Connack), Some(Publish), Some(Puback), Some(Pubrec), Some(Pubrel),
    Some(Pubcomp), Some(Subscribe), Some(Suback), Some(Unsubscribe), Some(Unsuback),
    Some(Pingreq), Some(Pingresp), Some(Disconnect),
    None
  ]

  /** The class registered at a 4-bit type identifier, or nil. */
  function Lookup(id: int): (r: Option<Kind>)
    requires 0 <= id < 16
    ensures r.None? <==> id == 0 || id == 15
  {
    PacketTypes[id]
  }

  /**
   * `type_id`: the position of the class in the registry (`PACKET_TYPES.index`). Every class
   * appears exactly once, so the lookup never fails and the position is unique.
   */
  function TypeId(k: Kind): (id: int)
    ensures 1 <= id <= 14 && PacketTypes[id] == Some(k)
    ensures forall i :: 0 <= i < |PacketTypes| && PacketTypes[i] == Some(k) ==> i == id
  {
    match k
    case Connect => 1
    case Connack => 2
    case Publish => 3
    case Puback => 4
    case Pubrec => 5
    case Pubrel => 6
    case Pubcomp => 7
    case Subscribe => 8
    case Suback => 9
    case Unsubscribe => 10
    case Unsuback => 11
    case Pingreq => 12
    case Pingresp => 13
    case Disconnect => 14
  }

  /** The registry and `type_id` are inverse: looking an identifier up and back returns it. */
  lemma LookupTypeId(id: int)
    requires 0 <= id < 16
    ensures Lookup(id).Some? ==> TypeId(Lookup(id).value) == id
    ensures forall k: Kind :: Lookup(TypeId(k)) == Some(k)
  {
  }
}

=== FILE: remaining_length.dfy ===
/**
 * The fixed header's Remaining Length field: base-128 digits, least significant first, with
 * bit 0x80 set on every digit that has a successor (the MQTT V3.1 fixed header; the same
 * algorithm as section 2.2.3 of OASIS MQTT Version 3.1.1).
 *
 * `EncodeLength` is what the digit loop of `to_s` pushes (lib/mqtt/packet.rb:206-212);
 * `DecodeLength` is what the loop of `parse_header` reads (lib/mqtt/packet.rb:81-92).
 */
module RemainingLength {
  import opened Wrappers
  import opened Bytes

  /** The largest body `to_s` accepts, and the largest value four digits can hold. */
  const MaxLength: nat := 268435455

  /** The most digits `parse_header` reads. */
  const MaxDigits: nat := 4

  function Pow128(k: nat): (r: nat)
    ensures r >= 1
  {
    if k == 0 then 1 else 128 * Pow128(k - 1)
  }

  /** The digits of `n`, least significant first, continuation bit on all but the last. */
  function EncodeLength(n: nat): (r: seq<byte>)
    ensures 1 <= |r|
    ensures forall i :: 0 <= i < |r| ==> (r[i] >= 128 <==> i < |r| - 1)
    decreases n
  {
    if n < 128 then [n] else [n % 128 + 128] + EncodeLength(n / 128)
  }

  /** The value of a digit sequence, least significant digit first, ignoring continuation bits. */
  function DigitsValue(s: seq<byte>): nat
  {
    if |s| == 0 then 0 else s[0] % 128 + 128 * DigitsValue(s[1..])
  }

  /**
   * Reads the length field from `s`, the bytes that follow the type byte, taking at most `max`
   * digits: it stops after a digit without the continuation bit or after the `max`-th digit,
   * whatever that digit's top bit says. `None` means the bytes ran out first (the source's
   * "length header is incomplete"). On success, the value and the number of digits read.
   */
  function DecodeLength(s: seq<byte>, max: nat): (r: Option<(nat, nat)>)
    requires 1 <= max
    ensures r.Some? ==> 1 <= r.value.1 <= max && r.value.1 <= |s|
    ensures r.Some? ==> r.value.0 == DigitsValue(s[..r.value.1]) && r.value.0 < Pow128(r.value.1)
    decreases max
  {
    if |s| == 0 then None
    else if s[0] < 128 || max == 1 then Some((s[0] % 128, 1))
    else
      match DecodeLength(s[1..], max - 1)
      case None => None
      case Some(p) =>
        assert s[..p.1 + 1][1..] == s[1..][..p.1];
        Some((s[0] % 128 + 128 * p.0, p.1 + 1))
  }

  /** Adding one more digit at position `k` adds its weight `128^k`. */
  lemma {:induction false} DigitsValueSnoc(s: seq<byte>, k: nat)
    requires k < |s|
    ensures DigitsValue(s[..k + 1]) == DigitsValue(s[..k]) + s[k] % 128 * Pow128(k)
  {
    if k > 0 {
      DigitsValueSnoc(s[1..], k - 1);
      assert s[..k + 1][1..] == s[1..][..k];
      assert s[..k][1..] == s[1..][..k - 1];
      var low, digit, weight := DigitsValue(s[1..][..k - 1]), s[k] % 128, Pow128(k - 1);
      assert DigitsValue(s[..k + 1]) == s[0] % 128 + 128 * (low + digit * weight);
      assert DigitsValue(s[..k]) == s[0] % 128 + 128 * low;
      ShiftDigit(low, digit, weight);
    }
  }

  /** One more factor of 128 moves a digit's weight up one place. */
  lemma ShiftDigit(low: int, digit: int, weight: int)
    ensures 128 * (low + digit * weight) == 128 * low + digit * (128 * weight)
  {
  }

  /**
   * What the header loop finds when it stops after `k` digits: all earlier digits carried the
   * continuation bit, and the last did not or was the `max`-th.
   */
  lemma {:induction false} DecodeLengthStopsAt(s: seq<byte>, max: nat, k: nat)
    requires 1 <= k <= max && k <= |s|
    requires forall i :: 0 <= i < k - 1 ==> s[i] >= 128
    requires s[k - 1] < 128 || k == max
    ensures DecodeLength(s, max) == Some((DigitsValue(s[..k]), k))
  {
    if k > 1 {
      DecodeLengthStopsAt(s[1..], max - 1, k - 1);
      assert s[..k][1..] == s[1..][..k - 1];
    }
  }

  /** Running out of bytes before a final digit leaves the field incomplete. */
  lemma {:induction false} DecodeLengthIncomplete(s: seq<byte>, max: nat)
    requires 1 <= max && |s| < max
    requires forall i :: 0 <= i < |s| ==> s[i] >= 128
    ensures DecodeLength(s, max).None?
  {
    if |s| > 0 {
      DecodeLengthIncomplete(s[1..], max - 1);
    }
  }

  /** The number of digits written for `n` is at most `k` exactly when `n < 128^k`. */
  lemma {:induction false} EncodeLengthSize(n: nat, k: nat)
    requires 1 <= k
    ensures |EncodeLength(n)| <= k <==> n < Pow128(k)
    decreases n
  {
    if n >= 128 {
      if k == 1 {
      } else {
        EncodeLengthSize(n / 128, k - 1);
      }
    }
  }

  /** Every body `to_s` accepts gets one to four digits. */
  lemma EncodeLengthAtMostFour(n: nat)
    requires n <= MaxLength
    ensures 1 <= |EncodeLength(n)| <= MaxDigits
  {
    EncodeLengthSize(n, 4);
  }

  /** The digits carry the value: reading them back gives `n`. */
  lemma {:induction false} EncodeLengthValue(n: nat)
    ensures DigitsValue(EncodeLength(n)) == n
    decreases n
  {
    if n >= 128 {
      EncodeLengthValue(n / 128);
    }
  }

  /**
   * Round trip: the header loop reads back exactly the digits `to_s` wrote, whatever follows
   * them, provided they fit in `max` digits.
   */
  lemma {:induction false} DecodeEncodeLength(n: nat, rest: seq<byte>, max: nat)
    requires 1 <= max && n < Pow128(max)
    ensures DecodeLength(EncodeLength(n) + rest, max) == Some((n, |EncodeLength(n)|))
    decreases n
  {
    var e := EncodeLength(n);
    if n >= 128 {
      assert max > 1;
      DecodeEncodeLength(n / 128, rest, max - 1);
      assert (e + rest)[1..] == EncodeLength(n / 128) + rest;
    }
  }

  /** Every length up to 268435455 survives the trip through the four-digit field. */
  lemma LengthRoundTrip(n: nat, rest: seq<byte>)
    requires n <= MaxLength
    ensures 1 <= |EncodeLength(n)| <= MaxDigits
    ensures DecodeLength(EncodeLength(n) + rest, MaxDigits) == Some((n, |EncodeLength(n)|))
  {
    EncodeLengthAtMostFour(n);
    DecodeEncodeLength(n, rest, MaxDigits);
  }

  /**
   * A fourth digit with its continuation bit set is not an error: reading stops after it.
   */
  lemma FourthContinuationStops(s: seq<byte>)
    requires |s| >= 4 && s[0] >= 128 && s[1] >= 128 && s[2] >= 128 && s[3] >= 128
    ensures DecodeLength(s, MaxDigits) == Some((DigitsValue(s[..4]), 4))
  {
    DecodeLengthStopsAt(s, MaxDigits, 4);
  }

  /** No field of at most four digits decodes above 268435455. */
  lemma DecodedLengthBounded(s: seq<byte>)
    requires DecodeLength(s, MaxDigits).Some?
    ensures DecodeLength(s, MaxDigits).value.0 <= MaxLength
  {
    var k := DecodeLength(s, MaxDigits).value.1;
    assert Pow128(k) <= Pow128(4) by {
      assert Pow128(4) == 268435456;
      assert 1 <= k <= 4;
    }
  }

  /** Where the digit count changes: 127/128, 16383/16384, 2097151/2097152. */
  lemma LengthBoundaries()
    ensures |EncodeLength(0)| == 1 && |EncodeLength(127)| == 1
    ensures |EncodeLength(128)| == 2 && |EncodeLength(16383)| == 2
    ensures |EncodeLength(16384)| == 3 && |EncodeLength(2097151)| == 3
    ensures |EncodeLength(2097152)| == 4 && |EncodeLength(268435455)| == 4
  {
  }
}

=== FILE: suback.dfy ===
/**
 * SUBACK, the subscribe acknowledgment (lib/mqtt/packet/suback.rb): a message identifier and
 * one granted QoS byte per topic that was subscribed to.
 */
module SubackPacket {
  import opened Wrappers
  import opened Bytes
  import opened Packets

  /** What `granted_qos=` may be given: an array of levels, one level, or anything else. */
  datatype GrantedQosArg = QosList(levels: seq<int>) | QosLevel(level: int) | NotQos

  /** `granted_qos=`: an array is stored as it is, an integer as a one-element array. */
  function WithGrantedQos(b: Body, arg: GrantedQosArg): (r: Result<Body, Error>)
    requires b.Suback?
    ensures r.Err? <==> arg.NotQos?
    ensures r.Err? ==> r.error == InvalidGrantedQos
    ensures r.Ok? ==> r.value.Suback? && r.value.messageId == b.messageId
    ensures arg.QosList? ==> r.Ok? && r.value.grantedQos == arg.levels
    ensures arg.QosLevel? ==> r.Ok? && r.value.grantedQos == [arg.level]
  {
    match arg
    case QosList(levels) => Ok(Suback(b.messageId, levels))
    case QosLevel(level) => Ok(Suback(b.messageId, [level]))
    case NotQos => Err(InvalidGrantedQos)
  }

  method SetGrantedQos(p: Packet, arg: GrantedQosArg) returns (r: Result<(), Error>)
    requires p.body.Suback?
    modifies p`body
    ensures var w := WithGrantedQos(old(p.body), arg);
            (r.Ok? <==> w.Ok?) && (r.Ok? ==> p.body == w.value) && (r.Err? ==> r.error == w.error)
    ensures r.Err? ==> p.body == old(p.body)
  {
    match arg
    case QosList(levels) =>
      p.body := Suback(p.body.messageId, levels);
      r := Ok(());
    case QosLevel(level) =>
      p.body := Suback(p.body.messageId, [level]);
      r := Ok(());
    case NotQos =>
      r := Err(InvalidGrantedQos);
  }

  /** One byte per level, each written modulo 256. */
  function LevelBytes(levels: seq<int>): (r: seq<byte>)
    ensures |r| == |levels|
    ensures forall i :: 0 <= i < |levels| ==> r[i] == EncodeByte(levels[i])
  {
    seq(|levels|, i requires 0 <= i < |levels| => EncodeByte(levels[i]))
  }

  /**
   * `encode_body`: refuses an empty list; otherwise the message identifier (nil counts as 0)
   * followed by one byte per granted level.
   */
  function Encode(b: Body): (r: Result<seq<byte>, Error>)
    requires b.Suback?
    ensures r.Err? <==> |b.grantedQos| == 0
    ensures r.Err? ==> r.error == NoGrantedQos
    ensures r.Ok? ==> |r.value| == 2 + |b.grantedQos|
  {
    if |b.grantedQos| == 0 then Err(NoGrantedQos)
    else Ok(EncodeShort(ToI(b.messageId)) + LevelBytes(b.grantedQos))
  }

  /** `encode_body`, appending one byte per level as the source's `each` loop does. */
  method EncodeBody(p: Packet) returns (r: Result<seq<byte>, Error>)
    requires p.body.Suback?
    ensures r == Encode(p.body)
  {
    var levels := p.body.grantedQos;
    if |levels| == 0 {
      return Err(NoGrantedQos);
    }
    var body := EncodeShort(ToI(p.body.messageId));
    for i := 0 to |levels|
      invariant body == EncodeShort(ToI(p.body.messageId)) + LevelBytes(levels[..i])
    {
      assert LevelBytes(levels[..i + 1]) == LevelBytes(levels[..i]) + [EncodeByte(levels[i])];
      body := body + [EncodeByte(levels[i])];
    }
    assert levels[..|levels|] == levels;
    r := Ok(body);
  }

  /**
   * `parse_body`: the generic length check, the message identifier, then every remaining byte
   * is APPENDED to the packet's existing list of levels.
   */
  function Decode(b: Body, declared: int, s: seq<byte>): (r: Result<(Body, seq<byte>), Error>)
    requires b.Suback?
    ensures r.Ok? <==> |s| == declared
    ensures r.Err? ==> r.error == BodyLengthMismatch(|s|, declared)
    ensures r.Ok? ==> r.value.0.Suback? && r.value.1 == []
                      && r.value.0.grantedQos == b.grantedQos + (if |s| < 2 then [] else s[2..])
  {
    if |s| != declared then Err(BodyLengthMismatch(|s|, declared))
    else
      var (id, rest) := ReadShort(s);
      Ok((Suback(id, b.grantedQos + rest), []))
  }

  method ParseBody(p: Packet, buf: Buffer) returns (r: Result<(), Error>)
    requires p.body.Suback?
    modifies p`body, buf
    ensures var d := Decode(old(p.body), p.bodyLength, old(buf.bytes));
            (r.Ok? <==> d.Ok?) && (r.Err? ==> r.error == d.error)
            && (r.Ok? ==> p.body == d.value.0 && buf.bytes == d.value.1)
  {
    r := CheckBodyLength(p, buf);
    if r.Err? {
      return;
    }
    var id := buf.ShiftShort();
    ghost var rest := buf.bytes;
    var levels := p.body.grantedQos;
    while |buf.bytes| > 0
      invariant levels + buf.bytes == old(p.body.grantedQos) + rest
      decreases |buf.bytes|
    {
      ghost var before := buf.bytes;
      var level := buf.ShiftByte();
      assert before == [level.value] + buf.bytes;
      levels := levels + [level.value];
    }
    p.body := Suback(id, levels);
  }

  /**
   * Round trip: a fresh SUBACK decodes what `encode_body` wrote for any non-empty list of
   * levels that fit in a byte.
   */
  lemma RoundTrip(id: int, levels: seq<int>, into: Option<int>)
    requires 0 <= id < 65536 && |levels| > 0
    requires forall i :: 0 <= i < |levels| ==> 0 <= levels[i] < 256
    ensures Encode(Suback(Some(id), levels)).Ok?
    ensures var e := Encode(Suback(Some(id), levels)).value;
            Decode(Suback(into, []), |e|, e) == Ok((Suback(Some(id), levels), []))
  {
    var e := Encode(Suback(Some(id), levels)).value;
    var bytes := LevelBytes(levels);
    assert e == EncodeShort(id) + bytes;
    ReadShortEncodeShort(id, bytes);
    assert forall i :: 0 <= i < |levels| ==> bytes[i] == levels[i];
    assert [] + bytes == levels;
  }

  /** Decoding into a packet that already holds levels keeps them in front of the new ones. */
  lemma DecodeAppends(b: Body, s: seq<byte>)
    requires b.Suback? && |s| >= 2
    ensures Decode(b, |s|, s).Ok?
    ensures Decode(b, |s|, s).value.0.grantedQos == b.grantedQos + s[2..]
  {
  }

  /** A body of the length declared is always accepted; nothing else is checked. */
  lemma DecodeTotal(b: Body, declared: int, s: seq<byte>)
    requires b.Suback?
    ensures Decode(b, declared, s).Ok? <==> |s| == declared
  {
  }
}

=== FILE: subscribe.dfy ===
/**
 * SUBSCRIBE (lib/mqtt/packet/subscribe.rb): a message identifier followed by (topic filter,
 * requested QoS) pairs. The constructor forces QoS 1; the `topics=` setter accepts several
 * shapes of input and normalises them into the ordered list of pairs.
 */
module SubscribePacket {
  import opened Wrappers
  import opened Bytes
  import opened Packets

  // ---------------------------------------------------------------------------------------
  // The order `Hash#sort` puts entries in: `Array#<=>` on [name, qos], that is, the names
  // byte by byte (a proper prefix first), then the QoS values.

  /** `String#<=>` on byte strings: `a` sorts no later than `b`. */
  predicate NameLe(a: seq<byte>, b: seq<byte>)
  {
    |a| == 0 || (|b| > 0 && (a[0] < b[0] || (a[0] == b[0] && NameLe(a[1..], b[1..]))))
  }

  lemma {:induction false} NameLeReflexive(a: seq<byte>)
    ensures NameLe(a, a)
  {
    if |a| > 0 {
      NameLeReflexive(a[1..]);
    }
  }

  lemma {:induction false} NameLeTotal(a: seq<byte>, b: seq<byte>)
    ensures NameLe(a, b) || NameLe(b, a)
  {
    if |a| > 0 && |b| > 0 && a[0] == b[0] {
      NameLeTotal(a[1..], b[1..]);
    }
  }

  lemma {:induction false} NameLeAntisymmetric(a: seq<byte>, b: seq<byte>)
    requires NameLe(a, b) && NameLe(b, a)
    ensures a == b
  {
    if |a| > 0 && |b| > 0 {
      NameLeAntisymmetric(a[1..], b[1..]);
      assert a == [a[0]] + a[1..] && b == [b[0]] + b[1..];
    }
  }

  lemma {:induction false} NameLeTransitive(a: seq<byte>, b: seq<byte>, c: seq<byte>)
    requires NameLe(a, b) && NameLe(b, c)
    ensures NameLe(a, c)
  {
    if |a| > 0 && |b| > 0 && |c| > 0 && a[0] == b[0] && b[0] == c[0] {
      NameLeTransitive(a[1..], b[1..], c[1..]);
    }
  }

  type Entry = (seq<byte>, int)

  /** `Array#<=>` on a [name, qos] pair: by name, then by QoS. */
  predicate EntryLe(x: Entry, y: Entry)
  {
    (NameLe(x.0, y.0) && x.0 != y.0) || (x.0 == y.0 && x.1 <= y.1)
  }

  lemma EntryLeTotal(x: Entry, y: Entry)
    ensures EntryLe(x, y) || EntryLe(y, x)
  {
    NameLeTotal(x.0, y.0);
  }

  lemma EntryLeTransitive(x: Entry, y: Entry, z: Entry)
    requires EntryLe(x, y) && EntryLe(y, z)
    ensures EntryLe(x, z)
  {
    if x.0 != y.0 && y.0 != z.0 {
      NameLeTransitive(x.0, y.0, z.0);
      if x.0 == z.0 {
        NameLeAntisymmetric(x.0, y.0);
      }
    }
  }

  predicate Sorted(s: seq<Entry>)
  {
    forall i, j :: 0 <= i < j < |s| ==> EntryLe(s[i], s[j])
  }

  function Insert(x: Entry, s: seq<Entry>): (r: seq<Entry>)
  {
    if |s| == 0 then [x]
    else if EntryLe(x, s[0]) then [x] + s
    else [s[0]] + Insert(x, s[1..])
  }

  /** `Insert` adds exactly the new pair. */
  lemma {:induction false} InsertCount(x: Entry, s: seq<Entry>)
    ensures multiset(Insert(x, s)) == multiset(s) + multiset{x}
  {
    if |s| > 0 && !EntryLe(x, s[0]) {
      InsertCount(x, s[1..]);
      MultisetFirst(s);
    }
  }

  /** `Insert` puts the new pair after every smaller one. */
  lemma {:induction false} InsertSorted(x: Entry, s: seq<Entry>)
    requires Sorted(s)
    ensures Sorted(Insert(x, s))
  {
    if |s| == 0 {
    } else if EntryLe(x, s[0]) {
      forall j | 0 < j < |s| ensures EntryLe(x, s[j]) {
        EntryLeTransitive(x, s[0], s[j]);
      }
    } else {
      EntryLeTotal(x, s[0]);
      InsertSorted(x, s[1..]);
      InsertCount(x, s[1..]);
      var t := Insert(x, s[1..]);
      forall j | 0 <= j < |t| ensures EntryLe(s[0], t[j]) {
        assert t[j] in multiset(s[1..]) + multiset{x};
        if t[j] != x {
          var k :| 0 <= k < |s[1..]| && s[1..][k] == t[j];
          assert s[k + 1] == t[j];
        }
      }
    }
  }

  /** `Hash#sort`: the entries in ascending order (an insertion sort). */
  function SortEntries(es: seq<Entry>): (r: seq<Entry>)
    ensures Sorted(r) && multiset(r) == multiset(es)
  {
    if |es| == 0 then []
    else
      var rest := SortEntries(es[1..]);
      InsertCount(es[0], rest);
      InsertSorted(es[0], rest);
      MultisetFirst(es);
      Insert(es[0], rest)
  }

  lemma EntryLeAntisymmetric(x: Entry, y: Entry)
    requires EntryLe(x, y) && EntryLe(y, x)
    ensures x == y
  {
    if x.0 != y.0 {
      NameLeAntisymmetric(x.0, y.0);
    }
  }

  /** Two sorted orderings of the same entries start with the same entry. */
  lemma SortedHeadsEqual(a: seq<Entry>, b: seq<Entry>)
    requires Sorted(a) && Sorted(b) && multiset(a) == multiset(b) && |a| > 0 && |b| > 0
    ensures a[0] == b[0]
  {
    assert a[0] in multiset(b);
    assert b[0] in multiset(a);
    var i :| 0 <= i < |b| && b[i] == a[0];
    var j :| 0 <= j < |a| && a[j] == b[0];
    assert EntryLe(b[0], a[0]) by {
      if i > 0 {
        assert EntryLe(b[0], b[i]);
      } else {
        EntryLeTotal(b[0], b[0]);
      }
    }
    assert EntryLe(a[0], b[0]) by {
      if j > 0 {
        assert EntryLe(a[0], a[j]);
      } else {
        EntryLeTotal(a[0], a[0]);
      }
    }
    EntryLeAntisymmetric(a[0], b[0]);
  }

  lemma TailMultiset(a: seq<Entry>)
    requires |a| > 0
    ensures multiset(a[1..]) == multiset(a) - multiset{a[0]}
  {
    assert a == [a[0]] + a[1..];
  }

  /** Sorting leaves no choice: two sorted orderings of the same entries are the same sequence. */
  lemma {:induction false} SortedUnique(a: seq<Entry>, b: seq<Entry>)
    requires Sorted(a) && Sorted(b) && multiset(a) == multiset(b)
    ensures a == b
    decreases |a|
  {
    assert |a| == |multiset(a)| == |multiset(b)| == |b|;
    if |a| > 0 {
      SortedHeadsEqual(a, b);
      TailMultiset(a);
      TailMultiset(b);
      SortedUnique(a[1..], b[1..]);
      assert a == [a[0]] + a[1..] && b == [b[0]] + b[1..];
    }
  }

  // ---------------------------------------------------------------------------------------
  // `topics=`

  /** The Ruby values `topics=` may be given or find inside an array. */
  datatype TopicsValue =
    | Str(name: seq<byte>)
    | Int(i: int)
    | Hash(entries: seq<Entry>)
    | Arr(items: seq<TopicsValue>)
    | OtherValue

  /** `Array#flatten`: nested arrays spliced in place, recursively; hashes stay whole. */
  function Flatten(xs: seq<TopicsValue>): (r: seq<TopicsValue>)
    ensures forall i :: 0 <= i < |r| ==> !r[i].Arr?
    decreases xs
  {
    if |xs| == 0 then []
    else (if xs[0].Arr? then Flatten(xs[0].items) else [xs[0]]) + Flatten(xs[1..])
  }

  /** An array with no nested array flattens to itself: the leaves keep their order. */
  lemma {:induction false} FlattenFlat(xs: seq<TopicsValue>)
    requires forall i :: 0 <= i < |xs| ==> !xs[i].Arr?
    ensures Flatten(xs) == xs
    decreases |xs|
  {
    if |xs| > 0 {
      FlattenFlat(xs[1..]);
      assert xs == [xs[0]] + xs[1..];
    }
  }

  /** Flattening distributes over concatenation, so leaves come out in the order they appear. */
  lemma {:induction false} FlattenAppend(xs: seq<TopicsValue>, ys: seq<TopicsValue>)
    ensures Flatten(xs + ys) == Flatten(xs) + Flatten(ys)
    decreases |xs|
  {
    if |xs| == 0 {
      assert xs + ys == ys;
    } else {
      assert (xs + ys)[0] == xs[0];
      assert (xs + ys)[1..] == xs[1..] + ys;
      FlattenAppend(xs[1..], ys);
    }
  }

  /** The work list `topics=` starts from: a flattened array, or the single value. */
  function Input(value: TopicsValue): (r: seq<TopicsValue>)
    ensures forall i :: 0 <= i < |r| ==> !r[i].Arr?
    ensures !value.Arr? ==> r == [value]
  {
    if value.Arr? then Flatten(value.items) else [value]
  }

  function EntryTopics(es: seq<Entry>): (r: seq<Topic>)
    ensures |r| == |es|
    ensures forall i :: 0 <= i < |es| ==> r[i] == Topic(es[i].0, Some(es[i].1))
  {
    seq(|es|, i requires 0 <= i < |es| => Topic(es[i].0, Some(es[i].1)))
  }

  /**
   * The pairs `topics=` builds from its work list, and whether it got through it: a hash adds
   * its sorted entries, a string takes the integer after it as its QoS (0 when none follows),
   * and anything else stops with an error, the pairs gathered so far remaining in place.
   */
  function Normalise(input: seq<TopicsValue>): (r: (seq<Topic>, bool))
    decreases |input|
  {
    if |input| == 0 then ([], true)
    else
      var item := input[0];
      if item.Hash? then
        var n := Normalise(input[1..]);
        (EntryTopics(SortEntries(item.entries)) + n.0, n.1)
      else if item.Str? && |input| > 1 && input[1].Int? then
        var n := Normalise(input[2..]);
        ([Topic(item.name, Some(input[1].i))] + n.0, n.1)
      else if item.Str? then
        var n := Normalise(input[1..]);
        ([Topic(item.name, Some(0))] + n.0, n.1)
      else ([], false)
  }

  /**
   * `topics=`: the loop that shifts items off the work list. The packet's list is reset first
   * and grows with every item, so a refused item leaves the pairs before it in place.
   */
  method SetTopics(p: Packet, value: TopicsValue) returns (r: Result<(), Error>)
    requires p.body.Subscribe?
    modifies p`body
    ensures var n := Normalise(Input(value));
            p.body == Subscribe(old(p.body.messageId), n.0) && (r.Ok? <==> n.1)
    ensures r.Err? ==> r.error == InvalidTopicsInput
  {
    var id := p.body.messageId;
    var input := if value.Arr? then Flatten(value.items) else [value];
    var topics: seq<Topic> := [];
    ghost var whole := Normalise(input);
    assert whole.0 == [] + whole.0;
    while |input| > 0
      invariant whole == Normalise(Input(value))
      invariant whole.0 == topics + Normalise(input).0 && whole.1 == Normalise(input).1
      decreases |input|
    {
      ghost var before := input;
      var item := input[0];
      input := input[1..];
      var added: seq<Topic>;
      if item.Hash? {
        added := EntryTopics(SortEntries(item.entries));
      } else if item.Str? {
        if |input| > 0 && input[0].Int? {
          var qos := input[0].i;
          input := input[1..];
          assert before[2..] == input;
          added := [Topic(item.name, Some(qos))];
        } else {
          added := [Topic(item.name, Some(0))];
        }
      } else {
        assert Normalise(before) == ([], false);
        assert topics + [] == topics;
        p.body := Subscribe(id, topics);
        return Err(InvalidTopicsInput);
      }
      ghost var n := Normalise(input);
      assert Normalise(before) == (added + n.0, n.1);
      AppendAssociative(topics, added, n.0);
      topics := topics + added;
    }
    assert topics + [] == topics;
    p.body := Subscribe(id, topics);
    r := Ok(());
  }

  /** A hash's pairs come out ordered by name whatever order they were written in. */
  lemma HashSorted(es: seq<Entry>)
    ensures Normalise(Input(Hash(es))).1
    ensures var ts := Normalise(Input(Hash(es))).0;
            |ts| == |es|
            && (forall i, j :: 0 <= i < j < |ts| ==> NameLe(ts[i].name, ts[j].name))
            && multiset(ts) == multiset(EntryTopics(es))
  {
    var sorted := SortEntries(es);
    assert |sorted| == |multiset(sorted)| == |multiset(es)| == |es|;
    assert Input(Hash(es)) == [Hash(es)];
    assert Normalise(Input(Hash(es))).0 == EntryTopics(sorted) + [];
    var ts := EntryTopics(sorted);
    forall i, j | 0 <= i < j < |ts| ensures NameLe(ts[i].name, ts[j].name) {
      assert EntryLe(sorted[i], sorted[j]);
      NameLeReflexive(sorted[i].0);
    }
    EntryTopicsMultiset(sorted, es);
  }

  lemma {:induction false} EntryTopicsMultiset(a: seq<Entry>, b: seq<Entry>)
    requires multiset(a) == multiset(b)
    ensures multiset(EntryTopics(a)) == multiset(EntryTopics(b))
  {
    forall t: Topic ensures multiset(EntryTopics(a))[t] == multiset(EntryTopics(b))[t] {
      EntryTopicsCount(a, t);
      EntryTopicsCount(b, t);
    }
  }

  /** Each pair occurs in the topics as often as its entry occurs in the hash. */
  lemma EntryTopicsFirst(es: seq<Entry>)
    requires |es| > 0
    ensures multiset(EntryTopics(es))
            == multiset{Topic(es[0].0, Some(es[0].1))} + multiset(EntryTopics(es[1..]))
  {
    assert EntryTopics(es) == [Topic(es[0].0, Some(es[0].1))] + EntryTopics(es[1..]);
  }

  lemma MultisetFirst<T>(s: seq<T>)
    requires |s| > 0
    ensures multiset(s) == multiset{s[0]} + multiset(s[1..])
  {
    assert s == [s[0]] + s[1..];
  }

  lemma {:induction false} EntryTopicsCount(es: seq<Entry>, t: Topic)
    ensures multiset(EntryTopics(es))[t] == (if t.qos.Some? then multiset(es)[(t.name, t.qos.value)] else 0)
  {
    if |es| > 0 {
      var head := Topic(es[0].0, Some(es[0].1));
      var rest := EntryTopics(es[1..]);
      EntryTopicsCount(es[1..], t);
      EntryTopicsFirst(es);
      MultisetFirst(es);
      if t.qos.Some? {
        var key := (t.name, t.qos.value);
        assert (t == head) == (key == es[0]);
        assert multiset(es)[key] == multiset{es[0]}[key] + multiset(es[1..])[key];
      } else {
        assert t != head;
      }
    }
  }


  /** A string with no integer after it is subscribed at QoS 0. */
  lemma NormaliseName(name: seq<byte>, rest: seq<TopicsValue>)
    requires |rest| == 0 || !rest[0].Int?
    ensures Normalise([Str(name)] + rest)
         == ([Topic(name, Some(0))] + Normalise(rest).0, Normalise(rest).1)
  {
    assert ([Str(name)] + rest)[1..] == rest;
  }

  /**
   * A hash anywhere in the work list contributes all its pairs, sorted by name (as `HashSorted`
   * shows of `SortEntries`), ahead of what the items after it give.
   */
  lemma NormaliseHash(es: seq<Entry>, rest: seq<TopicsValue>)
    ensures Normalise([Hash(es)] + rest)
         == (EntryTopics(SortEntries(es)) + Normalise(rest).0, Normalise(rest).1)
  {
    assert ([Hash(es)] + rest)[1..] == rest;
  }

  /** A string followed by an integer is subscribed at that QoS, and the integer is consumed. */
  lemma NormaliseNamedQos(name: seq<byte>, qos: int, rest: seq<TopicsValue>)
    ensures Normalise([Str(name), Int(qos)] + rest)
         == ([Topic(name, Some(qos))] + Normalise(rest).0, Normalise(rest).1)
  {
    assert ([Str(name), Int(qos)] + rest)[2..] == rest;
  }

  /** An integer with no string before it, or any other value, is refused. */
  lemma NormaliseRefuses(item: TopicsValue, rest: seq<TopicsValue>)
    requires !item.Str? && !item.Hash?
    ensures Normalise([item] + rest) == ([], false)
  {
  }

  // The shapes documented beside `topics=` (lib/mqtt/packet/subscribe.rb:24-27), with the
  // topic names 'a/b' and 'c/d'.

  /** `packet.topics = 'a/b'` */
  lemma SingleNameExample()
    ensures Normalise(Input(Str([0x61, 0x2F, 0x62]))) == ([Topic([0x61, 0x2F, 0x62], Some(0))], true)
  {
    var ab: seq<byte> := [0x61, 0x2F, 0x62];
    NormaliseName(ab, []);
    assert [Str(ab)] + [] == [Str(ab)] && [Topic(ab, Some(0))] + [] == [Topic(ab, Some(0))];
  }

  /** `packet.topics = ['a/b', 'c/d']` */
  lemma NameListExample()
    ensures Normalise(Input(Arr([Str([0x61, 0x2F, 0x62]), Str([0x63, 0x2F, 0x64])])))
         == ([Topic([0x61, 0x2F, 0x62], Some(0)), Topic([0x63, 0x2F, 0x64], Some(0))], true)
  {
    var ab: seq<byte> := [0x61, 0x2F, 0x62];
    var cd: seq<byte> := [0x63, 0x2F, 0x64];
    var tab, tcd := Topic(ab, Some(0)), Topic(cd, Some(0));
    assert Flatten([Str(ab), Str(cd)]) == [Str(ab), Str(cd)] by {
      assert Flatten([Str(cd)]) == [Str(cd)];
    }
    NormaliseName(cd, []);
    assert [Str(cd)] + [] == [Str(cd)] && [tcd] + [] == [tcd];
    NormaliseName(ab, [Str(cd)]);
    assert [Str(ab)] + [Str(cd)] == [Str(ab), Str(cd)] && [tab] + [tcd] == [tab, tcd];
  }

  /** `packet.topics = [['a/b', 0], ['c/d', 1]]`: the nested pairs are flattened first. */
  lemma NestedPairsExample()
    ensures Normalise(Input(Arr([Arr([Str([0x61, 0x2F, 0x62]), Int(0)]), Arr([Str([0x63, 0x2F, 0x64]), Int(1)])])))
         == ([Topic([0x61, 0x2F, 0x62], Some(0)), Topic([0x63, 0x2F, 0x64], Some(1))], true)
  {
    var ab: seq<byte> := [0x61, 0x2F, 0x62];
    var cd: seq<byte> := [0x63, 0x2F, 0x64];
    var pair0: seq<TopicsValue> := [Str(ab), Int(0)];
    var pair1: seq<TopicsValue> := [Str(cd), Int(1)];
    assert Flatten(pair0) == pair0 by {
      assert Flatten(pair0[1..]) == [Int(0)];
    }
    assert Flatten(pair1) == pair1 by {
      assert Flatten(pair1[1..]) == [Int(1)];
    }
    assert Flatten([Arr(pair1)]) == pair1 by {
      assert pair1 + [] == pair1;
    }
    assert Flatten([Arr(pair0), Arr(pair1)]) == pair0 + pair1 by {
      assert [Arr(pair0), Arr(pair1)][1..] == [Arr(pair1)];
    }
    NormaliseNamedQos(cd, 1, []);
    assert pair1 + [] == pair1 && [Topic(cd, Some(1))] + [] == [Topic(cd, Some(1))];
    NormaliseNamedQos(ab, 0, pair1);
    assert [Topic(ab, Some(0))] + [Topic(cd, Some(1))] == [Topic(ab, Some(0)), Topic(cd, Some(1))];
  }

  /** Two entries given in descending order come out swapped. */
  lemma SortTwo(a: seq<byte>, x: int, b: seq<byte>, y: int)
    requires NameLe(a, b) && a != b
    ensures SortEntries([(b, y), (a, x)]) == [(a, x), (b, y)]
  {
    var es: seq<Entry> := [(b, y), (a, x)];
    assert SortEntries(es[1..]) == [(a, x)];
    if NameLe(b, a) {
      NameLeAntisymmetric(a, b);
    }
    assert !EntryLe((b, y), (a, x));
    assert SortEntries(es) == Insert((b, y), [(a, x)]);
    assert [(a, x)][1..] == [];
  }

  /** `packet.topics = {'c/d' => 1, 'a/b' => 0}`: the hash comes out ordered by name. */
  lemma HashExample()
    ensures Normalise(Input(Hash([([0x63, 0x2F, 0x64], 1), ([0x61, 0x2F, 0x62], 0)])))
         == ([Topic([0x61, 0x2F, 0x62], Some(0)), Topic([0x63, 0x2F, 0x64], Some(1))], true)
  {
    var ab: seq<byte> := [0x61, 0x2F, 0x62];
    var cd: seq<byte> := [0x63, 0x2F, 0x64];
    var es: seq<Entry> := [(cd, 1), (ab, 0)];
    SortTwo(ab, 0, cd, 1);
    var ts := EntryTopics([(ab, 0), (cd, 1)]);
    assert ts == [Topic(ab, Some(0)), Topic(cd, Some(1))];
    assert Input(Hash(es)) == [Hash(es)];
    assert [Hash(es)][1..] == [];
    assert Normalise([Hash(es)]) == (ts + [], true);
    assert ts + [] == ts;
  }

  /** `packet.topics = ['a', 1, 2]`: the second integer has no name before it and is refused. */
  lemma StrayIntegerExample()
    ensures Normalise(Input(Arr([Str([0x61]), Int(1), Int(2)]))) == ([Topic([0x61], Some(1))], false)
  {
    var bad: seq<TopicsValue> := [Str([0x61]), Int(1), Int(2)];
    assert Flatten(bad) == bad by {
      assert Flatten(bad[2..]) == [Int(2)];
      assert Flatten(bad[1..]) == [Int(1), Int(2)];
    }
    NormaliseRefuses(Int(2), []);
    assert [Int(2)] + [] == [Int(2)];
    NormaliseNamedQos([0x61], 1, [Int(2)]);
    assert [Str([0x61]), Int(1)] + [Int(2)] == bad;
    assert [Topic([0x61], Some(1))] + [] == [Topic([0x61], Some(1))];
  }

  // ---------------------------------------------------------------------------------------
  // Encoding and decoding

  /** One pair on the wire: the name as a length-prefixed string, then the QoS byte. */
  function TopicBytes(t: Topic): (r: seq<byte>)
  {
    EncodeString(t.name) + [EncodeByte(ToI(t.qos))]
  }

  predicate AllQosSet(topics: seq<Topic>)
  {
    forall i :: 0 <= i < |topics| ==> topics[i].qos.Some?
  }

  /**
   * `encode_body`: refuses an empty list, and a pair whose QoS is nil cannot be packed;
   * otherwise the message identifier (nil counts as 0) and each pair in order.
   */
  function Encode(b: Body): (r: Result<seq<byte>, Error>)
    requires b.Subscribe?
    ensures r.Err? <==> |b.topics| == 0 || !AllQosSet(b.topics)
    ensures r.Err? ==> r.error == (if |b.topics| == 0 then NoTopics else NilTopicQos)
    ensures r.Ok? ==> |r.value| >= 2 + 3 * |b.topics|
  {
    if |b.topics| == 0 then Err(NoTopics)
    else if !AllQosSet(b.topics) then Err(NilTopicQos)
    else
      ConcatLength(b.topics);
      Ok(EncodeShort(ToI(b.messageId)) + Concat(b.topics, TopicBytes))
  }

  lemma {:induction false} ConcatLength(topics: seq<Topic>)
    ensures |Concat(topics, TopicBytes)| >= 3 * |topics|
  {
    if |topics| > 0 {
      ConcatLength(topics[1..]);
    }
  }

  /** `encode_body`, appending each pair as the source's `each` loop does. */
  method EncodeBody(p: Packet) returns (r: Result<seq<byte>, Error>)
    requires p.body.Subscribe?
    ensures r == Encode(p.body)
  {
    var topics := p.body.topics;
    if |topics| == 0 {
      return Err(NoTopics);
    }
    var body := EncodeShort(ToI(p.body.messageId));
    for i := 0 to |topics|
      invariant AllQosSet(topics[..i])
      invariant body == EncodeShort(ToI(p.body.messageId)) + Concat(topics[..i], TopicBytes)
    {
      var item := topics[i];
      if item.qos.None? {
        assert !AllQosSet(topics);
        return Err(NilTopicQos);
      }
      ConcatSnoc(topics[..i], item, TopicBytes);
      assert topics[..i + 1] == topics[..i] + [item];
      body := body + EncodeString(item.name);
      body := body + [EncodeByte(item.qos.value)];
    }
    assert topics[..|topics|] == topics;
    r := Ok(body);
  }

  /** The pairs `parse_body` reads while bytes remain; a truncated last pair has a nil QoS. */
  function DecodeTopics(s: seq<byte>): (r: seq<Topic>)
    ensures |r| <= |s|
    decreases |s|
  {
    if |s| == 0 then []
    else
      var (name, afterName) := ReadString(s);
      var (qos, rest) := ReadByte(afterName);
      [Topic(name, qos)] + DecodeTopics(rest)
  }

  /** `parse_body`: the message identifier, then the packet's list is REPLACED by the pairs read. */
  function Decode(declared: int, s: seq<byte>): (r: Result<(Body, seq<byte>), Error>)
    ensures r.Ok? <==> |s| == declared
    ensures r.Err? ==> r.error == BodyLengthMismatch(|s|, declared)
    ensures r.Ok? ==> r.value.0.Subscribe? && r.value.1 == [] && |r.value.0.topics| <= |s|
    ensures r.Ok? ==> r.value.0.messageId == (if |s| < 2 then None else Some(s[0] as int * 256 + s[1] as int))
                      && r.value.0.topics == DecodeTopics(if |s| < 2 then [] else s[2..])
  {
    if |s| != declared then Err(BodyLengthMismatch(|s|, declared))
    else
      var (id, rest) := ReadShort(s);
      Ok((Subscribe(id, DecodeTopics(rest)), []))
  }

  method ParseBody(p: Packet, buf: Buffer) returns (r: Result<(), Error>)
    requires p.body.Subscribe?
    modifies p`body, buf
    ensures var d := Decode(p.bodyLength, old(buf.bytes));
            (r.Ok? <==> d.Ok?) && (r.Err? ==> r.error == d.error)
            && (r.Ok? ==> p.body == d.value.0 && buf.bytes == d.value.1)
  {
    r := CheckBodyLength(p, buf);
    if r.Err? {
      return;
    }
    var id := buf.ShiftShort();
    ghost var rest := buf.bytes;
    var topics: seq<Topic> := [];
    while |buf.bytes| > 0
      invariant topics + DecodeTopics(buf.bytes) == DecodeTopics(rest)
      decreases |buf.bytes|
    {
      ghost var before := buf.bytes;
      var name := buf.ShiftString();
      var qos := buf.ShiftByte();
      assert DecodeTopics(before) == [Topic(name, qos)] + DecodeTopics(buf.bytes);
      AppendAssociative(topics, [Topic(name, qos)], DecodeTopics(buf.bytes));
      topics := topics + [Topic(name, qos)];
    }
    p.body := Subscribe(id, topics);
  }

  /** Reading back the pairs `encode_body` wrote gives the same pairs, in order. */
  lemma {:induction false} DecodeEncodeTopics(topics: seq<Topic>)
    requires forall i :: 0 <= i < |topics| ==> |topics[i].name| < 65536
    requires forall i :: 0 <= i < |topics| ==> topics[i].qos.Some? && 0 <= topics[i].qos.value < 256
    ensures DecodeTopics(Concat(topics, TopicBytes)) == topics
    decreases |topics|
  {
    if |topics| > 0 {
      var t := topics[0];
      var tail := Concat(topics[1..], TopicBytes);
      assert Concat(topics, TopicBytes) == EncodeString(t.name) + ([EncodeByte(t.qos.value)] + tail);
      ReadStringEncodeString(t.name, [EncodeByte(t.qos.value)] + tail);
      ReadByteEncodeByte(t.qos.value, tail);
      DecodeEncodeTopics(topics[1..]);
    }
  }

  /**
   * Round trip: decoding what `encode_body` wrote gives back the message identifier and the
   * pairs, whatever the decoding packet held before.
   */
  lemma RoundTrip(id: int, topics: seq<Topic>)
    requires 0 <= id < 65536 && |topics| > 0
    requires forall i :: 0 <= i < |topics| ==> |topics[i].name| < 65536
    requires forall i :: 0 <= i < |topics| ==> topics[i].qos.Some? && 0 <= topics[i].qos.value < 256
    ensures Encode(Subscribe(Some(id), topics)).Ok?
    ensures var e := Encode(Subscribe(Some(id), topics)).value;
            Decode(|e|, e) == Ok((Subscribe(Some(id), topics), []))
  {
    ReadShortEncodeShort(id, Concat(topics, TopicBytes));
    DecodeEncodeTopics(topics);
  }

  /**
   * A pair cut off after its name: the QoS byte is missing, so the pair is kept with a nil QoS
   * (which `encode_body` would then fail on).
   */
  lemma TruncatedPair()
    ensures Decode(5, [0x00, 0x01, 0x00, 0x01, 0x61]) == Ok((Subscribe(Some(1), [Topic([0x61], None)]), []))
  {
    var whole: seq<byte> := [0x00, 0x01, 0x00, 0x01, 0x61];
    var s: seq<byte> := [0x00, 0x01, 0x61];
    assert ReadShort(whole) == (Some(1), s) by {
      assert whole[2..] == s;
    }
    assert ReadShort(s) == (Some(1), [0x61]) by {
      assert s[2..] == [0x61];
    }
    var one: seq<byte> := [0x61];
    assert one[..1] == one && one[1..] == [];
    assert ReadData(one, 1) == (one, []);
    assert ReadString(s) == ([0x61], []);
    assert DecodeTopics(s) == [Topic([0x61], None)];
  }
}

=== FILE: unsubscribe.dfy ===
/**
 * UNSUBSCRIBE (lib/mqtt/packet/unsubscribe.rb): a message identifier followed by the topic
 * filters to unsubscribe from, each a length-prefixed string. The constructor forces QoS 1.
 */
module UnsubscribePacket {
  import opened Wrappers
  import opened Bytes
  import opened Packets

  /** What `topics=` may be given: an array of topic names or a single one. */
  datatype TopicsArg = TopicList(names: seq<seq<byte>>) | SingleTopic(name: seq<byte>)

  /** `topics=`: an array is stored as it is, anything else as a one-element array. */
  function WithTopics(b: Body, arg: TopicsArg): (r: Body)
    requires b.Unsubscribe?
    ensures r.Unsubscribe? && r.messageId == b.messageId
    ensures arg.TopicList? ==> r.topicNames == arg.names
    ensures arg.SingleTopic? ==> r.topicNames == [arg.name]
  {
    match arg
    case TopicList(names) => Unsubscribe(b.messageId, names)
    case SingleTopic(name) => Unsubscribe(b.messageId, [name])
  }

  method SetTopics(p: Packet, arg: TopicsArg)
    requires p.body.Unsubscribe?
    modifies p`body
    ensures p.body == WithTopics(old(p.body), arg)
  {
    match arg
    case TopicList(names) => p.body := Unsubscribe(p.body.messageId, names);
    case SingleTopic(name) => p.body := Unsubscribe(p.body.messageId, [name]);
  }

  /**
   * `encode_body`: refuses an empty list; otherwise the message identifier (nil counts as 0)
   * followed by each topic name as a length-prefixed string.
   */
  function Encode(b: Body): (r: Result<seq<byte>, Error>)
    requires b.Unsubscribe?
    ensures r.Err? <==> |b.topicNames| == 0
    ensures r.Err? ==> r.error == NoTopics
    ensures r.Ok? ==> |r.value| >= 2 && r.value[..2] == EncodeShort(ToI(b.messageId))
  {
    if |b.topicNames| == 0 then Err(NoTopics)
    else Ok(EncodeShort(ToI(b.messageId)) + Concat(b.topicNames, EncodeString))
  }

  /** `encode_body`, appending one string per topic as the source's `each` loop does. */
  method EncodeBody(p: Packet) returns (r: Result<seq<byte>, Error>)
    requires p.body.Unsubscribe?
    ensures r == Encode(p.body)
  {
    var names := p.body.topicNames;
    if |names| == 0 {
      return Err(NoTopics);
    }
    var body := EncodeShort(ToI(p.body.messageId));
    for i := 0 to |names|
      invariant body == EncodeShort(ToI(p.body.messageId)) + Concat(names[..i], EncodeString)
    {
      ConcatSnoc(names[..i], names[i], EncodeString);
      assert names[..i + 1] == names[..i] + [names[i]];
      AppendAssociative(EncodeShort(ToI(p.body.messageId)), Concat(names[..i], EncodeString), EncodeString(names[i]));
      body := body + EncodeString(names[i]);
    }
    assert names[..|names|] == names;
    r := Ok(body);
  }

  /** The strings `parse_body` reads while bytes remain (a short last string is cut off). */
  function DecodeStrings(s: seq<byte>): (r: seq<seq<byte>>)
    ensures |r| <= |s|
    decreases |s|
  {
    if |s| == 0 then []
    else
      var (name, rest) := ReadString(s);
      [name] + DecodeStrings(rest)
  }

  /** `parse_body`: the message identifier, then the strings are APPENDED to the packet's topics. */
  function Decode(b: Body, declared: int, s: seq<byte>): (r: Result<(Body, seq<byte>), Error>)
    requires b.Unsubscribe?
    ensures r.Ok? <==> |s| == declared
    ensures r.Err? ==> r.error == BodyLengthMismatch(|s|, declared)
    ensures r.Ok? ==> r.value.0.Unsubscribe? && r.value.1 == []
                      && |r.value.0.topicNames| >= |b.topicNames|
                      && r.value.0.topicNames[..|b.topicNames|] == b.topicNames
  {
    if |s| != declared then Err(BodyLengthMismatch(|s|, declared))
    else
      var (id, rest) := ReadShort(s);
      Ok((Unsubscribe(id, b.topicNames + DecodeStrings(rest)), []))
  }

  method ParseBody(p: Packet, buf: Buffer) returns (r: Result<(), Error>)
    requires p.body.Unsubscribe?
    modifies p`body, buf
    ensures var d := Decode(old(p.body), p.bodyLength, old(buf.bytes));
            (r.Ok? <==> d.Ok?) && (r.Err? ==> r.error == d.error)
            && (r.Ok? ==> p.body == d.value.0 && buf.bytes == d.value.1)
  {
    r := CheckBodyLength(p, buf);
    if r.Err? {
      return;
    }
    var id := buf.ShiftShort();
    ghost var rest := buf.bytes;
    var names := p.body.topicNames;
    while |buf.bytes| > 0
      invariant names + DecodeStrings(buf.bytes) == old(p.body.topicNames) + DecodeStrings(rest)
      decreases |buf.bytes|
    {
      ghost var before := buf.bytes;
      var name := buf.ShiftString();
      assert DecodeStrings(before) == [name] + DecodeStrings(buf.bytes);
      AppendAssociative(names, [name], DecodeStrings(buf.bytes));
      names := names + [name];
    }
    p.body := Unsubscribe(id, names);
  }

  /** Reading back the strings `encode_body` wrote gives the same names, in order. */
  lemma {:induction false} DecodeEncodeStrings(names: seq<seq<byte>>)
    requires forall i :: 0 <= i < |names| ==> |names[i]| < 65536
    ensures DecodeStrings(Concat(names, EncodeString)) == names
    decreases |names|
  {
    if |names| > 0 {
      var tail := Concat(names[1..], EncodeString);
      ReadStringEncodeString(names[0], tail);
      assert |EncodeString(names[0]) + tail| > 0;
      DecodeEncodeStrings(names[1..]);
    }
  }

  /** Round trip: a fresh UNSUBSCRIBE decodes what `encode_body` wrote. */
  lemma RoundTrip(id: int, names: seq<seq<byte>>, into: Option<int>)
    requires 0 <= id < 65536 && |names| > 0
    requires forall i :: 0 <= i < |names| ==> |names[i]| < 65536
    ensures Encode(Unsubscribe(Some(id), names)).Ok?
    ensures var e := Encode(Unsubscribe(Some(id), names)).value;
            Decode(Unsubscribe(into, []), |e|, e) == Ok((Unsubscribe(Some(id), names), []))
  {
    var strings := Concat(names, EncodeString);
    ReadShortEncodeShort(id, strings);
    DecodeEncodeStrings(names);
    assert [] + names == names;
  }

  /** Decoding into a packet that already holds topics keeps them in front of the new ones. */
  lemma DecodeAppends(b: Body, s: seq<byte>)
    requires b.Unsubscribe? && |s| >= 2
    ensures Decode(b, |s|, s).Ok?
    ensures Decode(b, |s|, s).value.0.topicNames == b.topicNames + DecodeStrings(s[2..])
  {
  }
}

=== FILE: wrappers.dfy ===
/** Option and Result, the failure-carrying datatypes used throughout the model. */
module Wrappers {

  /** `None` stands for Ruby's `nil` wherever the source can leave a field unset. */
  datatype Option<+T> = None | Some(value: T) {
    function GetOr(default: T): T
    {
      match this
      case Some(v) => v
      case None => default
    }
  }

  /** A raised exception is an `Err`; normal completion is `Ok`. */
  datatype Result<+T, +E> = Ok(value: T) | Err(error: E)

  /** Ruby's `to_i` on an integer-or-nil field: nil becomes 0. */
  function ToI(v: Option<int>): (r: int)
    ensures v.Some? ==> r == v.value
    ensures v.None? ==> r == 0
  {
    v.GetOr(0)
  }
}
